=== FILE: README.md ===
# Build-log warning comparator, modelled in Dafny

This project models the core of a tool that compares the compiler warnings
of two runs of a Delphi build. The tool works in four steps:

1. It reads a build log that is already in memory as a list of lines.
2. It turns the lines into a tree of build stages. A stage opens at a
   configured target step or at an angle-bracket marker such as `<dcc>:` or
   `<App.dpr>:`. Stages nest by indentation.
3. It extracts every warning or hint line of the stages and gives each one a
   normalized comparison key.
4. It compares the two runs stage by stage: which keys were added, which
   were removed and how many are unchanged, with totals and per-type
   tallies.

Two helpers of the console report are modelled too: ANSI colouring and the
greedy word wrap of a warning's text. So is the validation of a
configuration.

Modules, one per source file, plus shared helpers:

- `Wrappers` (`wrappers.dfy`): `Option` and `Result`.
- `Strings` (`text.dfy`): Python's `strip`, `split`, `join`, `lower`, `str(n)`
  and string order, plus the whitespace and digit classes of `re`.
- `Configuration` (`config.dfy`): the `Config` shape, the defaults and
  `validate_config`.
- `Parser` (`parser.dfy`): `calculate_indentation`, `_extract_step_info`,
  `parse_log` and `extract_target_steps`.
  - The stage tree is stated declaratively: `SpecForest` is built from the
    header lines.
  - The stack loop of `parse_log` is the method `ParseLog`, proved equal to
    `SpecForest`.
- `Extractor` (`extractor.dfy`): `parse_warning_details`,
  `normalize_warning` and `extract_warnings`.
  - Every fixed regular expression is written out as a left-to-right scan
    with `re`'s leftmost, backtracking semantics.
  - `ExtractorExamples` (`extractor_examples.dfy`) works through the
    documented examples.
- `Comparator` (`comparator.dfy`): `group_by_stage`, `match_stages` and
  `compare_logs`.
  - The loops are methods proved against specification functions.
  - `ComparatorProperties` (`comparator_props.dfy`) proves what the summary
    of `compare_logs` means.
- `Reporter` (`reporter.dfy`): `colorize` and `format_warning_text`.

Where the documentation and the code disagree, the model follows the code:

- `calculate_indentation("  \t  mixed")` is documented as 6, but the code
  counts 8 (`Parser.IndentationMixedExample`).
- The documented key of `[14:13:30] : [<dcc>] file.pas(123) Warning: test`
  is `file.pas Warning: test`. The code also drops the file name and gives
  `Warning: test` (`ExtractorExamples.NormalizeDocExample`).
- Normalizing a key a second time can change it, because one pass drops
  only one bracketed prefix (`ExtractorExamples.NormalizeNotIdempotent`).
- `extract_warnings` reads `.pattern` and `.type` from each warning
  pattern, but the default `Config` lists bare strings. The model gives each
  pattern a substring and a kind, as `extract_warnings` uses them.
- `normalize_warning` reads `config.comparison["ignore_case"]`, but `Config`
  has no `comparison` field. The model keeps the switch as
  `Config.ignoreCase`, which is false by default.

## Model

| member | source | states |
|---|---|---|
| Parser.Indentation | src/parser.py:51-60 | depth = number of leading spaces + 4 × number of leading tabs, counted up to the first other character |
| Parser.IndentationNoIndentExample | src/parser.py:42-43 | a line with no leading whitespace has depth 0 |
| Parser.IndentationSpacesExample | src/parser.py:44-45 | two leading spaces give depth 2 |
| Parser.IndentationTabsExample | src/parser.py:46-47 | two leading tabs give depth 8 |
| Parser.IndentationMixedExample | src/parser.py:48-49 | two spaces, a tab and two spaces give depth 8 (the code; the documentation says 6) |
| Parser.IndentStart | src/parser.py:181-193 | for a line that strips to `[`…`]`, indentation is measured after the first `:` following the first `]`, or right after that `]` if no `:` follows; otherwise from the start |
| Parser.FirstNonSpaceIsStrip | src/parser.py:181 | `line.strip().startswith("[")` holds exactly when the first non-whitespace character is `[` |
| Parser.SkipBracketPrefix | src/parser.py:197-201 | a leading `[...]` is skipped up to the first `]`; pinned by `BracketPrefixSkipped` and `NoBracketPrefixKept` |
| Parser.BracketPrefixSkipped | src/parser.py:197-201 | `[`, text without `]`, `]` and the whitespace after them are skipped; what follows is kept as it is |
| Parser.NoBracketPrefixKept | src/parser.py:197-201 | text that does not start with `[`, or holds no `]`, is kept whole |
| Parser.FirstTarget | src/parser.py:204-206 | returns the first target, in config order, whose pattern occurs in the line; None exactly when no pattern occurs |
| Parser.MarkerAt | src/parser.py:210-211 | a `<w>:` match at a position, with `w` non-empty and free of `>`, is unique |
| Parser.MarkerGroups | src/parser.py:210-211 | every group `re.findall` returns is non-empty and holds no `>` |
| Parser.MarkerGroupsFrom | src/parser.py:210-211 | every group found from a position on is non-empty and holds no `>` |
| Parser.MarkerGroupsFromScan | src/parser.py:210-211 | the scan from a position returns the groups of matches at strictly increasing, non-overlapping positions from there on, and every position where a match starts lies inside one of them |
| Parser.MarkerScanTake | src/parser.py:210-211 | a match at the scan position is taken and the scan resumes after its end |
| Parser.MarkerScanSkip | src/parser.py:210-211 | with no match at the scan position, the scan moves one character on |
| Parser.MarkerGroupsScan | src/parser.py:210-211 | `re.findall` returns the groups of the leftmost non-overlapping matches, and every match position lies inside a returned match |
| Parser.StepInfo | src/parser.py:159-221 | a stage found in a line has the depth of the text after the timestamp and flag |
| Parser.TargetPrecedence | src/parser.py:204-206 | if target i is the first whose pattern occurs in the line, the stage is named after target i, whatever markers the line holds |
| Parser.MarkerFallback | src/parser.py:208-219 | with no target pattern in the line, the stage is `<g>` for the first marker group g that is a configured marker or ends in `.dpr` |
| Parser.FirstStageMarker | src/parser.py:213-219 | None exactly when no group is a configured marker or ends in `.dpr`; otherwise `<g>` for the first group g, in order, that is one |
| Parser.NoStepInfo | src/parser.py:203-221 | a line opens no stage exactly when no target pattern occurs in it and no marker group names a stage |
| Parser.StageBounds | src/parser.py:128-154 | a stage ends no earlier than its header line and no later than the last line |
| Parser.ChildInsideParent | src/parser.py:129-143 | a sub-stage is created after its parent, is deeper, and ends no later than it |
| Parser.SpecStageShape | src/parser.py:116-154 | each stage starts at its header line, which is its first line; its sub-stages are deeper, lie inside it and are listed in log order |
| Parser.SpecLinesAccounted | src/parser.py:108-149 | together the stages hold every non-blank line from the first header on, each once and in order; earlier lines are dropped |
| Parser.StackDeepens | src/parser.py:129-143 | the depths along the open-stage stack strictly increase from bottom to top |
| Parser.CloseDeeper | src/parser.py:129-131 | pops exactly the top entries whose depth is ≥ the new depth and sets each popped stage's end to the previous line |
| Parser.ReadHeader | src/parser.py:116-143 | after the pops, the new stage holds its header line, becomes a child of the stack top (or a new root) and is pushed; the parser invariant is kept |
| Parser.ReadOther | src/parser.py:144-149 | a blank line changes nothing; any other line joins the stack-top stage and moves its end to this line, or is dropped when no stage is open |
| Parser.SpecForest | src/parser.py:77-156 | the forest `parse_log` builds, stated over the whole input; `StageBounds`, `ChildInsideParent`, `SpecStageShape` and `SpecLinesAccounted` pin it down, and `ParseLog` is proved to return it |
| Parser.ParseLog | src/parser.py:99-156 | the stack loop, including the final pops, returns exactly the declarative forest `SpecForest` |
| Parser.ExtractTargetSteps | src/parser.py:270-309 | `extract_target_steps`; pinned by `ExtractWildcard` (a `*` pattern keeps the forest) and `ExtractInOrder` (otherwise the targets of the walk that stops at targets, in order) |
| Parser.Selects | src/parser.py:293-297 | a target step selects a stage whose name equals the step's name or holds its pattern; `ExtractExposed` states selection through it |
| Parser.IsTarget | src/parser.py:293-297 | the `is_target` flag: some configured target step selects the stage; `TargetsInMembers` and `ExtractExposed` state that exactly such stages are kept |
| Parser.ExtractWildcard | src/parser.py:286-289 | with a `*` target pattern, the forest is returned unchanged |
| Parser.ExtractExposed | src/parser.py:291-309 | otherwise a stage is selected exactly when it is a target reached from the top only through non-target stages |
| Parser.ExposedWalk | src/parser.py:291-309 | a nonempty forest's walk starts at its first stage |
| Parser.ExposedWalkMembers | src/parser.py:291-309 | the walk visits exactly the stages reached from the top through non-target stages |
| Parser.TargetsIn | src/parser.py:293-303 | the filter returns no more stages than it is given |
| Parser.TargetsInMembers | src/parser.py:293-303 | the filter keeps exactly the stages that are targets |
| Parser.TargetsInAppend | src/parser.py:291-309 | filtering a concatenation concatenates the filtered parts |
| Parser.ExtractInOrder | src/parser.py:291-309 | without a `*` pattern, the result is the pre-order walk that stops at targets, filtered to the targets: same stages, same order, same repetitions |
| Parser.ExtractIdempotent | src/parser.py:270-309 | selecting the targets twice gives the same forest as selecting once |
| Parser.AllTargetsKept | src/parser.py:293-303 | a forest whose top stages are all targets is returned unchanged |
| Extractor.ParseWarningDetails | src/extractor.py:32-71 | `parse_warning_details`; pinned by `ParseWarningDetailsSpec`: the leftmost match's path and number, or `("", 0)` when there is none |
| Extractor.ParseWarningDetailsSpec | src/extractor.py:60-71 | the result is the path and number of the leftmost match of the pattern (a drive-letter path, or a colon-free path, ending in a source extension, then `(digits)`), with no match starting earlier; or `("", 0)` when no position starts a match |
| Extractor.MatchAtDetails | src/extractor.py:60-63 | every match of the pattern at a position is what the scan finds there |
| Extractor.DetailsAtMatch | src/extractor.py:60-63 | whatever the scan finds at a position is a match of the pattern there |
| Extractor.MatchAtUnique | src/extractor.py:60-63 | at most one match starts at a position: path, digits and number agree |
| Extractor.ReferenceAtPos | src/extractor.py:60-63 | a path the pattern accepts, `(`, digits and `)` at a position are found there |
| Extractor.DetailsFound | src/extractor.py:65-71 | the scan from a position reports the match at the first position that has one, or nothing when none does |
| Extractor.DetailsOfDigits | src/extractor.py:60-69 | a line that starts with `path(digits)` yields the path and the decimal value of the digits (leading zeros included), whatever follows |
| Extractor.DetailsOfReference | src/extractor.py:60-69 | a line that starts with a reference `path(n)` yields `(path, n)`, whatever follows |
| ExtractorExamples.ParseWarningDetailsDriveExample | src/extractor.py:49-50 | `N:\Path\file.pas(123) Warning: test` gives `("N:\Path\file.pas", 123)` |
| ExtractorExamples.ParseWarningDetailsFileExample | src/extractor.py:51-52 | `file.pas(456) Hint: test` gives `("file.pas", 456)` |
| Extractor.DropKindTag | src/extractor.py:99-101 | the type-tag step; pinned by `KindTagDropped` (a tag goes) and `NoKindTagKept` (a `[` before a non-letter stays) |
| Extractor.KindTagDropped | src/extractor.py:99-101 | `[`, a word whose lower-case form is `hint` or `warning`, `]` and the whitespace after them are removed; the rest is kept as it is |
| ExtractorExamples.KindTagDocExample | src/extractor.py:99-100 | `[Hint] [14:14:17] x` becomes `[14:14:17] x`, as the comment on the step says |
| Extractor.DropTimestamp | src/extractor.py:103-106 | the default timestamp pattern `^\[\d{2}:\d{2}:\d{2}\]`; pinned by `TimestampDropped` |
| Extractor.TimestampDropped | src/extractor.py:103-106 | the step changes the text exactly when it starts with `[hh:mm:ss]` (two digits each), and then removes exactly those ten characters |
| Extractor.DropFlag | src/extractor.py:108-111 | the flag step; pinned by `FlagDropped`, `ColonFlagDropped`, `DriveLetterKept` and `NoColonNoFlag` |
| Extractor.NoKindTagKept | src/extractor.py:101 | a line starting with `[` and a non-letter has no type tag to drop |
| Extractor.DriveLetterKept | src/extractor.py:108-111 | a drive letter followed by `:` and non-whitespace survives the flag step |
| Extractor.FlagDropped | src/extractor.py:111 | a one-letter flag, its colon and the whitespace after it are removed |
| Extractor.ColonFlagDropped | src/extractor.py:111 | a bare ` : ` flag is removed |
| Extractor.NoColonNoFlag | src/extractor.py:108-111 | text without `:` that starts with something other than whitespace is unchanged by the flag step |
| Extractor.DropBracketPrefix | src/extractor.py:113-114 | the bracketed-prefix step; pinned by `BracketDropped` |
| Extractor.BracketDropped | src/extractor.py:114 | a leading `[...]` prefix and the whitespace after it are removed |
| Extractor.DropBuildAreaFrom | src/extractor.py:116-119 | the default path-prefix substitution as a left-to-right scan; pinned by `BuildAreaDropped` at a match and `BuildAreaKept` elsewhere |
| Extractor.BuildAreaDropped | src/extractor.py:117-119 | under the default path pattern, `N:\BuildArea\<dir>\` is removed |
| Extractor.BuildAreaAtShape | src/extractor.py:116-119 | what the scan takes for a match is one, stated on characters: the root, a name without a backslash, a backslash |
| Extractor.BuildAreaKept | src/extractor.py:116-119 | where no match of the pattern starts, the character is kept and the scan moves one character on |
| Extractor.NoBuildAreaKept | src/extractor.py:117-119 | text without an upper-case `N` is unchanged by the default path pattern |
| Extractor.StripLineNumbersFrom | src/extractor.py:121-128 | the line-number substitution as a left-to-right scan; pinned by `LineNumberDropped` at a match and `LineNumberKept` elsewhere |
| Extractor.LineNumberDropped | src/extractor.py:124-128 | `(digits)` right after a token holding `\`, `.` or `/` is removed and the token kept |
| Extractor.LineNumberAtShape | src/extractor.py:124-128 | what the scan takes for a match is one, stated on characters: path characters with a separator that has one after it, `(`, digits, `)` |
| Extractor.LineNumberKept | src/extractor.py:124-128 | where no match of the pattern starts (a `(12a)`, or no separator before the `(`), the character is kept and the scan moves one character on |
| Extractor.NoParenKept | src/extractor.py:124-128 | text without `(` is unchanged by the line-number step |
| Extractor.DropFileBeforeKindFrom | src/extractor.py:130-138 | the file-name substitution as a left-to-right scan; pinned by `SpacedFileBeforeKindDropped` at a match and `FileKindKept` elsewhere |
| Extractor.FileBeforeKindDropped | src/extractor.py:133-138 | `<file>.<ext> Hint:`/`Warning:` (either case) loses the file name and the whitespace; the type word and its colon stay as written |
| Extractor.KindAfterFileAtShape | src/extractor.py:133-138 | what the scan takes for a match is one, stated on characters: whitespace, a word ending in an extension, whitespace, `hint:` or `warning:` in any case |
| Extractor.FileKindKept | src/extractor.py:133-138 | where no match of the pattern starts, the character is kept and the scan moves one character on |
| Extractor.SpacedFileBeforeKindDropped | src/extractor.py:133-138 | a match that starts with whitespace loses that whitespace, the file name and the whitespace after it; the type word and its colon stay |
| ExtractorExamples.FileKindGlued | src/extractor.py:133-138 | `x file.pas Hint: y` becomes `xHint: y`: the match takes the space before the file name |
| Extractor.NoColonKept | src/extractor.py:133-138 | text without `:` is unchanged by the file-name step |
| Extractor.Reduce | src/extractor.py:124-144 | after the global substitutions and the spacing steps, the text is single-spaced with no whitespace at either end |
| Extractor.NormalizeWarning | src/extractor.py:74-150 | the key is single-spaced and trimmed; with `ignore_case` it is its own lower-case form |
| Extractor.DefaultPrefixes | src/extractor.py:97-119 | under the default configuration the anchored steps apply in order: type tag, timestamp, flag, bracketed prefix, build-area root |
| Extractor.PlainReduced | src/extractor.py:117-144 | single-spaced text without `(`, `:` or `N` passes the path, line-number, file-name and spacing steps unchanged |
| Extractor.PlainNormalized | src/extractor.py:97-150 | under the default configuration, single-spaced text without `(`, `:` or `N` that does not start with `[` is its own key |
| ExtractorExamples.NormalizeDocExample | src/extractor.py:92-95 | the documented line normalizes to `Warning: test` (the code drops the file name that the documentation keeps) |
| ExtractorExamples.NormalizeNotIdempotent | src/extractor.py:113-114 | `[<a>] [<b>] c` normalizes to `[<b>] c`, which normalizes to `c`: normalization is not idempotent |
| Extractor.FirstPattern | src/extractor.py:180-181 | finds the first warning pattern, in config order, that occurs in the line; None when none occurs |
| Extractor.LineWarning | src/extractor.py:180-202 | one line's record, if any; pinned by `LineWarningSpec` |
| Extractor.OwnWarnings | src/extractor.py:178-202 | a stage's own records; pinned by `OwnWarningsSpec` and `OwnWarningsStage` |
| Extractor.LineWarningSpec | src/extractor.py:178-202 | a line yields a record exactly when some pattern occurs in it; the record's type is the first such pattern's, `original` is the stripped line, `text` the key, and the file reference comes from `parse_warning_details` |
| Extractor.OwnWarningsSpec | src/extractor.py:178-202 | each of a stage's own records comes from one of its lines, and every line holding a pattern has its record among them |
| Extractor.OwnWarningsStage | src/extractor.py:196 | every record of a stage's lines carries that stage's name |
| Extractor.ForestWarningsPreOrder | src/extractor.py:204-207 | the records of a forest are the stages' own records taken in pre-order |
| Extractor.ExtractWarnings | src/extractor.py:153-209 | `extract_warnings`; pinned by `ExtractWarningsPreOrder`: own records first, then the sub-stages' in pre-order |
| Extractor.ExtractWarningsPreOrder | src/extractor.py:175-209 | a stage's own records come first, then those of its sub-stages in pre-order |
| Extractor.FindRecord | src/extractor.py:180-202 | the pattern loop with `break` returns the line's record |
| Extractor.CollectOwnWarnings | src/extractor.py:178-202 | the line loop appends exactly the stage's own records |
| Extractor.CollectWarnings | src/extractor.py:153-209 | `extract_warnings` returns the own records followed by each sub-stage's records |
| Extractor.CollectForest | src/extractor.py:205-207 | the child loop appends each child's records in order |
| Configuration.Lookup | src/extractor.py:104-105 | `d.get(key)` finds a value exactly when an entry has that key, and the value is that entry's |
| Configuration.FirstIncompleteStep | src/config.py:157-163 | reports the first step (by 1-based number) with an empty pattern, else with an empty name; nothing when every step is complete |
| Configuration.FirstInvalidPattern | src/config.py:176-183 | reports the key of the first ignore pattern that does not compile; nothing when all compile |
| Configuration.FirstNonFlag | src/config.py:189-194 | reports the key of the first output value that is not a boolean; nothing when all are booleans |
| Configuration.ValidateConfig | src/config.py:139-196 | succeeds, with `True`, exactly when every check passes |
| Configuration.NoTargetStepsReported | src/config.py:153-154 | "no target steps" is reported exactly when the list is empty |
| Configuration.IncompleteStepReported | src/config.py:156-163 | a missing pattern or name is reported for the first incomplete step; the pattern is checked before the name |
| Configuration.NoStageMarkersReported | src/config.py:166-167 | "no stage markers" is reported exactly when the target steps pass and there are no markers |
| Configuration.NoWarningPatternsReported | src/config.py:170-173 | "no warning patterns" is reported exactly when the earlier checks pass and there are no patterns |
| Configuration.StructureChecked | src/config.py:152-173 | the target-step, stage-marker and warning-pattern checks pass exactly when there are targets, all complete, and there are markers and warning patterns |
| Configuration.FirstInvalidIs | src/config.py:176-183 | when the ignore pattern at `j` is the first that does not compile, its key is the one reported |
| Configuration.FirstNonFlagIs | src/config.py:190-194 | when the output entry at `j` is the first whose value is not a boolean, its key is the one reported |
| Configuration.InvalidIgnorePatternReported | src/config.py:152-183 | the ignore pattern `key` is reported exactly when the target-step, marker and warning-pattern checks pass and it is the first ignore pattern, in order, that does not compile |
| Configuration.NotAFlagReported | src/config.py:152-194 | the output entry `key` is reported exactly when every earlier check passes, every ignore pattern compiles, and it is the first output entry, in order, whose value is not a boolean |
| Configuration.DefaultConfigValid | src/config.py:36-68 | the default configuration passes validation when its two default patterns compile |
| Configuration.TargetStepsCheckedFirst | src/config.py:152-163 | an incomplete target step is reported, at or before its own number, even if later checks would fail too |
| Comparator.OfStage | src/comparator.py:82-88 | the records of one stage in input order; pinned by `OfStageSpec` |
| Comparator.OfStageSpec | src/comparator.py:82-88 | a stage's list holds every record of that stage, with its multiplicity, and nothing else |
| Comparator.GroupByStage | src/comparator.py:80-90 | the grouping loop returns `Grouped(ws)` |
| Comparator.Grouped | src/comparator.py:54-90 | what `group_by_stage` returns; pinned by `GroupedSpec`, and `GroupByStage` is proved to return it |
| Comparator.GroupedSpec | src/comparator.py:80-90 | keys are distinct and are exactly the stages present; each key's list is that stage's records in input order |
| Comparator.GroupSizes | src/comparator.py:80-90 | the group lengths add up to the number of records |
| Comparator.GroupByStageExample | src/comparator.py:67-78 | the documented example has two `<Abd.dpr>` records and one `<Core.dpr>` record |
| Comparator.SortedNames | src/comparator.py:121-124 | `sorted(set(names))`; pinned by `SortedNamesSpec` |
| Comparator.SortedNamesSpec | src/comparator.py:121-124 | `sorted(set(...))` is strictly increasing and holds exactly the given names |
| Comparator.MatchStages | src/comparator.py:93-128 | `match_stages`; pinned by `MatchStagesSpec` and `MatchStagesSymmetric` |
| Comparator.MatchStagesSpec | src/comparator.py:118-128 | each name is paired with itself; the names are strictly sorted and are exactly the stages of either run |
| Comparator.MatchStagesSymmetric | src/comparator.py:121 | swapping the runs does not change the matches |
| Comparator.Texts | src/comparator.py:176-177 | `{w.text for w in ws}`; pinned by `TextsSpec` |
| Comparator.TextsSpec | src/comparator.py:176-177 | a key is in the key set exactly when some record has it |
| Comparator.StageResult | src/comparator.py:170-200 | one stage's comparison; pinned by `StageAddedRemoved`, `StageConservation`, `UnchangedTallies` and `StageSymmetric` |
| Comparator.StageAddedRemoved | src/comparator.py:180-186 | each new record is added, once per occurrence, exactly when its key is absent from the old run; removed is the same with the runs swapped |
| Comparator.StageConservation | src/comparator.py:180-204 | the added and removed keys are the set differences; with `unchanged_count` they account for each run's distinct keys |
| Comparator.UnchangedTallies | src/comparator.py:188-206 | unchanged records are counted per occurrence and are at least `unchanged_count`; with only warnings and hints, the two tallies add up to them |
| Comparator.UnchangedDuplicatesCounted | src/comparator.py:188-206 | an old warning present twice and kept gives `unchanged_count` 1 but 2 unchanged warnings |
| Comparator.StageSymmetric | src/comparator.py:180-186 | swapping the runs swaps added and removed and keeps `unchanged_count` |
| Comparator.StageKept | src/comparator.py:209-211 | a stage with any record in either run is kept in `by_stage` |
| Comparator.StageOnlyInOld | src/comparator.py:171-186 | a stage only the old run has: all its records are removed, none are added or unchanged |
| Comparator.StageOnlyInNew | src/comparator.py:171-186 | a stage only the new run has: all its records are added |
| Comparator.CompareStage | src/comparator.py:175-207 | the per-stage sets, lists and counting loop give `StageResult` and the unchanged keys |
| Comparator.FirstUnknown | src/comparator.py:219-228 | finds the first record whose type is neither Warning nor Hint; None exactly when all are known |
| Comparator.TallyRecords | src/comparator.py:219-223 | the tally loop counts each record into its type's column, or fails on the first unknown type |
| Comparator.TallyUnchanged | src/comparator.py:225-228 | the unchanged loop counts each old record with an unchanged key, or fails on the first unknown type |
| Comparator.AddStage | src/comparator.py:209-228 | one stage's updates: keep the result if it has anything, add it to the totals and tally by type, or fail with `KeyError` |
| Comparator.CompareLogsSpec | src/comparator.py:131-230 | the fold of the matched stages, or the first unknown type; pinned by the `ComparatorProperties` lemmas, and `CompareLogs` is proved to return it |
| Comparator.CompareLogs | src/comparator.py:159-230 | the stage loop returns `CompareLogsSpec`: the fold of every matched stage, or the first unknown type |
| ComparatorProperties.AllStagesKept | src/comparator.py:209-211 | every matched stage has a record, so no result is left out of `by_stage` |
| ComparatorProperties.CompareLogsStageNames | src/comparator.py:121-211 | on success, `by_stage` is strictly sorted by name and names exactly the stages of either run |
| ComparatorProperties.CompareLogsStageEntries | src/comparator.py:170-211 | on success, each `by_stage` entry is the comparison of that stage's old and new records |
| ComparatorProperties.CompareLogsTallies | src/comparator.py:213-228 | on success, the added tallies sum to `total_added` and the removed tallies to `total_removed`; the unchanged tallies are at least `total_unchanged` |
| ComparatorProperties.CompareLogsSucceeds | src/comparator.py:43-47 | when every record is a warning or a hint, no `KeyError` is raised |
| ComparatorProperties.CompareLogsSymmetric | src/comparator.py:170-216 | swapping the runs mirrors `by_stage` (added and removed swap), swaps the totals and keeps `total_unchanged` |
| ComparatorProperties.OneStage | src/comparator.py:159-186 | runs whose records all share one stage are compared as that single stage |
| ComparatorProperties.CompareLogsDocExample | src/comparator.py:148-157 | old `[w1]` and new `[w1, w2]` give 1 added, 0 removed and 1 unchanged |
| Reporter.Colorize | src/reporter.py:42-45 | colours off: the text itself; colours on: the colour code, then the text, then the reset code |
| Reporter.ColorizeDocExample | src/reporter.py:37-40 | `colorize("test", GREEN, True)` is `\033[92mtest\033[0m`; with colours off it is `test` |
| Reporter.Wrap | src/reporter.py:83-98 | the lines of the greedy wrap; pinned by `WrapGreedy`, `WrapLines` and `WrapReadBack` |
| Reporter.WrapGreedy | src/reporter.py:87-98 | the lines of the wrap, as word lists, hold the words in order, none is empty, each fits or holds one word, and each line's first word would not fit on the line before |
| Reporter.WrapLines | src/reporter.py:83-98 | the same on the lines themselves: `split()` of the lines gives back the text's words, and each line fits within `avail` or is a single word |
| Reporter.WrapReadBack | src/reporter.py:87-98 | `split()` of each wrapped line gives back its word list |
| Reporter.WrapEmpty | src/reporter.py:87-98 | the wrap has a line exactly when the text has a word |
| Reporter.WrapExample | src/reporter.py:88-98 | `aaa bbb ccc` within 7 columns wraps to `aaa bbb` / `ccc` |
| Reporter.Rows | src/reporter.py:100-103 | one row per wrapped line, holding that line after a margin as wide as the prefix; the first margin is the prefix, the others are spaces |
| Reporter.RowsWords | src/reporter.py:100-103 | with a prefix ending in whitespace, the words of the rows, read back with `split()`, are the prefix's words followed by the lines' words, in order |
| Reporter.WrapWords | src/reporter.py:84-98 | the word loop with `current_line` returns exactly `Wrap(text.split(), avail)` |
| Reporter.Layout | src/reporter.py:100-105 | the closing loop joins the rows with newlines |
| Reporter.Prefix | src/reporter.py:70-71 | `indent[type] `; `FormatWarningOutput` states that the output starts with it |
| Reporter.Shown | src/reporter.py:73-76 | the original text, with ` (xN)` appended when N > 1; `FormatWarningOutput` states that its words follow the prefix |
| Reporter.FormatText | src/reporter.py:79-105 | a text that fits is returned after the prefix; the result is None (the `IndexError`) exactly when a too-long text has no words |
| Reporter.FormatTextOutput | src/reporter.py:79-105 | the output starts with the prefix, and `split()` of it gives the prefix's words and then exactly the text's words |
| Reporter.FormatWarningOutput | src/reporter.py:70-105 | the output starts with `indent[type] ` and holds the shown text's words, in order, after it |
| Reporter.FormatWarningText | src/reporter.py:48-105 | the method builds the prefix and the shown text (` (xN)` appended when N > 1) and returns `FormatText` of them |
| Reporter.FormatDocExample | src/reporter.py:64-68 | a short warning gives `  [Warning] short` |
| Strings.BlankIffAllSpace | src/parser.py:110 | `not line.strip()` holds exactly when the line is all whitespace |
| Strings.SplitJoin | src/reporter.py:87-92 | `split()` of non-empty, whitespace-free words joined by single spaces gives back the words |
| Strings.CollapseThenStrip | src/extractor.py:141-144 | collapsing whitespace runs to one space and then stripping gives a single-spaced string |
| Strings.SingleSpacedFixed | src/extractor.py:141-144 | collapsing and stripping leave a single-spaced string unchanged |
| Strings.NatToStringValue | src/reporter.py:76 | `int(str(n)) == n` |

## Left out

- Reading the log file (`_read_log_file` and its encoding fallback) and `EncodingError`. This is file I/O. `ParseLog` takes the lines as a sequence.
- `load_config` is left out: it does YAML parsing and file access. The model takes a `Config` value.
- `src/main.py` is left out: argument parsing, existence checks, stderr messages and exit codes. `run_comparison` only chains the modelled operations.
- The report printers `print_summary`, `print_stage_details` and `generate_report` are left out. They only render to the console.
- `debug_stats.py` is left out: it only prints.
- `ParseError` is left out: the parsing logic never raises it.
- Python's general regular-expression engine is not modelled. Each fixed pattern is a hand-written scan.
  - The two configurable ignore patterns go through a caller-supplied `sub(pattern, text)`, which stands for `re.sub(pattern, "", text)`. `DefaultPatternsSub` gives the two default patterns concretely.
  - Whether `re.compile` accepts a pattern is the caller-supplied predicate `compiles`.
- Exceptions are modelled as values:
  - The `KeyError` of `compare_logs` on an unknown record type is `Failure(UnknownKind(type))`.
  - The `ConfigValidationError` of `validate_config` is `Failure` with the error's cause.
  - The `IndexError` of `format_warning_text` (a too-long text with no words) is `None`.
- The error messages' wording is not modelled, only which error is reported.
- `str.lower()` and the `IGNORECASE` flag are modelled for ASCII letters only.
- `\s`, `strip()` and `split()` use Python's whitespace set, by code point.
- The model's `\d` and `int()` take ASCII digits only; Python's match every Unicode decimal digit.
- NormalizeWarning: its own contract states only that the key is single-spaced and, with `ignore_case`, lower case. What each substitution removes, and what it keeps where its pattern does not match, is stated step by step: the `…Dropped` and `…Kept` lemmas and the character-level match predicates. There is no single closed form for the whole key.
- The `isinstance(config.output, dict)` check of `validate_config` cannot fail in the model: `output` is typed as a list of entries, and building it from YAML (`load_config`) is left out.
- Parser.ParseLog: `BuildStep` objects are not updated in place. The stages are values in a list indexed by creation order, and children refer to them by index. So sharing between the stack and the tree (aliasing) is not modelled. The result is the same tree of values.
- Comparator.GroupByStage: the dictionary is a list of (stage, records) entries in insertion order, reassigned in the loop. Its lists are not mutated in place.
- Comparator.CompareLogs: `summary` is a value rebuilt at each stage, not an object updated in place.
- Comparator.StageAddedRemoved: it states the added and removed lists by multiplicity. Their order is the order of the input, because `Where` filters in order; no separate lemma restates that.
- ComparatorProperties.CompareLogsTallies: it states only an inequality between `total_unchanged` and the unchanged tallies. The source counts distinct keys in one and occurrences in the other, and `UnchangedTallies` shows the two differ.

=== FILE: comparator.dfy ===
/**
  The stage matcher and differ: the records of two runs are grouped by
  stage, the stage names of both runs are matched by name in sorted order,
  and for each stage the records are split into added, removed and
  unchanged by their normalized text; the totals and the per-type tallies
  are accumulated into a summary.
*/
module Comparator {
  import opened Wrappers
  import opened Strings
  import opened Configuration
  import opened Extractor

  /** The comparison of one stage. */
  datatype ComparisonResult = ComparisonResult(
    stageName: string,
    added: seq<Warning>,
    removed: seq<Warning>,
    unchangedCount: nat,
    unchangedWarnings: nat,
    unchangedHints: nat)

  /** The counters `{"added", "removed", "unchanged"}` of one record type;
      `same` is the "unchanged" counter. */
  datatype Tally = Tally(added: nat, removed: nat, same: nat)

  /** `by_type`: the tallies of the two known record types. */
  datatype ByType = ByType(warning: Tally, hint: Tally)

  /** The summary of a comparison. */
  datatype Summary = Summary(
    totalAdded: nat,
    totalRemoved: nat,
    totalUnchanged: nat,
    byType: ByType,
    byStage: seq<ComparisonResult>)

  /** A fresh summary: every counter zero, no stage. */
  const EmptySummary: Summary := Summary(0, 0, 0, ByType(Tally(0, 0, 0), Tally(0, 0, 0)), [])

  /** The `KeyError` raised when a record's type is neither "Warning" nor "Hint". */
  datatype CompareError = UnknownKind(kind: string)

  /** A dictionary from stage names to lists of records, kept as its entries
      in insertion order. */
  type Groups = seq<(string, seq<Warning>)>

  // ---------------------------------------------------------------------
  // group_by_stage

  /** The records of `ws` that belong to `stage`, in order. */
  function OfStage(ws: seq<Warning>, stage: string): seq<Warning> {
    if |ws| == 0 then []
    else OfStage(ws[..|ws| - 1], stage) + if ws[|ws| - 1].stage == stage then [ws[|ws| - 1]] else []
  }

  /** The distinct stages of `ws` in order of first appearance. */
  function StageOrder(ws: seq<Warning>): seq<string> {
    if |ws| == 0 then []
    else
      var order := StageOrder(ws[..|ws| - 1]);
      if ws[|ws| - 1].stage in order then order else order + [ws[|ws| - 1].stage]
  }

  /** What `group_by_stage` returns: one entry per stage in order of first
      appearance, holding the records of that stage. */
  function Grouped(ws: seq<Warning>): Groups {
    var order := StageOrder(ws);
    seq(|order|, i requires 0 <= i < |order| => (order[i], OfStage(ws, order[i])))
  }

  /** The keys of a dictionary, in order. */
  function Keys(g: Groups): (ks: seq<string>)
    ensures |ks| == |g| && forall i :: 0 <= i < |g| ==> ks[i] == g[i].0
  {
    seq(|g|, i requires 0 <= i < |g| => g[i].0)
  }

  /** No element occurs twice. */
  predicate Distinct<T(==)>(s: seq<T>) {
    forall i, j :: 0 <= i < j < |s| ==> s[i] != s[j]
  }

  /** Where `key` sits among the entries, if anywhere. */
  function KeyIndex(g: Groups, key: string): (k: Option<nat>)
    ensures k.Some? ==> k.value < |g| && g[k.value].0 == key
    ensures k.None? ==> forall i :: 0 <= i < |g| ==> g[i].0 != key
  {
    if |g| == 0 then None
    else if g[|g| - 1].0 == key then Some(|g| - 1)
    else KeyIndex(g[..|g| - 1], key)
  }

  /** A stage's records are the records of that stage, each as often as in
      the input. */
  lemma {:induction false} OfStageSpec(ws: seq<Warning>, stage: string)
    ensures forall w :: w in OfStage(ws, stage) ==> w.stage == stage
    ensures forall w :: multiset(OfStage(ws, stage))[w] == if w.stage == stage then multiset(ws)[w] else 0
    decreases |ws|
  {
    if |ws| > 0 {
      var prev := ws[..|ws| - 1];
      OfStageSpec(prev, stage);
      assert ws == prev + [ws[|ws| - 1]];
    }
  }

  /** The stage order lists every stage of the input once. */
  lemma {:induction false} StageOrderSpec(ws: seq<Warning>)
    ensures Distinct(StageOrder(ws))
    ensures forall s :: s in StageOrder(ws) <==> exists w :: w in ws && w.stage == s
    decreases |ws|
  {
    if |ws| > 0 {
      var prev := ws[..|ws| - 1];
      StageOrderSpec(prev);
      assert ws == prev + [ws[|ws| - 1]];
    }
  }

  /** Appending a record of a stage seen before appends it to the entry
      of that stage and changes nothing else. */
  lemma GroupedSnocSeen(prev: seq<Warning>, w: Warning, k: nat)
    requires k < |Grouped(prev)| && Grouped(prev)[k].0 == w.stage
    ensures Grouped(prev + [w]) == Grouped(prev)[k := (w.stage, Grouped(prev)[k].1 + [w])]
  {
    var ws := prev + [w];
    assert ws[..|ws| - 1] == prev;
    var g := Grouped(prev);
    var order := StageOrder(prev);
    StageOrderSpec(prev);
    assert StageOrder(ws) == order;
    var r := g[k := (w.stage, g[k].1 + [w])];
    forall i | 0 <= i < |r| ensures Grouped(ws)[i] == r[i] {
      assert Grouped(ws)[i] == (order[i], OfStage(ws, order[i]));
      assert OfStage(ws, order[i]) == OfStage(prev, order[i]) + if w.stage == order[i] then [w] else [];
      if i != k {
        assert order[i] != order[k];
        assert OfStage(ws, order[i]) == OfStage(prev, order[i]);
      }
    }
  }

  /** Appending a record of a new stage adds an entry for it at the end. */
  lemma GroupedSnocNew(prev: seq<Warning>, w: Warning)
    requires forall i :: 0 <= i < |Grouped(prev)| ==> Grouped(prev)[i].0 != w.stage
    ensures Grouped(prev + [w]) == Grouped(prev) + [(w.stage, [w])]
  {
    var ws := prev + [w];
    assert ws[..|ws| - 1] == prev;
    var g := Grouped(prev);
    var order := StageOrder(prev);
    forall i | 0 <= i < |order| ensures order[i] != w.stage {
      assert g[i].0 == order[i];
    }
    assert StageOrder(ws) == order + [w.stage];
    StageOrderSpec(prev);
    OfStageSpec(prev, w.stage);
    assert OfStage(prev, w.stage) == [];
    var r := g + [(w.stage, [w])];
    forall i | 0 <= i < |r| ensures Grouped(ws)[i] == r[i] {
      var s := StageOrder(ws)[i];
      assert Grouped(ws)[i] == (s, OfStage(ws, s));
      assert OfStage(ws, s) == OfStage(prev, s) + if w.stage == s then [w] else [];
      if i < |g| {
        assert order[i] != w.stage;
        assert OfStage(ws, s) == OfStage(prev, s);
      } else {
        assert OfStage(ws, s) == [w];
      }
    }
  }

  /** `group_by_stage`: the records are appended one by one to the list of
      their stage, which is created empty on its first record. */
  method GroupByStage(ws: seq<Warning>) returns (grouped: Groups)
    ensures grouped == Grouped(ws)
  {
    grouped := [];
    var i := 0;
    while i < |ws|
      invariant 0 <= i <= |ws|
      invariant grouped == Grouped(ws[..i])
    {
      var w := ws[i];
      assert ws[..i + 1] == ws[..i] + [w];
      var k := KeyIndex(grouped, w.stage);
      var index: nat;
      if k.None? {
        GroupedSnocNew(ws[..i], w);
        grouped := grouped + [(w.stage, [])];
        index := |grouped| - 1;
      } else {
        GroupedSnocSeen(ws[..i], w, k.value);
        index := k.value;
      }
      grouped := grouped[index := (w.stage, grouped[index].1 + [w])];
      i := i + 1;
    }
    assert ws[..i] == ws;
  }

  /** `d.get(stage, [])` on a dictionary of groups. */
  function Get(g: Groups, stage: string): seq<Warning> {
    match Lookup(g, stage)
    case Some(ws) => ws
    case None => []
  }

  /** The grouping has one entry per stage of the input, keys distinct, and
      looking up any stage gives exactly that stage's records. */
  lemma GroupedSpec(ws: seq<Warning>)
    ensures Distinct(Keys(Grouped(ws)))
    ensures forall s :: s in Keys(Grouped(ws)) <==> exists w :: w in ws && w.stage == s
    ensures forall s :: Get(Grouped(ws), s) == OfStage(ws, s)
  {
    StageOrderSpec(ws);
    var g := Grouped(ws);
    assert Keys(g) == StageOrder(ws);
    forall s ensures Get(g, s) == OfStage(ws, s) {
      if s in StageOrder(ws) {
        var i :| 0 <= i < |g| && g[i] == (s, Get(g, s));
      } else {
        OfStageSpec(ws, s);
      }
    }
  }

  /** The total length of the lists of a dictionary of groups. */
  function SumLengths(g: Groups): nat {
    if |g| == 0 then 0 else SumLengths(g[..|g| - 1]) + |g[|g| - 1].1|
  }

  /** Growing one list by one record grows the total by one. */
  lemma {:induction false} SumLengthsUpdate(g: Groups, k: nat, e: (string, seq<Warning>))
    requires k < |g| && |e.1| == |g[k].1| + 1
    ensures SumLengths(g[k := e]) == SumLengths(g) + 1
    decreases |g|
  {
    var n := |g|;
    if k < n - 1 {
      assert g[k := e][..n - 1] == g[..n - 1][k := e];
      SumLengthsUpdate(g[..n - 1], k, e);
    } else {
      assert g[k := e][..n - 1] == g[..n - 1];
    }
  }

  /** The group lengths add up to the number of records: no record is lost
      or duplicated. */
  lemma {:induction false} GroupSizes(ws: seq<Warning>)
    ensures SumLengths(Grouped(ws)) == |ws|
    decreases |ws|
  {
    if |ws| > 0 {
      var prev, w := ws[..|ws| - 1], ws[|ws| - 1];
      assert ws == prev + [w];
      GroupSizes(prev);
      var g := Grouped(prev);
      match KeyIndex(g, w.stage)
      case Some(k) =>
        GroupedSnocSeen(prev, w, k);
        SumLengthsUpdate(g, k, (w.stage, g[k].1 + [w]));
      case None =>
        GroupedSnocNew(prev, w);
        assert (g + [(w.stage, [w])])[..|g|] == g;
    }
  }

  /** Three records, the first two of one stage and the third of another:
      the first group has two records, the second one. */
  lemma GroupedOfThree(w1: Warning, w2: Warning, w3: Warning)
    requires w1.stage == w2.stage != w3.stage
    ensures |Get(Grouped([w1, w2, w3]), w1.stage)| == 2
    ensures |Get(Grouped([w1, w2, w3]), w3.stage)| == 1
  {
    var ws := [w1, w2, w3];
    assert ws[..2] == [w1, w2] && [w1, w2][..1] == [w1] && [w1][..0] == [];
    assert OfStage([w1], w1.stage) == [w1] && OfStage([w1], w3.stage) == [];
    assert OfStage([w1, w2], w1.stage) == [w1, w2] && OfStage([w1, w2], w3.stage) == [];
    assert OfStage(ws, w1.stage) == [w1, w2] && OfStage(ws, w3.stage) == [w3];
    GroupedSpec(ws);
  }

  /** The example of `group_by_stage`'s documentation: two records of
      "<Abd.dpr>" and one of "<Core.dpr>". */
  lemma GroupByStageExample()
    ensures var w1 := Warning("test1", "test1", "Warning", "<Abd.dpr>", "", 0);
      var w2 := Warning("test2", "test2", "Hint", "<Abd.dpr>", "", 0);
      var w3 := Warning("test3", "test3", "Warning", "<Core.dpr>", "", 0);
      var g := Grouped([w1, w2, w3]);
      |Get(g, "<Abd.dpr>")| == 2 && |Get(g, "<Core.dpr>")| == 1
  {
    var w1 := Warning("test1", "test1", "Warning", "<Abd.dpr>", "", 0);
    var w2 := Warning("test2", "test2", "Hint", "<Abd.dpr>", "", 0);
    var w3 := Warning("test3", "test3", "Warning", "<Core.dpr>", "", 0);
    assert w1.stage[1] != w3.stage[1];
    GroupedOfThree(w1, w2, w3);
  }

  // ---------------------------------------------------------------------
  // match_stages

  /** Strictly increasing in Python's string order: sorted, without
      duplicates. */
  predicate StrictlySorted(s: seq<string>) {
    forall i, j :: 0 <= i < j < |s| ==> Less(s[i], s[j])
  }

  /** `name` put into its place in a strictly sorted list, unless it is
      there already. */
  function Insert(s: seq<string>, name: string): seq<string> {
    if |s| == 0 then [name]
    else if name == s[0] then s
    else if Less(name, s[0]) then [name] + s
    else [s[0]] + Insert(s[1..], name)
  }

  /** Inserting keeps the list strictly sorted and adds exactly `name`. */
  lemma {:induction false} InsertSpec(s: seq<string>, name: string)
    requires StrictlySorted(s)
    ensures StrictlySorted(Insert(s, name))
    ensures forall x :: x in Insert(s, name) <==> x in s || x == name
  {
    if |s| > 0 && name != s[0] {
      if Less(name, s[0]) {
        var r := [name] + s;
        forall i, j | 0 <= i < j < |r| ensures Less(r[i], r[j]) {
          if i == 0 && j > 1 {
            LessTransitive(name, s[0], s[j - 1]);
          }
        }
      } else {
        LessTotal(name, s[0]);
        InsertSpec(s[1..], name);
        var rest := Insert(s[1..], name);
        var r := [s[0]] + rest;
        forall i, j | 0 <= i < j < |r| ensures Less(r[i], r[j]) {
          if i == 0 {
            assert r[j] in rest;
            assert r[j] in s[1..] || r[j] == name;
          }
        }
        assert forall x :: x in s <==> x == s[0] || x in s[1..];
      }
    }
  }

  /** `sorted(set(names))`: the distinct names in increasing order. */
  function SortedNames(names: seq<string>): seq<string> {
    if |names| == 0 then [] else Insert(SortedNames(names[..|names| - 1]), names[|names| - 1])
  }

  /** The sorted names are strictly sorted and are the names given. */
  lemma {:induction false} SortedNamesSpec(names: seq<string>)
    ensures StrictlySorted(SortedNames(names))
    ensures forall x :: x in SortedNames(names) <==> x in names
    decreases |names|
  {
    if |names| > 0 {
      var prev := names[..|names| - 1];
      SortedNamesSpec(prev);
      InsertSpec(SortedNames(prev), names[|names| - 1]);
      assert names == prev + [names[|names| - 1]];
    }
  }

  /** Two lists with the same elements are empty together. */
  lemma SameElementsEmpty(a: seq<string>, b: seq<string>)
    requires forall x :: x in a <==> x in b
    ensures |a| == 0 <==> |b| == 0
  {
    if |a| > 0 {
      assert a[0] in b;
    }
    if |b| > 0 {
      assert b[0] in a;
    }
  }

  /** A strictly sorted list is fixed by its elements: two with the same
      elements are equal. */
  lemma {:induction false} SortedUnique(a: seq<string>, b: seq<string>)
    requires StrictlySorted(a) && StrictlySorted(b)
    requires forall x :: x in a <==> x in b
    ensures a == b
    decreases |a|
  {
    SameElementsEmpty(a, b);
    if |a| > 0 {
      if a[0] != b[0] {
        assert a[0] in b;
        assert b[0] in a;
        var i :| 0 < i < |a| && a[i] == b[0];
        var j :| 0 < j < |b| && b[j] == a[0];
        LessTransitive(a[0], b[0], a[0]);
        LessIrreflexive(a[0]);
      }
      assert a == [a[0]] + a[1..] && b == [b[0]] + b[1..];
      forall x ensures x in a[1..] <==> x in b[1..] {
        if x in a[1..] {
          var i :| 0 < i < |a| && a[i] == x;
          assert Less(b[0], x);
          LessIrreflexive(x);
          assert x in b && x != b[0];
        }
        if x in b[1..] {
          var j :| 0 < j < |b| && b[j] == x;
          assert Less(a[0], x);
          LessIrreflexive(x);
          assert x in a && x != a[0];
        }
      }
      SortedUnique(a[1..], b[1..]);
      assert a == [a[0]] + a[1..] && b == [b[0]] + b[1..];
    }
  }

  /** `match_stages`: every stage name of either run, in sorted order, paired
      with itself. */
  function MatchStages(oldStages: Groups, newStages: Groups): seq<(string, string)> {
    var names := SortedNames(Keys(oldStages) + Keys(newStages));
    seq(|names|, i requires 0 <= i < |names| => (names[i], names[i]))
  }

  /** The matches pair each name with itself, are strictly sorted, and hold
      exactly the names of both runs. */
  lemma MatchStagesSpec(oldStages: Groups, newStages: Groups)
    ensures forall i :: 0 <= i < |MatchStages(oldStages, newStages)| ==>
      MatchStages(oldStages, newStages)[i].0 == MatchStages(oldStages, newStages)[i].1
    ensures forall i, j :: 0 <= i < j < |MatchStages(oldStages, newStages)| ==>
      Less(MatchStages(oldStages, newStages)[i].0, MatchStages(oldStages, newStages)[j].0)
    ensures forall x ::
      (exists i :: 0 <= i < |MatchStages(oldStages, newStages)| && MatchStages(oldStages, newStages)[i].0 == x)
        <==> x in Keys(oldStages) || x in Keys(newStages)
  {
    var all := Keys(oldStages) + Keys(newStages);
    var names := SortedNames(all);
    SortedNamesSpec(all);
    var m := MatchStages(oldStages, newStages);
    assert |m| == |names|;
    assert forall i :: 0 <= i < |m| ==> m[i] == (names[i], names[i]);
    forall x ensures (exists i :: 0 <= i < |m| && m[i].0 == x) <==> x in Keys(oldStages) || x in Keys(newStages) {
      if x in names {
        var i :| 0 <= i < |names| && names[i] == x;
        assert m[i].0 == x;
      }
      assert x in all <==> x in Keys(oldStages) || x in Keys(newStages);
    }
  }

  /** Which run is old and which is new does not change the matches. */
  lemma MatchStagesSymmetric(oldStages: Groups, newStages: Groups)
    ensures MatchStages(oldStages, newStages) == MatchStages(newStages, oldStages)
  {
    var a, b := Keys(oldStages) + Keys(newStages), Keys(newStages) + Keys(oldStages);
    SortedNamesSpec(a);
    SortedNamesSpec(b);
    SortedUnique(SortedNames(a), SortedNames(b));
  }

  // ---------------------------------------------------------------------
  // compare_logs: one stage

  /** `{w.text for w in ws}`: the comparison keys of a list of records. */
  function Texts(ws: seq<Warning>): set<string> {
    if |ws| == 0 then {} else Texts(ws[..|ws| - 1]) + {ws[|ws| - 1].text}
  }

  /** The keys are exactly the texts of the records. */
  lemma {:induction false} TextsSpec(ws: seq<Warning>)
    ensures forall w :: w in ws ==> w.text in Texts(ws)
    ensures forall t :: t in Texts(ws) ==> exists w :: w in ws && w.text == t
    decreases |ws|
  {
    if |ws| > 0 {
      var prev := ws[..|ws| - 1];
      TextsSpec(prev);
      assert ws == prev + [ws[|ws| - 1]];
    }
  }

  lemma {:induction false} TextsAppend(a: seq<Warning>, b: seq<Warning>)
    ensures Texts(a + b) == Texts(a) + Texts(b)
    decreases |b|
  {
    if |b| > 0 {
      assert (a + b)[..|a + b| - 1] == a + b[..|b| - 1];
      TextsAppend(a, b[..|b| - 1]);
    } else {
      assert a + b == a;
    }
  }

  /** The records of `ws` whose key is in `keys`, in order, duplicates kept. */
  function Where(ws: seq<Warning>, keys: set<string>): seq<Warning> {
    if |ws| == 0 then []
    else Where(ws[..|ws| - 1], keys) + if ws[|ws| - 1].text in keys then [ws[|ws| - 1]] else []
  }

  /** The number of records of type `kind`. */
  function CountKind(ws: seq<Warning>, kind: string): nat {
    if |ws| == 0 then 0
    else CountKind(ws[..|ws| - 1], kind) + if ws[|ws| - 1].kind == kind then 1 else 0
  }

  /** The old records whose key occurs in both runs, each occurrence kept. */
  function Unchanged(olds: seq<Warning>, news: seq<Warning>): seq<Warning> {
    Where(olds, Texts(olds) * Texts(news))
  }

  /** The comparison of one stage: the new records with a key the old run
      lacks, the old records with a key the new run lacks, the number of
      keys both have, and how many old records with such a key are warnings
      and hints. */
  function StageResult(name: string, olds: seq<Warning>, news: seq<Warning>): ComparisonResult {
    var oldTexts, newTexts := Texts(olds), Texts(news);
    ComparisonResult(name, Where(news, newTexts - oldTexts), Where(olds, oldTexts - newTexts),
      |oldTexts * newTexts|, CountKind(Unchanged(olds, news), "Warning"), CountKind(Unchanged(olds, news), "Hint"))
  }

  /** A stage's result goes into `by_stage` when something was added or
      removed or some key is unchanged. */
  predicate Kept(r: ComparisonResult) {
    |r.added| > 0 || |r.removed| > 0 || r.unchangedCount > 0
  }

  lemma {:induction false} WhereAppend(a: seq<Warning>, b: seq<Warning>, keys: set<string>)
    ensures Where(a + b, keys) == Where(a, keys) + Where(b, keys)
    decreases |b|
  {
    if |b| > 0 {
      assert (a + b)[..|a + b| - 1] == a + b[..|b| - 1];
      WhereAppend(a, b[..|b| - 1], keys);
    } else {
      assert a + b == a;
    }
  }

  lemma {:induction false} CountKindAppend(a: seq<Warning>, b: seq<Warning>, kind: string)
    ensures CountKind(a + b, kind) == CountKind(a, kind) + CountKind(b, kind)
    decreases |b|
  {
    if |b| > 0 {
      assert (a + b)[..|a + b| - 1] == a + b[..|b| - 1];
      CountKindAppend(a, b[..|b| - 1], kind);
    } else {
      assert a + b == a;
    }
  }

  /** Filtering by key keeps exactly the records whose key is wanted, each
      as often as it occurs. */
  lemma {:induction false} WhereCounts(ws: seq<Warning>, keys: set<string>)
    ensures forall w :: multiset(Where(ws, keys))[w] == if w.text in keys then multiset(ws)[w] else 0
    decreases |ws|
  {
    if |ws| > 0 {
      var prev, w := ws[..|ws| - 1], ws[|ws| - 1];
      WhereCounts(prev, keys);
      assert ws == prev + [w];
    }
  }

  /** Filtering by key keeps exactly the wanted keys. */
  lemma {:induction false} WhereTexts(ws: seq<Warning>, keys: set<string>)
    ensures Texts(Where(ws, keys)) == Texts(ws) * keys
    decreases |ws|
  {
    if |ws| > 0 {
      var prev, w := ws[..|ws| - 1], ws[|ws| - 1];
      WhereTexts(prev, keys);
      TextsAppend(Where(prev, keys), if w.text in keys then [w] else []);
      assert [w][..0] == [];
      assert Texts([w]) == {w.text};
    }
  }

  /** Records whose keys are all wanted are all kept. */
  lemma {:induction false} WhereAll(ws: seq<Warning>, keys: set<string>)
    requires Texts(ws) <= keys
    ensures Where(ws, keys) == ws
    decreases |ws|
  {
    if |ws| > 0 {
      var prev := ws[..|ws| - 1];
      WhereAll(prev, keys);
      assert ws == prev + [ws[|ws| - 1]];
    }
  }

  /** No record is kept when no key is wanted. */
  lemma {:induction false} WhereNone(ws: seq<Warning>)
    ensures Where(ws, {}) == []
    decreases |ws|
  {
    if |ws| > 0 {
      WhereNone(ws[..|ws| - 1]);
    }
  }

  /** There are no more distinct keys than records. */
  lemma {:induction false} TextsBound(ws: seq<Warning>)
    ensures |Texts(ws)| <= |ws|
    decreases |ws|
  {
    if |ws| > 0 {
      TextsBound(ws[..|ws| - 1]);
    }
  }

  /** Splitting a set of keys by a second set: the common part and the
      rest together account for all of it. */
  lemma SplitCardinality(o: set<string>, n: set<string>)
    ensures |o * n| + |o - n| == |o|
  {
    assert o == (o * n) + (o - n) && (o * n) * (o - n) == {};
  }

  /** A record of a known type: the two keys of `by_type`. */
  predicate KnownKind(w: Warning) {
    w.kind == "Warning" || w.kind == "Hint"
  }

  /** Every record is of a known type. */
  predicate AllKnown(ws: seq<Warning>) {
    forall k :: 0 <= k < |ws| ==> KnownKind(ws[k])
  }

  lemma AllKnownAppend(a: seq<Warning>, b: seq<Warning>)
    ensures AllKnown(a + b) <==> AllKnown(a) && AllKnown(b)
  {
    if AllKnown(a + b) {
      assert forall k :: 0 <= k < |a| ==> a[k] == (a + b)[k];
      assert forall k :: 0 <= k < |b| ==> b[k] == (a + b)[|a| + k];
    }
  }

  /** Records of known types are each a warning or a hint. */
  lemma {:induction false} CountKnownKinds(ws: seq<Warning>)
    requires AllKnown(ws)
    ensures CountKind(ws, "Warning") + CountKind(ws, "Hint") == |ws|
    decreases |ws|
  {
    if |ws| > 0 {
      assert "Warning"[0] != "Hint"[0];
      CountKnownKinds(ws[..|ws| - 1]);
    }
  }

  /** The new records of a stage are added exactly when their key is new,
      the old ones removed exactly when their key is gone, each occurrence
      counted. */
  lemma StageAddedRemoved(name: string, olds: seq<Warning>, news: seq<Warning>)
    ensures forall w :: multiset(StageResult(name, olds, news).added)[w]
                        == if w.text in Texts(olds) then 0 else multiset(news)[w]
    ensures forall w :: multiset(StageResult(name, olds, news).removed)[w]
                        == if w.text in Texts(news) then 0 else multiset(olds)[w]
  {
    var o, n := Texts(olds), Texts(news);
    WhereCounts(news, n - o);
    WhereCounts(olds, o - n);
    TextsSpec(olds);
    TextsSpec(news);
    forall w ensures multiset(news)[w] > 0 ==> w.text in n {
      if multiset(news)[w] > 0 {
        assert w in news;
      }
    }
    forall w ensures multiset(olds)[w] > 0 ==> w.text in o {
      if multiset(olds)[w] > 0 {
        assert w in olds;
      }
    }
  }

  /** Per stage, the added and removed keys are the set differences, and
      with the unchanged keys they account for every key of each run. */
  lemma StageConservation(name: string, olds: seq<Warning>, news: seq<Warning>)
    ensures var r := StageResult(name, olds, news);
      Texts(r.added) == Texts(news) - Texts(olds) && Texts(r.removed) == Texts(olds) - Texts(news)
      && r.unchangedCount + |Texts(r.removed)| == |Texts(olds)|
      && r.unchangedCount + |Texts(r.added)| == |Texts(news)|
  {
    var o, n := Texts(olds), Texts(news);
    WhereTexts(news, n - o);
    WhereTexts(olds, o - n);
    assert n * (n - o) == n - o;
    assert o * (o - n) == o - n;
    SplitCardinality(o, n);
    SplitCardinality(n, o);
    assert n * o == o * n;
  }

  /** The unchanged tallies count occurrences, `unchanged_count` distinct
      keys: there are at least as many unchanged old records as unchanged
      keys, and when every old record is a warning or a hint the two
      tallies add up to the number of unchanged old records. */
  lemma UnchangedTallies(name: string, olds: seq<Warning>, news: seq<Warning>)
    ensures var r := StageResult(name, olds, news);
      r.unchangedCount <= |Unchanged(olds, news)|
      && (AllKnown(olds) ==> r.unchangedWarnings + r.unchangedHints == |Unchanged(olds, news)|)
  {
    var same := Texts(olds) * Texts(news);
    WhereTexts(olds, same);
    var u := Unchanged(olds, news);
    TextsBound(u);
    if AllKnown(olds) {
      UnchangedKnown(olds, news);
      CountKnownKinds(u);
    }
  }

  /** The unchanged old records are old records. */
  lemma UnchangedKnown(olds: seq<Warning>, news: seq<Warning>)
    requires AllKnown(olds)
    ensures AllKnown(Unchanged(olds, news))
  {
    var u := Unchanged(olds, news);
    WhereCounts(olds, Texts(olds) * Texts(news));
    forall k | 0 <= k < |u| ensures KnownKind(u[k]) {
      assert u[k] in multiset(u);
      assert u[k] in olds;
    }
  }

  /** The documented asymmetry: an old record repeated twice and present in
      the new run is one unchanged key but two unchanged warnings. */
  lemma UnchangedDuplicatesCounted(w: Warning)
    requires w.kind == "Warning"
    ensures var r := StageResult(w.stage, [w, w], [w]);
      r.added == [] && r.removed == [] && r.unchangedCount == 1 && r.unchangedWarnings == 2
  {
    assert [w, w][..1] == [w];
    assert [w][..0] == [];
    var o, n := Texts([w, w]), Texts([w]);
    assert Texts([]) == {};
    assert n == Texts([]) + {w.text};
    assert o == n + {w.text};
    assert o == {w.text};
    assert o * n == {w.text} && o - n == {} && n - o == {};
    WhereNone([w, w]);
    WhereNone([w]);
    assert Where([w], {w.text}) == [w];
    assert Where([w, w], {w.text}) == [w, w];
    assert CountKind([w], "Warning") == 1;
    assert CountKind([w, w], "Warning") == 2;
  }

  /** Which run is old and which is new only swaps added and removed. */
  lemma StageSymmetric(name: string, a: seq<Warning>, b: seq<Warning>)
    ensures StageResult(name, a, b).added == StageResult(name, b, a).removed
    ensures StageResult(name, a, b).removed == StageResult(name, b, a).added
    ensures StageResult(name, a, b).unchangedCount == StageResult(name, b, a).unchangedCount
  {
    assert Texts(a) * Texts(b) == Texts(b) * Texts(a);
  }

  /** A stage with any record in either run is kept in `by_stage`. */
  lemma StageKept(name: string, olds: seq<Warning>, news: seq<Warning>)
    requires |olds| > 0 || |news| > 0
    ensures Kept(StageResult(name, olds, news))
  {
    var r := StageResult(name, olds, news);
    StageConservation(name, olds, news);
    TextsSpec(olds);
    TextsSpec(news);
    if |olds| > 0 {
      assert olds[0] in olds;
    } else {
      assert news[0] in news;
    }
  }

  /** A stage only the old run has: every record of it is removed, none
      added, none unchanged. */
  lemma StageOnlyInOld(name: string, olds: seq<Warning>)
    ensures StageResult(name, olds, []) == ComparisonResult(name, [], olds, 0, 0, 0)
  {
    WhereAll(olds, Texts(olds));
    WhereNone(olds);
  }

  /** A stage only the new run has: every record of it is added. */
  lemma StageOnlyInNew(name: string, news: seq<Warning>)
    ensures StageResult(name, [], news) == ComparisonResult(name, news, [], 0, 0, 0)
  {
    WhereAll(news, Texts(news));
  }

  /** The comparison of one stage, the start of the body of the loop of
      `compare_logs`; also gives the unchanged keys. */
  method CompareStage(name: string, olds: seq<Warning>, news: seq<Warning>)
    returns (result: ComparisonResult, same: set<string>)
    ensures result == StageResult(name, olds, news)
    ensures same == Texts(olds) * Texts(news)
  {
    var oldTexts, newTexts := Texts(olds), Texts(news);
    var addedTexts, removedTexts := newTexts - oldTexts, oldTexts - newTexts;
    same := oldTexts * newTexts;
    var added, removed := Where(news, addedTexts), Where(olds, removedTexts);
    var warnings, hints := 0, 0;
    var i := 0;
    while i < |olds|
      invariant i <= |olds|
      invariant warnings == CountKind(Where(olds[..i], same), "Warning")
      invariant hints == CountKind(Where(olds[..i], same), "Hint")
    {
      var w := olds[i];
      var done, tail := Where(olds[..i], same), if w.text in same then [w] else [];
      assert Where(olds[..i + 1], same) == done + tail by {
        assert olds[..i + 1][..i] == olds[..i];
      }
      assert CountKind(done + tail, "Warning") == warnings + CountKind(tail, "Warning") by {
        CountKindAppend(done, tail, "Warning");
      }
      assert CountKind(done + tail, "Hint") == hints + CountKind(tail, "Hint") by {
        CountKindAppend(done, tail, "Hint");
      }
      if w.text in same {
        if w.kind == "Warning" {
          warnings := warnings + 1;
        } else if w.kind == "Hint" {
          hints := hints + 1;
        }
      }
      i := i + 1;
    }
    assert olds[..i] == olds;
    result := ComparisonResult(name, added, removed, |same|, warnings, hints);
  }

  // ---------------------------------------------------------------------
  // compare_logs: all stages

  /** What one matched stage contributes to the summary: its result and its
      unchanged old records. */
  type StagePart = (ComparisonResult, seq<Warning>)

  /** The part of the matched pair `m`: the old records of stage `m.0`
      against the new records of stage `m.1`, under the name `m.1`. */
  function PartOf(oldG: Groups, newG: Groups, m: (string, string)): StagePart {
    var olds, news := Get(oldG, m.0), Get(newG, m.1);
    (StageResult(m.1, olds, news), Unchanged(olds, news))
  }

  /** `[f(x) for x in xs]`. */
  function MapSeq<X, Y>(f: X -> Y, xs: seq<X>): (ys: seq<Y>)
    ensures |ys| == |xs| && forall k :: 0 <= k < |xs| ==> ys[k] == f(xs[k])
  {
    seq(|xs|, k requires 0 <= k < |xs| => f(xs[k]))
  }

  /** Mapping a list is mapping the part before `i`, the `i`-th element and
      the part after it. */
  lemma MapSeqAt<X, Y>(f: X -> Y, xs: seq<X>, i: nat)
    requires i < |xs|
    ensures MapSeq(f, xs) == MapSeq(f, xs[..i]) + [f(xs[i])] + MapSeq(f, xs[i + 1..])
  {
    var front, back := xs[..i], xs[i + 1..];
    assert forall k :: 0 <= k < |front| ==> front[k] == xs[k];
    assert forall k :: 0 <= k < |back| ==> back[k] == xs[i + 1 + k];
  }

  /** The parts of the matched pairs, in order. */
  function Parts(oldG: Groups, newG: Groups, ms: seq<(string, string)>): seq<StagePart> {
    MapSeq(m => PartOf(oldG, newG, m), ms)
  }

  /** The records of a part that `by_type` tallies, in the order they are
      tallied: added, removed, unchanged. */
  function Touches(p: StagePart): seq<Warning> {
    p.0.added + p.0.removed + p.1
  }

  /** The records `by_type` tallies, over all parts in order. */
  function Touched(ps: seq<StagePart>): seq<Warning> {
    if |ps| == 0 then [] else Touched(ps[..|ps| - 1]) + Touches(ps[|ps| - 1])
  }

  /** The stage results of the parts. */
  function Results(ps: seq<StagePart>): seq<ComparisonResult> {
    if |ps| == 0 then [] else Results(ps[..|ps| - 1]) + [ps[|ps| - 1].0]
  }

  /** The unchanged old records of all parts. */
  function SameAll(ps: seq<StagePart>): seq<Warning> {
    if |ps| == 0 then [] else SameAll(ps[..|ps| - 1]) + ps[|ps| - 1].1
  }

  /** The added records of all stages. */
  function AddedAll(rs: seq<ComparisonResult>): seq<Warning> {
    if |rs| == 0 then [] else AddedAll(rs[..|rs| - 1]) + rs[|rs| - 1].added
  }

  /** The removed records of all stages. */
  function RemovedAll(rs: seq<ComparisonResult>): seq<Warning> {
    if |rs| == 0 then [] else RemovedAll(rs[..|rs| - 1]) + rs[|rs| - 1].removed
  }

  /** The sum of the stages' `unchanged_count`. */
  function SumUnchanged(rs: seq<ComparisonResult>): nat {
    if |rs| == 0 then 0 else SumUnchanged(rs[..|rs| - 1]) + rs[|rs| - 1].unchangedCount
  }

  /** The stage results that `by_stage` keeps, in order. */
  function KeptOnly(rs: seq<ComparisonResult>): seq<ComparisonResult> {
    if |rs| == 0 then [] else KeptOnly(rs[..|rs| - 1]) + if Kept(rs[|rs| - 1]) then [rs[|rs| - 1]] else []
  }

  /** Position of the first record whose type is neither "Warning" nor "Hint". */
  function FirstUnknown(ws: seq<Warning>): (i: Option<nat>)
    ensures i.Some? ==> i.value < |ws| && !KnownKind(ws[i.value])
                        && forall j :: 0 <= j < i.value ==> KnownKind(ws[j])
    ensures i.None? ==> AllKnown(ws)
  {
    if |ws| == 0 then None
    else if !KnownKind(ws[0]) then Some(0)
    else
      match FirstUnknown(ws[1..])
      case Some(i) =>
        assert forall j :: 1 <= j <= i ==> ws[j] == ws[1..][j - 1];
        Some(i + 1)
      case None =>
        assert forall j :: 1 <= j < |ws| ==> ws[j] == ws[1..][j - 1];
        None
  }

  /** The type of the first record `by_type` has no entry for, if any: the
      key of the `KeyError` that tallying `ws` raises. */
  function UnknownIn(ws: seq<Warning>): Option<string> {
    match FirstUnknown(ws)
    case Some(i) => Some(ws[i].kind)
    case None => None
  }

  /** Tallying two lists in turn fails at the first list's unknown type,
      else at the second's. */
  lemma UnknownAppend(a: seq<Warning>, b: seq<Warning>)
    ensures UnknownIn(a + b) == if UnknownIn(a).Some? then UnknownIn(a) else UnknownIn(b)
  {
    var ab := a + b;
    match FirstUnknown(a)
    case Some(i) =>
      assert ab[i] == a[i];
    case None =>
      match FirstUnknown(b)
      case Some(i) =>
        assert ab[|a| + i] == b[i];
        assert forall j :: |a| <= j < |a| + i ==> ab[j] == b[j - |a|];
      case None =>
        assert forall j :: |a| <= j < |ab| ==> ab[j] == b[j - |a|];
  }

  /** The counter of `by_type[kind]` a loop of `compare_logs` increments. */
  datatype Column = AddedColumn | RemovedColumn | UnchangedColumn

  /** A tally with `n` more in column `c`. */
  function Bump(t: Tally, c: Column, n: nat): Tally {
    match c
    case AddedColumn => t.(added := t.added + n)
    case RemovedColumn => t.(removed := t.removed + n)
    case UnchangedColumn => t.(same := t.same + n)
  }

  /** `by_type` with the warnings and hints of `ws` counted in column `c`. */
  function CountInto(b: ByType, ws: seq<Warning>, c: Column): ByType {
    ByType(Bump(b.warning, c, CountKind(ws, "Warning")), Bump(b.hint, c, CountKind(ws, "Hint")))
  }

  /** Counting `ws` into `by_type`: the `KeyError` of the first record of
      another type, or the counts of its warnings and hints added in. */
  function Tallied(b: ByType, ws: seq<Warning>, c: Column): Result<ByType, CompareError> {
    match UnknownIn(ws)
    case Some(k) => Failure(UnknownKind(k))
    case None => Success(CountInto(b, ws, c))
  }

  /** `by_type[kind]` over stage results `rs` with unchanged old records `same`. */
  function TallyOf(rs: seq<ComparisonResult>, same: seq<Warning>, kind: string): Tally {
    Tally(CountKind(AddedAll(rs), kind), CountKind(RemovedAll(rs), kind), CountKind(same, kind))
  }

  /** The summary of stage results `rs` with unchanged old records `same`:
      the totals add up the stages' list lengths and unchanged key counts,
      `by_type` counts the added, the removed and the unchanged old records
      by type, and `by_stage` keeps the stages that have something. */
  function SummaryOf(rs: seq<ComparisonResult>, same: seq<Warning>): Summary {
    Summary(|AddedAll(rs)|, |RemovedAll(rs)|, SumUnchanged(rs),
      ByType(TallyOf(rs, same, "Warning"), TallyOf(rs, same, "Hint")),
      KeptOnly(rs))
  }

  /** The summary over the parts when no record has an unknown type. */
  function Totals(ps: seq<StagePart>): Summary {
    SummaryOf(Results(ps), SameAll(ps))
  }

  /** The outcome over the parts: the `KeyError` of the first tallied record
      of an unknown type, or the summary. */
  function CompareSpec(ps: seq<StagePart>): Result<Summary, CompareError> {
    match UnknownIn(Touched(ps))
    case Some(k) => Failure(UnknownKind(k))
    case None => Success(Totals(ps))
  }

  /** The matched parts of two runs' records. */
  function MatchedParts(olds: seq<Warning>, news: seq<Warning>): seq<StagePart> {
    var oldG, newG := Grouped(olds), Grouped(news);
    Parts(oldG, newG, MatchStages(oldG, newG))
  }

  /** What `compare_logs` returns or raises for two runs' records. */
  function CompareLogsSpec(olds: seq<Warning>, news: seq<Warning>): Result<Summary, CompareError> {
    CompareSpec(MatchedParts(olds, news))
  }

  /** The summary after one more stage, all of whose records are of known types. */
  function Advance(s: Summary, p: StagePart): Summary {
    var r := p.0;
    Summary(s.totalAdded + |r.added|, s.totalRemoved + |r.removed|, s.totalUnchanged + r.unchangedCount,
      CountInto(CountInto(CountInto(s.byType, r.added, AddedColumn), r.removed, RemovedColumn), p.1, UnchangedColumn),
      s.byStage + if Kept(r) then [r] else [])
  }

  /** The aggregates over the stage results grow by one stage at a time. */
  lemma AggregatesSnoc(rs: seq<ComparisonResult>, r: ComparisonResult)
    ensures AddedAll(rs + [r]) == AddedAll(rs) + r.added
    ensures RemovedAll(rs + [r]) == RemovedAll(rs) + r.removed
    ensures SumUnchanged(rs + [r]) == SumUnchanged(rs) + r.unchangedCount
    ensures KeptOnly(rs + [r]) == KeptOnly(rs) + if Kept(r) then [r] else []
  {
    assert (rs + [r])[..|rs|] == rs;
  }

  lemma TallySnoc(rs: seq<ComparisonResult>, r: ComparisonResult, u: seq<Warning>, um: seq<Warning>, kind: string)
    ensures TallyOf(rs + [r], u + um, kind)
            == Tally(TallyOf(rs, u, kind).added + CountKind(r.added, kind),
                     TallyOf(rs, u, kind).removed + CountKind(r.removed, kind),
                     TallyOf(rs, u, kind).same + CountKind(um, kind))
  {
    AggregatesSnoc(rs, r);
    CountKindAppend(AddedAll(rs), r.added, kind);
    CountKindAppend(RemovedAll(rs), r.removed, kind);
    CountKindAppend(u, um, kind);
  }

  lemma TotalsSnoc(ps: seq<StagePart>, p: StagePart)
    ensures Totals(ps + [p]) == Advance(Totals(ps), p)
  {
    var ps' := ps + [p];
    assert Results(ps') == Results(ps) + [p.0] && SameAll(ps') == SameAll(ps) + p.1 by {
      assert ps'[..|ps'| - 1] == ps;
    }
    SummarySnoc(Results(ps), p.0, SameAll(ps), p.1);
  }

  lemma SummarySnoc(rs: seq<ComparisonResult>, r: ComparisonResult, u: seq<Warning>, um: seq<Warning>)
    ensures SummaryOf(rs + [r], u + um) == Advance(SummaryOf(rs, u), (r, um))
  {
    AggregatesSnoc(rs, r);
    TallySnoc(rs, r, u, um, "Warning");
    TallySnoc(rs, r, u, um, "Hint");
  }

  lemma {:induction false} TouchedAppend(a: seq<StagePart>, b: seq<StagePart>)
    ensures Touched(a + b) == Touched(a) + Touched(b)
    decreases |b|
  {
    if |b| > 0 {
      assert (a + b)[..|a + b| - 1] == a + b[..|b| - 1];
      TouchedAppend(a, b[..|b| - 1]);
    } else {
      assert a + b == a;
    }
  }

  /** The parts around the `i`-th pair. */
  lemma PartsSplit(oldG: Groups, newG: Groups, ms: seq<(string, string)>, i: nat)
    requires i < |ms|
    ensures Parts(oldG, newG, ms[..i + 1]) == Parts(oldG, newG, ms[..i]) + [PartOf(oldG, newG, ms[i])]
    ensures Parts(oldG, newG, ms) == Parts(oldG, newG, ms[..i]) + [PartOf(oldG, newG, ms[i])] + Parts(oldG, newG, ms[i + 1..])
  {
    var prefix := ms[..i + 1];
    assert prefix[..i] == ms[..i] && prefix[i] == ms[i] && prefix[i + 1..] == [];
    MapSeqAt(m => PartOf(oldG, newG, m), prefix, i);
    MapSeqAt(m => PartOf(oldG, newG, m), ms, i);
  }


  /** An unknown type in one part, when the parts before it had none, is
      the error of the whole comparison. */
  lemma PartFails(front: seq<StagePart>, p: StagePart, back: seq<StagePart>, k: string)
    requires UnknownIn(Touched(front)).None?
    requires UnknownIn(Touches(p)) == Some(k)
    ensures CompareSpec(front + [p] + back) == Failure(UnknownKind(k))
  {
    var ps := front + [p];
    assert ps[..|ps| - 1] == front;
    TouchedAppend(ps, back);
    UnknownAppend(Touched(front), Touches(p));
    UnknownAppend(Touched(ps), Touched(back));
  }

  /** `for warning in ws: summary.by_type[warning.type][column] += 1`. */
  method TallyRecords(b: ByType, ws: seq<Warning>, c: Column) returns (r: Result<ByType, CompareError>)
    ensures r == Tallied(b, ws, c)
  {
    var t := b;
    var i := 0;
    while i < |ws|
      invariant i <= |ws|
      invariant forall j :: 0 <= j < i ==> KnownKind(ws[j])
      invariant t == CountInto(b, ws[..i], c)
    {
      var w := ws[i];
      assert ws[..i + 1] == ws[..i] + [w];
      CountIntoSnoc(b, ws[..i], w, c);
      if w.kind == "Warning" {
        t := t.(warning := Bump(t.warning, c, 1));
      } else if w.kind == "Hint" {
        t := t.(hint := Bump(t.hint, c, 1));
      } else {
        UnknownAt(ws, i);
        return Failure(UnknownKind(w.kind));
      }
      i := i + 1;
    }
    assert ws[..i] == ws;
    return Success(t);
  }

  /** A record of an unknown type after records of known types is the
      first unknown one. */
  lemma UnknownAt(ws: seq<Warning>, i: nat)
    requires i < |ws| && !KnownKind(ws[i])
    requires forall j :: 0 <= j < i ==> KnownKind(ws[j])
    ensures UnknownIn(ws) == Some(ws[i].kind)
  {
    var f := FirstUnknown(ws);
    assert f.Some? && f.value == i;
  }

  /** `for warning in olds: if warning.text in keys:
      summary.by_type[warning.type]["unchanged"] += 1`. */
  method TallyUnchanged(b: ByType, olds: seq<Warning>, keys: set<string>) returns (r: Result<ByType, CompareError>)
    ensures r == Tallied(b, Where(olds, keys), UnchangedColumn)
  {
    var t := b;
    var i := 0;
    while i < |olds|
      invariant i <= |olds|
      invariant UnknownIn(Where(olds[..i], keys)).None?
      invariant t == CountInto(b, Where(olds[..i], keys), UnchangedColumn)
    {
      var w := olds[i];
      ghost var done := Where(olds[..i], keys);
      WhereSnoc(olds, keys, i);
      if w.text in keys {
        CountIntoSnoc(b, done, w, UnchangedColumn);
        UnknownSnoc(done, w);
        if w.kind == "Warning" {
          t := t.(warning := Bump(t.warning, UnchangedColumn, 1));
        } else if w.kind == "Hint" {
          t := t.(hint := Bump(t.hint, UnchangedColumn, 1));
        } else {
          WhereUnknownAt(olds, keys, i);
          return Failure(UnknownKind(w.kind));
        }
      } else {
        assert done + [] == done;
      }
      i := i + 1;
    }
    assert olds[..i] == olds;
    return Success(t);
  }

  /** The kept records of one more record. */
  lemma WhereSnoc(ws: seq<Warning>, keys: set<string>, i: nat)
    requires i < |ws|
    ensures Where(ws[..i + 1], keys) == Where(ws[..i], keys) + if ws[i].text in keys then [ws[i]] else []
  {
    assert ws[..i + 1][..i] == ws[..i];
  }

  /** Counting one more record bumps the column of its type, if it has one. */
  lemma CountIntoSnoc(b: ByType, ws: seq<Warning>, w: Warning, c: Column)
    ensures var t := CountInto(b, ws, c);
      CountInto(b, ws + [w], c)
      == if w.kind == "Warning" then t.(warning := Bump(t.warning, c, 1))
         else if w.kind == "Hint" then t.(hint := Bump(t.hint, c, 1))
         else t
  {
    assert (ws + [w])[..|ws|] == ws;
    assert "Warning"[0] != "Hint"[0];
  }

  /** One more record is the first of an unknown type when it has one and
      the records before it had none. */
  lemma UnknownSnoc(ws: seq<Warning>, w: Warning)
    requires UnknownIn(ws).None?
    ensures UnknownIn(ws + [w]) == if KnownKind(w) then None else Some(w.kind)
  {
    UnknownAppend(ws, [w]);
  }

  /** The first kept record of an unknown type fails the whole tally. */
  lemma WhereUnknownAt(ws: seq<Warning>, keys: set<string>, i: nat)
    requires i < |ws| && ws[i].text in keys && !KnownKind(ws[i])
    requires UnknownIn(Where(ws[..i], keys)).None?
    ensures UnknownIn(Where(ws, keys)) == Some(ws[i].kind)
  {
    WhereSnoc(ws, keys, i);
    UnknownSnoc(Where(ws[..i], keys), ws[i]);
    assert ws == ws[..i + 1] + ws[i + 1..];
    WhereAppend(ws[..i + 1], ws[i + 1..], keys);
    UnknownAppend(Where(ws[..i + 1], keys), Where(ws[i + 1..], keys));
  }

  /** The summary updates of one stage in the loop of `compare_logs`: keep
      the result if it has anything, add it to the totals, and tally its
      added, removed and unchanged records by type. */
  method AddStage(s: Summary, result: ComparisonResult, olds: seq<Warning>, same: set<string>)
    returns (r: Result<Summary, CompareError>)
    ensures var p := (result, Where(olds, same));
      r == match UnknownIn(Touches(p))
           case Some(k) => Failure(UnknownKind(k))
           case None => Success(Advance(s, p))
  {
    ghost var u := Where(olds, same);
    UnknownAppend(result.added, result.removed);
    UnknownAppend(result.added + result.removed, u);
    var summary := s;
    if Kept(result) {
      summary := summary.(byStage := summary.byStage + [result]);
    }
    summary := summary.(totalAdded := summary.totalAdded + |result.added|,
                        totalRemoved := summary.totalRemoved + |result.removed|,
                        totalUnchanged := summary.totalUnchanged + result.unchangedCount);
    var t := TallyRecords(summary.byType, result.added, AddedColumn);
    if t.Failure? {
      return Failure(t.error);
    }
    t := TallyRecords(t.value, result.removed, RemovedColumn);
    if t.Failure? {
      return Failure(t.error);
    }
    t := TallyUnchanged(t.value, olds, same);
    if t.Failure? {
      return Failure(t.error);
    }
    ghost var p := (result, u);
    assert UnknownIn(Touches(p)).None?;
    assert t.value == CountInto(CountInto(CountInto(s.byType, result.added, AddedColumn), result.removed, RemovedColumn), u, UnchangedColumn);
    assert summary.(byType := t.value) == Advance(s, p);
    return Success(summary.(byType := t.value));
  }

  /** `compare_logs`: groups both runs by stage, matches the stages, and
      folds each matched pair's comparison into the summary; a record of a
      type other than "Warning" or "Hint" raises `KeyError`. */
  method CompareLogs(olds: seq<Warning>, news: seq<Warning>) returns (r: Result<Summary, CompareError>)
    ensures r == CompareLogsSpec(olds, news)
  {
    var oldG := GroupByStage(olds);
    var newG := GroupByStage(news);
    var ms := MatchStages(oldG, newG);
    var summary := EmptySummary;
    var i := 0;
    while i < |ms|
      invariant i <= |ms|
      invariant UnknownIn(Touched(Parts(oldG, newG, ms[..i]))).None?
      invariant summary == Totals(Parts(oldG, newG, ms[..i]))
    {
      var m := ms[i];
      var oldWs, newWs := Get(oldG, m.0), Get(newG, m.1);
      var result, same := CompareStage(m.1, oldWs, newWs);
      ghost var done, part := Parts(oldG, newG, ms[..i]), (result, Where(oldWs, same));
      assert part == PartOf(oldG, newG, m);
      var next := AddStage(summary, result, oldWs, same);
      if next.Failure? {
        PartsSplit(oldG, newG, ms, i);
        PartFails(done, part, Parts(oldG, newG, ms[i + 1..]), next.error.kind);
        return next;
      }
      PartsSplit(oldG, newG, ms, i);
      TotalsSnoc(done, part);
      UnknownAppend(Touched(done), Touches(part));
      summary := next.value;
      i := i + 1;
    }
    assert ms[..i] == ms;
    return Success(summary);
  }
}

=== FILE: comparator_props.dfy ===
/** Properties of the whole comparison `compare_logs`: what `by_stage`
    holds, how the tallies relate to the totals, when the comparison
    succeeds, and what swapping the runs does. */
module ComparatorProperties {
  import opened Wrappers
  import opened Strings
  import opened Extractor
  import opened Comparator

  /** The stage results of the parts, one per part, in order. */
  lemma {:induction false} ResultsIndex(ps: seq<StagePart>)
    ensures |Results(ps)| == |ps|
    ensures forall i :: 0 <= i < |ps| ==> Results(ps)[i] == ps[i].0
    decreases |ps|
  {
    if |ps| > 0 {
      ResultsIndex(ps[..|ps| - 1]);
    }
  }

  /** The stage results of the parts are the comparisons of the matched
      stages, one per pair, in order. */
  lemma ResultsOfParts(oldG: Groups, newG: Groups, ms: seq<(string, string)>)
    ensures |Results(Parts(oldG, newG, ms))| == |ms|
    ensures forall i :: 0 <= i < |ms| ==>
      Results(Parts(oldG, newG, ms))[i] == StageResult(ms[i].1, Get(oldG, ms[i].0), Get(newG, ms[i].1))
  {
    ResultsIndex(Parts(oldG, newG, ms));
  }

  /** When every stage result has something, `by_stage` keeps them all. */
  lemma {:induction false} KeptOnlyAll(rs: seq<ComparisonResult>)
    requires forall i :: 0 <= i < |rs| ==> Kept(rs[i])
    ensures KeptOnly(rs) == rs
    decreases |rs|
  {
    if |rs| > 0 {
      var front, last := rs[..|rs| - 1], rs[|rs| - 1];
      assert forall i :: 0 <= i < |front| ==> Kept(front[i]) by {
        forall i | 0 <= i < |front| ensures Kept(front[i]) { assert front[i] == rs[i]; }
      }
      KeptOnlyAll(front);
      KeptOnlyKeepsLast(rs);
      assert front + [last] == rs;
    }
  }

  /** A kept last result is kept after the ones before it. */
  lemma KeptOnlyKeepsLast(rs: seq<ComparisonResult>)
    requires |rs| > 0 && Kept(rs[|rs| - 1])
    ensures KeptOnly(rs) == KeptOnly(rs[..|rs| - 1]) + [rs[|rs| - 1]]
  {
  }

  /** A record's stage has at least that record. */
  lemma OfStageHas(ws: seq<Warning>, w: Warning)
    requires w in ws
    ensures |OfStage(ws, w.stage)| > 0
  {
    OfStageSpec(ws, w.stage);
    assert multiset(OfStage(ws, w.stage))[w] > 0;
  }

  /** Every matched stage has a record in one of the runs, so its result is
      kept: `by_stage` holds the comparison of every matched stage. */
  lemma AllStagesKept(olds: seq<Warning>, news: seq<Warning>)
    ensures var oldG, newG := Grouped(olds), Grouped(news);
      KeptOnly(Results(MatchedParts(olds, news))) == Results(MatchedParts(olds, news))
  {
    var oldG, newG := Grouped(olds), Grouped(news);
    var ms := MatchStages(oldG, newG);
    var rs := Results(Parts(oldG, newG, ms));
    MatchStagesSpec(oldG, newG);
    GroupedSpec(olds);
    GroupedSpec(news);
    ResultsOfParts(oldG, newG, ms);
    forall i | 0 <= i < |rs| ensures Kept(rs[i]) {
      var name := ms[i].0;
      assert name in Keys(oldG) || name in Keys(newG);
      if name in Keys(oldG) {
        var w :| w in olds && w.stage == name;
        OfStageHas(olds, w);
      } else {
        var w :| w in news && w.stage == name;
        OfStageHas(news, w);
      }
      StageKept(name, Get(oldG, name), Get(newG, name));
    }
    KeptOnlyAll(rs);
  }

  /** The names of stage results, in order. */
  function StageNames(rs: seq<ComparisonResult>): (names: seq<string>)
    ensures |names| == |rs| && forall i :: 0 <= i < |rs| ==> names[i] == rs[i].stageName
  {
    seq(|rs|, i requires 0 <= i < |rs| => rs[i].stageName)
  }

  /** On success, `by_stage` holds the comparison of every matched stage, in
      the order of the matches. */
  lemma ByStageMatches(olds: seq<Warning>, news: seq<Warning>)
    requires CompareLogsSpec(olds, news).Success?
    ensures var oldG, newG := Grouped(olds), Grouped(news);
      var ms, st := MatchStages(oldG, newG), CompareLogsSpec(olds, news).value.byStage;
      |st| == |ms| && forall i :: 0 <= i < |ms| ==> st[i] == StageResult(ms[i].1, Get(oldG, ms[i].0), Get(newG, ms[i].1))
  {
    var oldG, newG := Grouped(olds), Grouped(news);
    AllStagesKept(olds, news);
    ResultsOfParts(oldG, newG, MatchStages(oldG, newG));
  }

  /** On success, the names in `by_stage` are those of the matches. */
  lemma ByStageNamesMatch(olds: seq<Warning>, news: seq<Warning>)
    requires CompareLogsSpec(olds, news).Success?
    ensures var ms := MatchStages(Grouped(olds), Grouped(news));
      var st := CompareLogsSpec(olds, news).value.byStage;
      |st| == |ms| && forall i :: 0 <= i < |ms| ==> st[i].stageName == ms[i].0
  {
    var oldG, newG := Grouped(olds), Grouped(news);
    ByStageMatches(olds, news);
    MatchStagesSpec(oldG, newG);
  }

  /** Results named after the matches of two groupings are named after
      exactly the stages of the two runs. */
  lemma NamesOfMatches(st: seq<ComparisonResult>, olds: seq<Warning>, news: seq<Warning>)
    requires var ms := MatchStages(Grouped(olds), Grouped(news));
      |st| == |ms| && forall i :: 0 <= i < |ms| ==> st[i].stageName == ms[i].0
    ensures forall x :: x in StageNames(st) <==> exists w :: (w in olds || w in news) && w.stage == x
  {
    var oldG, newG := Grouped(olds), Grouped(news);
    var ms := MatchStages(oldG, newG);
    MatchStagesSpec(oldG, newG);
    GroupedSpec(olds);
    GroupedSpec(news);
    var names := StageNames(st);
    forall x ensures x in names <==> exists w :: (w in olds || w in news) && w.stage == x {
      if x in names {
        var i :| 0 <= i < |st| && names[i] == x;
        assert ms[i].0 == x;
        assert x in Keys(oldG) || x in Keys(newG);
      }
      if exists w :: (w in olds || w in news) && w.stage == x {
        assert x in Keys(oldG) || x in Keys(newG);
        var i :| 0 <= i < |ms| && ms[i].0 == x;
        assert names[i] == x;
      }
    }
  }

  /** On success, `by_stage` lists every stage of either run once, sorted by
      name. */
  lemma CompareLogsStageNames(olds: seq<Warning>, news: seq<Warning>)
    requires CompareLogsSpec(olds, news).Success?
    ensures var st := CompareLogsSpec(olds, news).value.byStage;
      (forall i, j :: 0 <= i < j < |st| ==> Less(st[i].stageName, st[j].stageName))
      && (forall x :: x in StageNames(st) <==> exists w :: (w in olds || w in news) && w.stage == x)
  {
    ByStageNamesMatch(olds, news);
    MatchStagesSpec(Grouped(olds), Grouped(news));
    NamesOfMatches(CompareLogsSpec(olds, news).value.byStage, olds, news);
  }

  /** On success, each entry of `by_stage` is the comparison of that stage's
      old and new records. */
  lemma CompareLogsStageEntries(olds: seq<Warning>, news: seq<Warning>)
    requires CompareLogsSpec(olds, news).Success?
    ensures var st := CompareLogsSpec(olds, news).value.byStage;
      forall i :: 0 <= i < |st| ==>
        st[i] == StageResult(st[i].stageName, OfStage(olds, st[i].stageName), OfStage(news, st[i].stageName))
  {
    var oldG, newG := Grouped(olds), Grouped(news);
    var ms := MatchStages(oldG, newG);
    var st := CompareLogsSpec(olds, news).value.byStage;
    ByStageMatches(olds, news);
    ByStageNamesMatch(olds, news);
    MatchStagesSpec(oldG, newG);
    GroupedSpec(olds);
    GroupedSpec(news);
  }

  /** The tallied records of parts with no unknown type are all of known types. */
  lemma {:induction false} PartsKnown(ps: seq<StagePart>)
    requires AllKnown(Touched(ps))
    ensures AllKnown(AddedAll(Results(ps))) && AllKnown(RemovedAll(Results(ps))) && AllKnown(SameAll(ps))
    decreases |ps|
  {
    if |ps| > 0 {
      var front, p := ps[..|ps| - 1], ps[|ps| - 1];
      AllKnownAppend(Touched(front), Touches(p));
      AllKnownAppend(p.0.added + p.0.removed, p.1);
      AllKnownAppend(p.0.added, p.0.removed);
      PartsKnown(front);
      AggregatesSnoc(Results(front), p.0);
      assert Results(ps) == Results(front) + [p.0];
      AllKnownAppend(AddedAll(Results(front)), p.0.added);
      AllKnownAppend(RemovedAll(Results(front)), p.0.removed);
      AllKnownAppend(SameAll(front), p.1);
    }
  }

  /** A part has no more unchanged keys than unchanged old records, and
      tallies only records of the stages' runs. */
  lemma PartFacts(oldG: Groups, newG: Groups, m: (string, string))
    ensures var p := PartOf(oldG, newG, m);
      p.0.unchangedCount <= |p.1|
      && (AllKnown(Get(oldG, m.0)) && AllKnown(Get(newG, m.1)) ==> AllKnown(Touches(p)))
  {
    var olds, news := Get(oldG, m.0), Get(newG, m.1);
    var p := PartOf(oldG, newG, m);
    UnchangedTallies(m.1, olds, news);
    if AllKnown(olds) && AllKnown(news) {
      WhereKnown(news, Texts(news) - Texts(olds));
      WhereKnown(olds, Texts(olds) - Texts(news));
      WhereKnown(olds, Texts(olds) * Texts(news));
      AllKnownAppend(p.0.added, p.0.removed);
      AllKnownAppend(p.0.added + p.0.removed, p.1);
    }
  }

  /** Summed over parts each with no more unchanged keys than unchanged old
      records. */
  lemma {:induction false} UnchangedBound(ps: seq<StagePart>)
    requires forall i :: 0 <= i < |ps| ==> ps[i].0.unchangedCount <= |ps[i].1|
    ensures SumUnchanged(Results(ps)) <= |SameAll(ps)|
    decreases |ps|
  {
    if |ps| > 0 {
      var front, p := ps[..|ps| - 1], ps[|ps| - 1];
      UnchangedBound(front);
      AggregatesSnoc(Results(front), p.0);
    }
  }

  /** On success, the warning and hint columns of `by_type` add up to the
      totals of added and removed records; the unchanged columns count old
      records, so together they are at least `total_unchanged`, which counts
      distinct texts. */
  lemma CompareLogsTallies(olds: seq<Warning>, news: seq<Warning>)
    requires CompareLogsSpec(olds, news).Success?
    ensures var s := CompareLogsSpec(olds, news).value;
      s.byType.warning.added + s.byType.hint.added == s.totalAdded
      && s.byType.warning.removed + s.byType.hint.removed == s.totalRemoved
      && s.totalUnchanged <= s.byType.warning.same + s.byType.hint.same
  {
    var oldG, newG := Grouped(olds), Grouped(news);
    var ms := MatchStages(oldG, newG);
    var ps := Parts(oldG, newG, ms);
    var rs := Results(ps);
    assert FirstUnknown(Touched(ps)).None?;
    PartsKnown(ps);
    CountKnownKinds(AddedAll(rs));
    CountKnownKinds(RemovedAll(rs));
    CountKnownKinds(SameAll(ps));
    forall i | 0 <= i < |ps| ensures ps[i].0.unchangedCount <= |ps[i].1| {
      PartFacts(oldG, newG, ms[i]);
    }
    UnchangedBound(ps);
  }

  lemma {:induction false} WhereKnown(ws: seq<Warning>, keys: set<string>)
    requires AllKnown(ws)
    ensures AllKnown(Where(ws, keys))
    decreases |ws|
  {
    if |ws| > 0 {
      var front, w := ws[..|ws| - 1], ws[|ws| - 1];
      WhereKnown(front, keys);
      AllKnownAppend(Where(front, keys), if w.text in keys then [w] else []);
    }
  }

  lemma {:induction false} OfStageKnown(ws: seq<Warning>, stage: string)
    requires AllKnown(ws)
    ensures AllKnown(OfStage(ws, stage))
    decreases |ws|
  {
    if |ws| > 0 {
      var front, w := ws[..|ws| - 1], ws[|ws| - 1];
      OfStageKnown(front, stage);
      AllKnownAppend(OfStage(front, stage), if w.stage == stage then [w] else []);
    }
  }

  /** Parts that each tally only records of known types. */
  lemma {:induction false} TouchedKnown(ps: seq<StagePart>)
    requires forall i :: 0 <= i < |ps| ==> AllKnown(Touches(ps[i]))
    ensures AllKnown(Touched(ps))
    decreases |ps|
  {
    if |ps| > 0 {
      var front := ps[..|ps| - 1];
      TouchedKnown(front);
      AllKnownAppend(Touched(front), Touches(ps[|ps| - 1]));
    }
  }

  /** When every record of both runs is a warning or a hint, `compare_logs`
      raises no `KeyError`. */
  lemma CompareLogsSucceeds(olds: seq<Warning>, news: seq<Warning>)
    requires AllKnown(olds) && AllKnown(news)
    ensures CompareLogsSpec(olds, news).Success?
  {
    var oldG, newG := Grouped(olds), Grouped(news);
    GroupedSpec(olds);
    GroupedSpec(news);
    forall s ensures AllKnown(Get(oldG, s)) && AllKnown(Get(newG, s)) {
      OfStageKnown(olds, s);
      OfStageKnown(news, s);
    }
    var ms := MatchStages(oldG, newG);
    var ps := Parts(oldG, newG, ms);
    forall i | 0 <= i < |ps| ensures AllKnown(Touches(ps[i])) {
      PartFacts(oldG, newG, ms[i]);
    }
    TouchedKnown(ps);
  }

  /** Two lists of stage results that mirror each other. */
  predicate Mirrored(rs: seq<ComparisonResult>, ts: seq<ComparisonResult>) {
    |rs| == |ts|
    && forall i :: 0 <= i < |rs| ==>
         rs[i].stageName == ts[i].stageName && rs[i].added == ts[i].removed
         && rs[i].removed == ts[i].added && rs[i].unchangedCount == ts[i].unchangedCount
  }

  lemma {:induction false} MirroredAggregates(rs: seq<ComparisonResult>, ts: seq<ComparisonResult>)
    requires Mirrored(rs, ts)
    ensures AddedAll(rs) == RemovedAll(ts) && RemovedAll(rs) == AddedAll(ts)
    ensures SumUnchanged(rs) == SumUnchanged(ts)
    decreases |rs|
  {
    if |rs| > 0 {
      MirroredAggregates(rs[..|rs| - 1], ts[..|ts| - 1]);
    }
  }

  /** Swapping the old and the new run swaps added and removed, stage by
      stage and in the totals, and keeps the unchanged counts. */
  lemma CompareLogsSymmetric(a: seq<Warning>, b: seq<Warning>)
    requires CompareLogsSpec(a, b).Success? && CompareLogsSpec(b, a).Success?
    ensures var s, t := CompareLogsSpec(a, b).value, CompareLogsSpec(b, a).value;
      Mirrored(s.byStage, t.byStage)
      && s.totalAdded == t.totalRemoved && s.totalRemoved == t.totalAdded
      && s.totalUnchanged == t.totalUnchanged
  {
    var aG, bG := Grouped(a), Grouped(b);
    var ms := MatchStages(aG, bG);
    MatchStagesSymmetric(aG, bG);
    MatchStagesSpec(aG, bG);
    var rs, ts := Results(Parts(aG, bG, ms)), Results(Parts(bG, aG, ms));
    ResultsOfParts(aG, bG, ms);
    ResultsOfParts(bG, aG, ms);
    forall i | 0 <= i < |ms|
      ensures rs[i].stageName == ts[i].stageName && rs[i].added == ts[i].removed
              && rs[i].removed == ts[i].added && rs[i].unchangedCount == ts[i].unchangedCount
    {
      StageSymmetric(ms[i].1, Get(aG, ms[i].0), Get(bG, ms[i].1));
    }
    MirroredAggregates(rs, ts);
    AllStagesKept(a, b);
    AllStagesKept(b, a);
  }

  /** All records of one stage. */
  lemma {:induction false} OfStageAll(ws: seq<Warning>, stage: string)
    requires forall k :: 0 <= k < |ws| ==> ws[k].stage == stage
    ensures OfStage(ws, stage) == ws
    decreases |ws|
  {
    if |ws| > 0 {
      OfStageAll(ws[..|ws| - 1], stage);
    }
  }

  /** Groups whose keys are all `n`, one of them at least, match as the one
      stage `n`. */
  lemma MatchOne(oldG: Groups, newG: Groups, n: string)
    requires n in Keys(oldG) + Keys(newG)
    requires forall x :: x in Keys(oldG) + Keys(newG) ==> x == n
    ensures MatchStages(oldG, newG) == [(n, n)]
  {
    var all := Keys(oldG) + Keys(newG);
    SortedNamesSpec(all);
    SortedUnique(SortedNames(all), [n]);
  }

  /** Two runs with records of one stage only are compared as that one stage. */
  lemma OneStage(olds: seq<Warning>, news: seq<Warning>, n: string)
    requires |olds| + |news| > 0
    requires forall k :: 0 <= k < |olds| ==> olds[k].stage == n
    requires forall k :: 0 <= k < |news| ==> news[k].stage == n
    ensures MatchedParts(olds, news) == [(StageResult(n, olds, news), Unchanged(olds, news))]
  {
    var oldG, newG := Grouped(olds), Grouped(news);
    GroupedSpec(olds);
    GroupedSpec(news);
    if |olds| > 0 {
      assert olds[0] in olds;
      assert n in Keys(oldG);
    } else {
      assert news[0] in news;
      assert n in Keys(newG);
    }
    MatchOne(oldG, newG, n);
    OfStageAll(olds, n);
    OfStageAll(news, n);
    assert Get(oldG, n) == olds && Get(newG, n) == news;
  }

  /** The one stage of the documented example of `compare_logs`. */
  lemma DocExampleStage(w1: Warning, w2: Warning)
    requires w1.text != w2.text
    ensures var r := StageResult(w1.stage, [w1], [w1, w2]);
      r.added == [w2] && r.removed == [] && r.unchangedCount == 1
  {
    var olds, news := [w1], [w1, w2];
    assert news[..1] == olds && olds[..0] == [];
    assert Texts(olds) == {w1.text};
    assert Texts(news) == {w1.text, w2.text};
    assert Texts(news) - Texts(olds) == {w2.text};
    assert Where(olds, {w2.text}) == [];
    assert Texts(olds) - Texts(news) == {};
    WhereNone(olds);
    assert Texts(olds) * Texts(news) == {w1.text};
  }

  /** The documented example of `compare_logs`: one old warning kept and one
      new warning added in the same stage. */
  lemma CompareLogsDocExample(w1: Warning, w2: Warning)
    requires w1 == Warning("test1", "test1", "Warning", "<Abd.dpr>", "", 0)
    requires w2 == Warning("test2", "test2", "Warning", "<Abd.dpr>", "", 0)
    ensures CompareLogsSpec([w1], [w1, w2]).Success?
    ensures CompareLogsSpec([w1], [w1, w2]).value.totalAdded == 1
    ensures CompareLogsSpec([w1], [w1, w2]).value.totalRemoved == 0
    ensures CompareLogsSpec([w1], [w1, w2]).value.totalUnchanged == 1
  {
    var olds, news := [w1], [w1, w2];
    assert w1.text != w2.text by {
      assert w1.text[4] != w2.text[4];
    }
    OneStage(olds, news, w1.stage);
    CompareLogsSucceeds(olds, news);
    DocExampleStage(w1, w2);
    var r := StageResult(w1.stage, olds, news);
    var p: StagePart := (r, Unchanged(olds, news));
    assert [p][..0] == [];
    assert Results([p]) == [r];
    assert [r][..0] == [];
    assert AddedAll([r]) == [w2] && RemovedAll([r]) == [] && SumUnchanged([r]) == 1;
  }
}

=== FILE: config.dfy ===
/**
  Configuration of the log analyzer: which steps of the build are analysed,
  which angle-bracket markers open nested stages, which substrings mark a
  compiler diagnostic, which regular expressions are stripped before
  comparison, and the output switches; plus the ordered validation of a
  configuration.
*/
module Configuration {
  import opened Wrappers
  import opened Strings

  /** A step of interest: a line holding `pattern` opens the stage `name`. */
  datatype TargetStep = TargetStep(pattern: string, name: string)

  /** A line holding `pattern` is a diagnostic of type `kind` ("Warning", "Hint"). */
  datatype WarningPattern = WarningPattern(pattern: string, kind: string)

  /** A value of an `output` switch; a YAML file may put anything there. */
  datatype OutputValue = Flag(on: bool) | NotAFlag

  /** The configuration. `ignorePatterns` and `output` are dictionaries,
      kept as lists of entries in insertion order. */
  datatype Config = Config(
    targetSteps: seq<TargetStep>,
    stageMarkers: seq<string>,
    warningPatterns: seq<WarningPattern>,
    ignorePatterns: seq<(string, string)>,
    ignoreCase: bool,
    output: seq<(string, OutputValue)>)

  /** The default `ignore_patterns["timestamp"]`: `^\[\d{2}:\d{2}:\d{2}\]`. */
  const DefaultTimestampPattern: string := "^\\[\\d{2}:\\d{2}:\\d{2}\\]"

  /** The default `ignore_patterns["path_prefix"]`: `N:\\BuildArea\\[^\\]+\\`. */
  const DefaultPathPrefixPattern: string := "N:\\\\BuildArea\\\\[^\\\\]+\\\\"

  /** The configuration used when no file is given (project OrionPro). */
  function DefaultConfig(): Config {
    Config(
      [TargetStep("Step 4/21: BuildOrionPRO", "BuildOrionPRO")],
      ["<build>", "<brcc>", "<dcc>"],
      [WarningPattern(" Warning: ", "Warning"), WarningPattern(" Hint: ", "Hint")],
      [("timestamp", DefaultTimestampPattern), ("path_prefix", DefaultPathPrefixPattern)],
      false,
      [("use_colors", Flag(true)), ("show_unchanged_count", Flag(true)), ("group_by_stage", Flag(true))])
  }

  /** `d.get(key)` on a dictionary kept as a list of entries. */
  function Lookup<V>(entries: seq<(string, V)>, key: string): (r: Option<V>)
    ensures r.Some? <==> exists i :: 0 <= i < |entries| && entries[i].0 == key
    ensures r.Some? ==> exists i :: 0 <= i < |entries| && entries[i] == (key, r.value)
  {
    if |entries| == 0 then None
    else if entries[0].0 == key then Some(entries[0].1)
    else
      var r := Lookup(entries[1..], key);
      assert forall i :: 0 < i < |entries| ==> entries[i] == entries[1..][i - 1];
      r
  }

  /** Why a configuration is rejected; step numbers count from 1. */
  datatype ConfigError =
    | NoTargetSteps
    | MissingPattern(stepNumber: nat)
    | MissingName(stepNumber: nat)
    | NoStageMarkers
    | NoWarningPatterns
    | InvalidIgnorePattern(key: string)
    | NotAFlagValue(key: string)

  /** A target step that has both a pattern and a name. */
  predicate Complete(t: TargetStep) {
    t.pattern != [] && t.name != []
  }

  /** The error for the first incomplete target step at or after `i`. */
  function FirstIncompleteStep(steps: seq<TargetStep>, i: nat): (e: Option<ConfigError>)
    requires i <= |steps|
    ensures e.None? <==> forall j :: i <= j < |steps| ==> Complete(steps[j])
    ensures e.Some? ==>
      exists j :: i <= j < |steps| && !Complete(steps[j])
        && (forall m :: i <= m < j ==> Complete(steps[m]))
        && e.value == (if steps[j].pattern == [] then MissingPattern(j + 1) else MissingName(j + 1))
    decreases |steps| - i
  {
    if i == |steps| then None
    else if steps[i].pattern == [] then Some(MissingPattern(i + 1))
    else if steps[i].name == [] then Some(MissingName(i + 1))
    else FirstIncompleteStep(steps, i + 1)
  }

  /** The error for the first ignore pattern, in order, that does not compile. */
  function FirstInvalidPattern(patterns: seq<(string, string)>, compiles: string -> bool): (e: Option<ConfigError>)
    ensures e.None? <==> forall j :: 0 <= j < |patterns| ==> compiles(patterns[j].1)
    ensures e.Some? ==>
      exists j :: 0 <= j < |patterns| && !compiles(patterns[j].1)
        && (forall m :: 0 <= m < j ==> compiles(patterns[m].1))
        && e.value == InvalidIgnorePattern(patterns[j].0)
  {
    if |patterns| == 0 then None
    else if !compiles(patterns[0].1) then Some(InvalidIgnorePattern(patterns[0].0))
    else
      var e := FirstInvalidPattern(patterns[1..], compiles);
      assert forall j :: 0 < j < |patterns| ==> patterns[j] == patterns[1..][j - 1];
      if e.Some? then
        ghost var k :| 0 <= k < |patterns[1..]| && !compiles(patterns[1..][k].1)
          && (forall m :: 0 <= m < k ==> compiles(patterns[1..][m].1))
          && e.value == InvalidIgnorePattern(patterns[1..][k].0);
        assert patterns[k + 1] == patterns[1..][k];
        e
      else e
  }

  /** The error for the first `output` entry, in order, that is not a boolean. */
  function FirstNonFlag(output: seq<(string, OutputValue)>): (e: Option<ConfigError>)
    ensures e.None? <==> forall j :: 0 <= j < |output| ==> output[j].1.Flag?
    ensures e.Some? ==>
      exists j :: 0 <= j < |output| && output[j].1.NotAFlag?
        && (forall m :: 0 <= m < j ==> output[m].1.Flag?)
        && e.value == NotAFlagValue(output[j].0)
  {
    if |output| == 0 then None
    else if output[0].1.NotAFlag? then Some(NotAFlagValue(output[0].0))
    else
      var e := FirstNonFlag(output[1..]);
      assert forall j :: 0 < j < |output| ==> output[j] == output[1..][j - 1];
      if e.Some? then
        ghost var k :| 0 <= k < |output[1..]| && output[1..][k].1.NotAFlag?
          && (forall m :: 0 <= m < k ==> output[1..][m].1.Flag?)
          && e.value == NotAFlagValue(output[1..][k].0);
        assert output[k + 1] == output[1..][k];
        e
      else e
  }

  /** Every requirement a usable configuration meets; `compiles` decides
      whether a string is a valid regular expression. */
  predicate WellFormed(config: Config, compiles: string -> bool) {
    |config.targetSteps| > 0
    && (forall j :: 0 <= j < |config.targetSteps| ==> Complete(config.targetSteps[j]))
    && |config.stageMarkers| > 0
    && |config.warningPatterns| > 0
    && (forall j :: 0 <= j < |config.ignorePatterns| ==> compiles(config.ignorePatterns[j].1))
    && (forall j :: 0 <= j < |config.output| ==> config.output[j].1.Flag?)
  }

  /** `validate_config`: the checks run in a fixed order and the first one
      that fails is reported; success is the source's `True`. */
  function ValidateConfig(config: Config, compiles: string -> bool): (r: Result<bool, ConfigError>)
    ensures r.Success? <==> WellFormed(config, compiles)
    ensures r.Success? ==> r.value
  {
    if |config.targetSteps| == 0 then Failure(NoTargetSteps)
    else if FirstIncompleteStep(config.targetSteps, 0).Some? then Failure(FirstIncompleteStep(config.targetSteps, 0).value)
    else if |config.stageMarkers| == 0 then Failure(NoStageMarkers)
    else if |config.warningPatterns| == 0 then Failure(NoWarningPatterns)
    else if FirstInvalidPattern(config.ignorePatterns, compiles).Some? then
      Failure(FirstInvalidPattern(config.ignorePatterns, compiles).value)
    else if FirstNonFlag(config.output).Some? then Failure(FirstNonFlag(config.output).value)
    else Success(true)
  }

  /** An empty list of target steps is reported first, and only then. */
  lemma NoTargetStepsReported(config: Config, compiles: string -> bool)
    ensures ValidateConfig(config, compiles) == Failure(NoTargetSteps) <==> |config.targetSteps| == 0
  {
  }

  /** A missing pattern or name is reported for the first incomplete target
      step, by its 1-based number; the pattern is checked before the name. */
  lemma IncompleteStepReported(config: Config, compiles: string -> bool)
    ensures var r := ValidateConfig(config, compiles);
      r.Failure? && (r.error.MissingPattern? || r.error.MissingName?) ==>
        var n := r.error.stepNumber;
        1 <= n <= |config.targetSteps|
        && (forall m :: 0 <= m < n - 1 ==> Complete(config.targetSteps[m]))
        && (if r.error.MissingPattern? then config.targetSteps[n - 1].pattern == []
            else config.targetSteps[n - 1].pattern != [] && config.targetSteps[n - 1].name == [])
  {
  }

  /** Missing stage markers are reported exactly when the target steps are
      fine and there are no markers. */
  lemma NoStageMarkersReported(config: Config, compiles: string -> bool)
    ensures ValidateConfig(config, compiles) == Failure(NoStageMarkers) <==>
      |config.targetSteps| > 0 && (forall j :: 0 <= j < |config.targetSteps| ==> Complete(config.targetSteps[j]))
      && |config.stageMarkers| == 0
  {
  }

  /** Missing warning patterns are reported exactly when the earlier checks
      pass and there are no patterns. */
  lemma NoWarningPatternsReported(config: Config, compiles: string -> bool)
    ensures ValidateConfig(config, compiles) == Failure(NoWarningPatterns) <==>
      |config.targetSteps| > 0 && (forall j :: 0 <= j < |config.targetSteps| ==> Complete(config.targetSteps[j]))
      && |config.stageMarkers| > 0 && |config.warningPatterns| == 0
  {
  }

  /** The checks before the regular expressions pass: there are target
      steps, each complete, stage markers and warning patterns. */
  predicate StructureValid(config: Config) {
    |config.targetSteps| > 0 && (forall j :: 0 <= j < |config.targetSteps| ==> Complete(config.targetSteps[j]))
    && |config.stageMarkers| > 0 && |config.warningPatterns| > 0
  }

  /** The structural checks pass exactly when validation gets past them. */
  lemma StructureChecked(config: Config, compiles: string -> bool)
    ensures StructureValid(config) <==>
      |config.targetSteps| > 0 && FirstIncompleteStep(config.targetSteps, 0).None?
      && |config.stageMarkers| > 0 && |config.warningPatterns| > 0
  {
  }

  /** The ignore pattern with key `key` is reported exactly when the
      structural checks pass and it is the first ignore pattern, in order,
      that is not a regular expression. */
  lemma InvalidIgnorePatternReported(config: Config, compiles: string -> bool, key: string)
    ensures ValidateConfig(config, compiles) == Failure(InvalidIgnorePattern(key)) <==>
      StructureValid(config)
      && exists j :: 0 <= j < |config.ignorePatterns| && !compiles(config.ignorePatterns[j].1)
           && (forall m :: 0 <= m < j ==> compiles(config.ignorePatterns[m].1))
           && config.ignorePatterns[j].0 == key
  {
    var ps := config.ignorePatterns;
    StructureChecked(config, compiles);
    if exists j :: 0 <= j < |ps| && !compiles(ps[j].1) && (forall m :: 0 <= m < j ==> compiles(ps[m].1)) && ps[j].0 == key {
      var j :| 0 <= j < |ps| && !compiles(ps[j].1) && (forall m :: 0 <= m < j ==> compiles(ps[m].1)) && ps[j].0 == key;
      FirstInvalidIs(ps, compiles, j);
    }
  }

  /** The first ignore pattern that does not compile is the one reported. */
  lemma FirstInvalidIs(patterns: seq<(string, string)>, compiles: string -> bool, j: nat)
    requires j < |patterns| && !compiles(patterns[j].1)
    requires forall m :: 0 <= m < j ==> compiles(patterns[m].1)
    ensures FirstInvalidPattern(patterns, compiles) == Some(InvalidIgnorePattern(patterns[j].0))
  {
    var e := FirstInvalidPattern(patterns, compiles);
    var k :| 0 <= k < |patterns| && !compiles(patterns[k].1)
      && (forall m :: 0 <= m < k ==> compiles(patterns[m].1))
      && e.value == InvalidIgnorePattern(patterns[k].0);
    assert !(k < j) && !(j < k);
  }

  /** The `output` entry with key `key` is reported exactly when every
      earlier check passes, every ignore pattern compiles, and it is the
      first entry, in order, whose value is not a boolean. */
  lemma NotAFlagReported(config: Config, compiles: string -> bool, key: string)
    ensures ValidateConfig(config, compiles) == Failure(NotAFlagValue(key)) <==>
      StructureValid(config)
      && (forall j :: 0 <= j < |config.ignorePatterns| ==> compiles(config.ignorePatterns[j].1))
      && exists j :: 0 <= j < |config.output| && config.output[j].1.NotAFlag?
           && (forall m :: 0 <= m < j ==> config.output[m].1.Flag?)
           && config.output[j].0 == key
  {
    var out := config.output;
    StructureChecked(config, compiles);
    if exists j :: 0 <= j < |out| && out[j].1.NotAFlag? && (forall m :: 0 <= m < j ==> out[m].1.Flag?) && out[j].0 == key {
      var j :| 0 <= j < |out| && out[j].1.NotAFlag? && (forall m :: 0 <= m < j ==> out[m].1.Flag?) && out[j].0 == key;
      FirstNonFlagIs(out, j);
    }
  }

  /** The first `output` entry that is not a boolean is the one reported. */
  lemma FirstNonFlagIs(output: seq<(string, OutputValue)>, j: nat)
    requires j < |output| && output[j].1.NotAFlag?
    requires forall m :: 0 <= m < j ==> output[m].1.Flag?
    ensures FirstNonFlag(output) == Some(NotAFlagValue(output[j].0))
  {
    var e := FirstNonFlag(output);
    var k :| 0 <= k < |output| && output[k].1.NotAFlag?
      && (forall m :: 0 <= m < k ==> output[m].1.Flag?)
      && e.value == NotAFlagValue(output[k].0);
    assert !(k < j) && !(j < k);
  }

  /** The default configuration passes validation whenever its two default
      ignore patterns are accepted as regular expressions. */
  lemma DefaultConfigValid(compiles: string -> bool)
    requires compiles(DefaultTimestampPattern) && compiles(DefaultPathPrefixPattern)
    ensures ValidateConfig(DefaultConfig(), compiles) == Success(true)
  {
    var c := DefaultConfig();
    assert Complete(c.targetSteps[0]);
    assert forall j :: 0 <= j < |c.ignorePatterns| ==> compiles(c.ignorePatterns[j].1);
  }

  /** An incomplete target step is reported even if every later check would
      fail too: the target steps are checked first. */
  lemma TargetStepsCheckedFirst(config: Config, compiles: string -> bool, j: nat)
    requires j < |config.targetSteps| && !Complete(config.targetSteps[j])
    ensures ValidateConfig(config, compiles).Failure?
    ensures ValidateConfig(config, compiles).error.MissingPattern? || ValidateConfig(config, compiles).error.MissingName?
    ensures ValidateConfig(config, compiles).error.stepNumber <= j + 1
  {
    IncompleteStepReported(config, compiles);
  }
}

=== FILE: extractor.dfy ===
/**
  Compiler diagnostics of the build stages: which lines are warnings or
  hints, the file reference `path(line)` they carry, and the key under
  which two runs of the build compare them. Each regular expression is
  written out as a scan over the text with the leftmost, backtracking
  semantics of Python's `re`; the scans work on positions of the text. The
  two configurable ignore patterns go through a substitution function
  given by the caller.
*/
module Extractor {
  import opened Wrappers
  import opened Strings
  import opened Configuration
  import opened Parser

  /** One diagnostic: its comparison key, the stripped line, its type
      ("Warning" or "Hint"), the stage it was found in, and the file and
      line it names (empty and 0 when it names none). */
  datatype Warning = Warning(
    text: string,
    original: string,
    kind: string,
    stage: string,
    filePath: string,
    lineNumber: nat)

  // ---------------------------------------------------------------------
  // parse_warning_details

  /** A character of a path: not whitespace and not a parenthesis (`[^\s()]`). */
  predicate PathChar(c: char) {
    !IsSpace(c) && c != '(' && c != ')'
  }

  /** End of the run of path characters that starts at `i`; a colon ends it
      too when `colonStops` holds (`[^\s():]`). */
  function PathEnd(s: string, i: nat, colonStops: bool): (q: nat)
    requires i <= |s|
    ensures i <= q <= |s|
    decreases |s| - i
  {
    if i < |s| && PathChar(s[i]) && !(colonStops && s[i] == ':') then PathEnd(s, i + 1, colonStops) else i
  }

  /** The path run from `i` ends at `q` when `s[i..q]` is path characters
      and `s[q]` is not one. */
  lemma {:induction false} PathEndIs(s: string, i: nat, q: nat, colonStops: bool)
    requires i <= q < |s| && !PathChar(s[q])
    requires forall k :: i <= k < q ==> PathChar(s[k]) && (colonStops ==> s[k] != ':')
    ensures PathEnd(s, i, colonStops) == q
    decreases q - i
  {
    if i < q {
      PathEndIs(s, i + 1, q, colonStops);
    }
  }

  /** Every character of the run is a path character. */
  lemma {:induction false} PathEndChars(s: string, i: nat, colonStops: bool)
    requires i <= |s|
    ensures forall k :: i <= k < PathEnd(s, i, colonStops) ==> PathChar(s[k]) && (colonStops ==> s[k] != ':')
    decreases |s| - i
  {
    if i < |s| && PathChar(s[i]) && !(colonStops && s[i] == ':') {
      PathEndChars(s, i + 1, colonStops);
    }
  }

  /** `s[..q]` ends in one of the source-file extensions of the pattern,
      `.pas`, `.dpr` or `.inc`, all in lower case or all in upper case. */
  predicate SourceExtAt(s: string, q: nat)
    requires q <= |s|
  {
    q >= 4 && s[q - 4] == '.' &&
    var (a, b, c) := (s[q - 3], s[q - 2], s[q - 1]);
    (a == 'p' && b == 'a' && c == 's') || (a == 'd' && b == 'p' && c == 'r') || (a == 'i' && b == 'n' && c == 'c')
    || (a == 'P' && b == 'A' && c == 'S') || (a == 'D' && b == 'P' && c == 'R') || (a == 'I' && b == 'N' && c == 'C')
  }

  /** The reference whose path is `s[p..q]` — at least one character from
      `m` on, then an extension — followed by `(digits)`. */
  function ReferenceAt(s: string, p: nat, m: nat, q: nat): (r: Option<(string, nat)>)
    requires p <= m && p <= q <= |s|
    ensures r.Some? ==> r.value.0 == s[p..q]
  {
    if q >= m + 4 && SourceExtAt(s, q) && q < |s| && s[q] == '(' then
      var e := DigitsEnd(s, q + 1);
      if e > q + 1 && e < |s| && s[e] == ')' then
        DigitsEndIs(s, q + 1, e);
        Some((s[p..q], DecimalValue(s[q + 1..e])))
      else None
    else None
  }

  /** The match of the pattern at position `p`: first a drive letter, a
      colon and a path; else a path without a colon. */
  function DetailsAt(s: string, p: nat): Option<(string, nat)>
    requires p <= |s|
  {
    var drive := if p + 2 <= |s| && IsLetter(s[p]) && s[p + 1] == ':' then ReferenceAt(s, p, p + 3, PathEnd(s, p + 2, false)) else None;
    if drive.Some? then drive else ReferenceAt(s, p, p + 1, PathEnd(s, p, true))
  }

  /** The leftmost match at or after position `p`. */
  function DetailsFrom(s: string, p: nat): Option<(string, nat)>
    requires p <= |s|
    decreases |s| - p
  {
    if p == |s| then None
    else if DetailsAt(s, p).Some? then DetailsAt(s, p)
    else DetailsFrom(s, p + 1)
  }

  /** `parse_warning_details`: the file path and line number of the first
      `path.ext(digits)` reference in `text`, or `("", 0)` when it has none. */
  function ParseWarningDetails(text: string): (string, nat) {
    match DetailsFrom(text, 0)
    case Some(d) => d
    case None => ("", 0)
  }

  /** `text` holds, from position `i`, `path(ds)`: `path` ends in a source
      extension and holds no whitespace or parenthesis, `ds` is a non-empty
      digit string and `n` is its value. */
  predicate Referenced(text: string, i: nat, path: string, ds: string, n: nat) {
    var q := i + |path|;
    |path| >= 5 && SourceExtAt(path, |path|)
    && (forall k :: 0 <= k < |path| ==> PathChar(path[k]))
    && |ds| > 0 && (forall k :: 0 <= k < |ds| ==> IsDigit(ds[k])) && DecimalValue(ds) == n
    && q + |ds| + 1 < |text| && text[i..q] == path && text[q] == '('
    && text[q + 1..q + 1 + |ds|] == ds && text[q + 1 + |ds|] == ')'
  }

  /** A reference whose path holds only path characters is `Referenced`. */
  lemma ReferenceAtReferenced(s: string, p: nat, m: nat, q: nat)
    requires p < m && p <= q <= |s| && ReferenceAt(s, p, m, q).Some?
    requires forall k :: p <= k < q ==> PathChar(s[k])
    ensures Referenced(s, p, s[p..q], s[q + 1..DigitsEnd(s, q + 1)], ReferenceAt(s, p, m, q).value.1)
  {
    var path, e := s[p..q], DigitsEnd(s, q + 1);
    DigitsEndIs(s, q + 1, e);
    var ds := s[q + 1..e];
    assert ReferenceAt(s, p, m, q).value.1 == DecimalValue(ds);
    assert forall k :: 0 <= k < |path| ==> path[k] == s[p + k];
    assert forall k :: 0 <= k < |ds| ==> ds[k] == s[q + 1 + k];
    assert SourceExtAt(path, |path|);
    assert s[p + |path|] == '(' && s[p + |path| + 1 + |ds|] == ')';
  }

  /** A match at `p` is a reference there. */
  lemma DetailsAtReferenced(text: string, p: nat)
    requires p <= |text| && DetailsAt(text, p).Some?
    ensures exists ds :: Referenced(text, p, DetailsAt(text, p).value.0, ds, DetailsAt(text, p).value.1)
  {
    if p + 2 <= |text| && IsLetter(text[p]) && text[p + 1] == ':' && ReferenceAt(text, p, p + 3, PathEnd(text, p + 2, false)).Some? {
      PathEndChars(text, p + 2, false);
      ReferenceAtReferenced(text, p, p + 3, PathEnd(text, p + 2, false));
    } else {
      PathEndChars(text, p, true);
      ReferenceAtReferenced(text, p, p + 1, PathEnd(text, p, true));
    }
  }

  /** No reference starts in `[p, i)` when none starts at `p` and none in
      `[p + 1, i)`. */
  lemma NoneBefore(text: string, p: nat, i: nat)
    requires p <= i <= |text|
    requires p < i ==> DetailsAt(text, p).None? && forall j :: p + 1 <= j < i ==> DetailsAt(text, j).None?
    ensures forall j :: p <= j < i ==> DetailsAt(text, j).None?
  {
  }

  /** What the scan from `p` reports is the match at some position from
      `p` on, and no match starts earlier; when it reports none, no position
      from `p` on starts one. */
  lemma {:induction false} DetailsFound(text: string, p: nat)
    requires p <= |text|
    ensures var r := DetailsFrom(text, p);
      (r.Some? ==> exists i :: p <= i < |text| && (forall j :: p <= j < i ==> DetailsAt(text, j).None?)
                     && DetailsAt(text, i) == r)
      && (r.None? ==> forall j :: p <= j < |text| ==> DetailsAt(text, j).None?)
    decreases |text| - p
  {
    if p < |text| {
      var r := DetailsFrom(text, p);
      if DetailsAt(text, p).Some? {
        assert r == DetailsAt(text, p);
        FoundHere(text, p);
      } else {
        assert r == DetailsFrom(text, p + 1);
        DetailsFound(text, p + 1);
        if r.Some? {
          FoundLater(text, p, r);
        } else {
          NoneBefore(text, p, |text|);
        }
      }
    }
  }

  /** A match at `p` is the leftmost from `p`. */
  lemma FoundHere(text: string, p: nat)
    requires p < |text| && DetailsAt(text, p).Some?
    ensures exists i :: p <= i < |text| && (forall j :: p <= j < i ==> DetailsAt(text, j).None?)
                        && DetailsAt(text, i) == DetailsAt(text, p)
  {
    NoneBefore(text, p, p);
  }

  /** Without a match at `p`, the leftmost match from `p + 1` is the
      leftmost from `p`. */
  lemma FoundLater(text: string, p: nat, r: Option<(string, nat)>)
    requires p < |text| && DetailsAt(text, p).None?
    requires exists i :: p + 1 <= i < |text| && (forall j :: p + 1 <= j < i ==> DetailsAt(text, j).None?)
                         && DetailsAt(text, i) == r
    ensures exists i :: p <= i < |text| && (forall j :: p <= j < i ==> DetailsAt(text, j).None?)
                        && DetailsAt(text, i) == r
  {
    var i :| p + 1 <= i < |text| && (forall j :: p + 1 <= j < i ==> DetailsAt(text, j).None?)
             && DetailsAt(text, i) == r;
    NoneBefore(text, p, i);
  }

  /** A match of the pattern at position `i`: the reference `path(ds)`
      there, with a path the pattern accepts whole. */
  predicate MatchAt(text: string, i: nat, path: string, ds: string, n: nat) {
    Referenced(text, i, path, ds, n) && SourcePath(path)
  }

  /** No match of the pattern starts before position `i`. */
  ghost predicate NoMatchBefore(text: string, i: nat) {
    forall j, path, ds, n :: 0 <= j < i ==> !MatchAt(text, j, path, ds, n)
  }

  /** A match at `i` is what the scan finds at `i`. */
  lemma MatchAtDetails(text: string, i: nat, path: string, ds: string, n: nat)
    requires MatchAt(text, i, path, ds, n)
    ensures DetailsAt(text, i) == Some((path, n))
  {
    var q, e := i + |path|, i + |path| + 1 + |ds|;
    assert text[i..q] == path;
    forall k | q + 1 <= k < e ensures IsDigit(text[k]) {
      assert text[k] == ds[k - q - 1];
    }
    assert text[q + 1..e] == ds;
    ReferenceAtPos(text, i, q, e);
  }

  /** What the scan finds at `i` is a match there. */
  lemma DetailsAtMatch(text: string, i: nat)
    requires i <= |text| && DetailsAt(text, i).Some?
    ensures exists ds :: MatchAt(text, i, DetailsAt(text, i).value.0, ds, DetailsAt(text, i).value.1)
  {
    var r := DetailsAt(text, i).value;
    DetailsAtReferenced(text, i);
    var ds :| Referenced(text, i, r.0, ds, r.1);
    var path := r.0;
    if i + 2 <= |text| && IsLetter(text[i]) && text[i + 1] == ':' && ReferenceAt(text, i, i + 3, PathEnd(text, i + 2, false)).Some? {
      var q := PathEnd(text, i + 2, false);
      PathEndChars(text, i + 2, false);
      assert path == text[i..q];
      assert forall k :: 0 <= k < |path| ==> path[k] == text[i + k];
    } else {
      var q := PathEnd(text, i, true);
      PathEndChars(text, i, true);
      assert path == text[i..q];
      assert forall k :: 0 <= k < |path| ==> path[k] == text[i + k];
    }
    assert MatchAt(text, i, path, ds, r.1);
  }

  /** At most one match starts at a position: the path runs up to the
      first `(` and the digits up to the `)`. */
  lemma MatchAtUnique(text: string, i: nat, path: string, ds: string, n: nat, path': string, ds': string, n': nat)
    requires MatchAt(text, i, path, ds, n) && MatchAt(text, i, path', ds', n')
    ensures path == path' && ds == ds' && n == n'
  {
    MatchAtDetails(text, i, path, ds, n);
    MatchAtDetails(text, i, path', ds', n');
    var lo := i + |path| + 1;
    DigitsBeforeParen(text, lo, ds, ds');
  }

  /** Two digit strings that both start at `lo` and end at a `)` are equal. */
  lemma DigitsBeforeParen(text: string, lo: nat, ds: string, ds': string)
    requires lo + |ds| < |text| && text[lo..lo + |ds|] == ds && text[lo + |ds|] == ')'
    requires lo + |ds'| < |text| && text[lo..lo + |ds'|] == ds' && text[lo + |ds'|] == ')'
    requires forall k :: 0 <= k < |ds| ==> IsDigit(ds[k])
    requires forall k :: 0 <= k < |ds'| ==> IsDigit(ds'[k])
    ensures ds == ds'
  {
    assert !(|ds| < |ds'|) && !(|ds'| < |ds|);
  }

  /** Where the scan finds nothing, no match starts. */
  lemma NoneNoMatch(text: string, i: nat)
    requires i <= |text| && forall j :: 0 <= j < i ==> DetailsAt(text, j).None?
    ensures NoMatchBefore(text, i)
  {
    forall j, path, ds, n | 0 <= j < i
      ensures !MatchAt(text, j, path, ds, n)
    {
      if MatchAt(text, j, path, ds, n) {
        MatchAtDetails(text, j, path, ds, n);
      }
    }
  }

  /** `parse_warning_details` in full: either the reported path and line
      number are those of the leftmost match of the pattern in the text, or
      the text holds no match and the result is `("", 0)`. */
  lemma ParseWarningDetailsSpec(text: string)
    ensures var r := ParseWarningDetails(text);
      (exists i, ds :: 0 <= i < |text| && NoMatchBefore(text, i) && MatchAt(text, i, r.0, ds, r.1))
      || (r == ("", 0) && NoMatchBefore(text, |text|))
  {
    DetailsFound(text, 0);
    var d := DetailsFrom(text, 0);
    if d.Some? {
      var i :| 0 <= i < |text| && (forall j :: 0 <= j < i ==> DetailsAt(text, j).None?) && DetailsAt(text, i) == d;
      DetailsAtMatch(text, i);
      NoneNoMatch(text, i);
    } else {
      NoneNoMatch(text, |text|);
    }
  }

  /** A path the pattern accepts whole: a drive letter, a colon and path
      characters, or path characters without a colon; either way at least
      one character before a source extension. */
  predicate SourcePath(path: string) {
    |path| >= 5 && SourceExtAt(path, |path|)
    && ((|path| >= 7 && IsLetter(path[0]) && path[1] == ':' && forall k :: 2 <= k < |path| ==> PathChar(path[k]))
        || forall k :: 0 <= k < |path| ==> PathChar(path[k]) && path[k] != ':')
  }

  /** A source extension at `q`, then `(`, digits up to `e` and `)`: a reference. */
  lemma ReferenceIs(s: string, p: nat, m: nat, q: nat, e: nat)
    requires p <= m && m + 4 <= q && q + 1 < e < |s|
    requires SourceExtAt(s, q) && s[q] == '(' && s[e] == ')'
    requires forall k :: q + 1 <= k < e ==> IsDigit(s[k])
    ensures ReferenceAt(s, p, m, q) == Some((s[p..q], DecimalValue(s[q + 1..e])))
  {
    DigitsEndIs(s, q + 1, e);
  }

  /** Where the parts of `path(ds)tail` sit. */
  lemma ReferenceLayout(path: string, ds: string, tail: string)
    ensures var s, q, e := path + "(" + ds + ")" + tail, |path|, |path| + 1 + |ds|;
      e < |s| && s[..q] == path && s[q] == '(' && s[q + 1..e] == ds && s[e] == ')'
  {
  }

  /** The reference `path(n)` at the start of a line is what
      `parse_warning_details` reports, whatever follows it. */
  lemma DetailsOfReference(path: string, n: nat, tail: string)
    requires SourcePath(path)
    ensures ParseWarningDetails(path + "(" + NatToString(n) + ")" + tail) == (path, n)
  {
    DetailsOfDigits(path, NatToString(n), tail);
    NatToStringValue(n);
  }

  /** The reference `path(ds)` at the start of a line, for a non-empty
      digit string `ds`, is what `parse_warning_details` reports. */
  lemma DetailsOfDigits(path: string, ds: string, tail: string)
    requires SourcePath(path) && |ds| > 0 && forall k :: 0 <= k < |ds| ==> IsDigit(ds[k])
    ensures ParseWarningDetails(path + "(" + ds + ")" + tail) == (path, DecimalValue(ds))
  {
    ReferenceLayout(path, ds, tail);
    DetailsOfLayout(path + "(" + ds + ")" + tail, path, ds);
  }

  /** A text laid out as `path(ds)` and more reports `path` and the value
      of `ds`. */
  lemma DetailsOfLayout(s: string, path: string, ds: string)
    requires SourcePath(path) && |ds| > 0 && forall k :: 0 <= k < |ds| ==> IsDigit(ds[k])
    requires var q, e := |path|, |path| + 1 + |ds|;
      e < |s| && s[..q] == path && s[q] == '(' && s[q + 1..e] == ds && s[e] == ')'
    ensures ParseWarningDetails(s) == (path, DecimalValue(ds))
  {
    var q, e := |path|, |path| + 1 + |ds|;
    DigitsInSlice(s, q + 1, e);
    assert s[0..q] == path;
    assert SourcePath(s[0..q]);
    ReferenceAtPos(s, 0, q, e);
    DetailsAtFirst(s, (path, DecimalValue(ds)));
  }

  /** A digit string cut out of `s` is digits where it sits in `s`. */
  lemma DigitsInSlice(s: string, lo: nat, hi: nat)
    requires lo <= hi <= |s| && forall k :: 0 <= k < hi - lo ==> IsDigit(s[lo..hi][k])
    ensures forall k :: lo <= k < hi ==> IsDigit(s[k])
  {
    forall k | lo <= k < hi ensures IsDigit(s[k]) { assert s[k] == s[lo..hi][k - lo]; }
  }

  /** A reference at the start of the text is the one reported. */
  lemma DetailsAtFirst(s: string, r: (string, nat))
    requires 0 < |s| && DetailsAt(s, 0) == Some(r)
    ensures ParseWarningDetails(s) == r
  {
    assert DetailsFrom(s, 0) == DetailsAt(s, 0);
  }

  /** A text that holds `path(digits)` from `p` has that reference at `p`. */
  lemma ReferenceAtPos(s: string, p: nat, q: nat, e: nat)
    requires p <= q && q + 1 < e < |s| && SourcePath(s[p..q]) && s[q] == '(' && s[e] == ')'
    requires forall k :: q + 1 <= k < e ==> IsDigit(s[k])
    ensures DetailsAt(s, p) == Some((s[p..q], DecimalValue(s[q + 1..e])))
  {
    var path := s[p..q];
    assert forall k :: 0 <= k < q - p ==> s[p + k] == path[k];
    if IsLetter(path[0]) && path[1] == ':' {
      PathEndIs(s, p + 2, q, false);
      ReferenceIs(s, p, p + 3, q, e);
    } else {
      PathEndIs(s, p, q, true);
      ReferenceIs(s, p, p + 1, q, e);
    }
  }

  // ---------------------------------------------------------------------
  // normalize_warning: the anchored patterns

  /** `^\[(Hint|Warning)\]\s*`, ignoring case: a leading type tag and the
      whitespace after it. */
  function DropKindTag(s: string): string {
    if |s| >= 6 && s[0] == '[' && HintWordAt(s, 1) && s[5] == ']' then LStrip(s[6..])
    else if |s| >= 9 && s[0] == '[' && WarningWordAt(s, 1) && s[8] == ']' then LStrip(s[9..])
    else s
  }

  /** A type tag `[hint]` or `[warning]`, in any ASCII case, and the
      whitespace after it are removed; what follows stays. */
  lemma KindTagDropped(w: string, sp: string, rest: string)
    requires Lower(w) == "hint" || Lower(w) == "warning"
    requires AllSpace(sp) && (rest == [] || !IsSpace(rest[0]))
    ensures DropKindTag("[" + w + "]" + sp + rest) == rest
  {
    var s := "[" + w + "]" + sp + rest;
    var t := |w| + 2;
    assert forall k :: 0 <= k < |w| ==> s[k + 1] == w[k] && LowerChar(w[k]) == Lower(w)[k];
    assert s[|w| + 1] == ']';
    if Lower(w) == "hint" {
      assert HintWordAt(s, 1) && s[5] == ']';
      assert DropKindTag(s) == LStrip(s[t..]);
    } else {
      assert LowerChar(s[1]) == 'w';
      assert WarningWordAt(s, 1) && s[8] == ']';
      assert DropKindTag(s) == LStrip(s[t..]);
    }
    assert s[t..] == sp + rest;
    LStripSpaces(sp, rest);
  }

  /** `s` starts with a timestamp `[hh:mm:ss]` (two digits each). */
  predicate StampAt(s: string) {
    |s| >= 10 && s[0] == '[' && IsDigit(s[1]) && IsDigit(s[2]) && s[3] == ':'
    && IsDigit(s[4]) && IsDigit(s[5]) && s[6] == ':' && IsDigit(s[7]) && IsDigit(s[8]) && s[9] == ']'
  }

  /** The default timestamp pattern `^\[\d{2}:\d{2}:\d{2}\]`. */
  function DropTimestamp(s: string): string {
    if StampAt(s) then s[10..] else s
  }

  /** The timestamp step changes the text exactly when it starts with a
      timestamp, and then it removes exactly the ten characters of that
      timestamp. */
  lemma TimestampDropped(s: string)
    ensures DropTimestamp(s) != s <==> StampAt(s)
    ensures StampAt(s) ==> s == s[..10] + DropTimestamp(s)
  {
    if StampAt(s) {
      assert |DropTimestamp(s)| < |s|;
    }
  }

  /** `^\s*[A-Za-z ]?\s*:\s+`: a one-letter flag (or none) and a colon
      followed by whitespace, at the start. */
  function DropFlag(s: string): string {
    var t := LStrip(s);
    if |t| >= 2 && t[0] == ':' && IsSpace(t[1]) then LStrip(t[1..])
    else if |t| >= 1 && IsLetter(t[0]) then
      var u := LStrip(t[1..]);
      if |u| >= 2 && u[0] == ':' && IsSpace(u[1]) then LStrip(u[1..]) else s
    else s
  }

  /** `^\s*\[([^\]]+)\]\s*`: a leading bracketed prefix such as `[<dcc>]`. */
  function DropBracketPrefix(s: string): string {
    var t := LStrip(s);
    if |t| > 0 && t[0] == '[' then
      var j := FindFrom(t, ']', 1);
      if 2 <= j < |t| then LStrip(t[j + 1..]) else s
    else s
  }

  /** The flag step keeps a drive letter: a letter and a colon followed by
      something other than whitespace stay. */
  lemma DriveLetterKept(s: string)
    requires |s| >= 3 && IsLetter(s[0]) && s[1] == ':' && !IsSpace(s[2])
    ensures DropFlag(s) == s
  {
    assert LStrip(s) == s;
    assert LStrip(s[1..]) == s[1..];
  }

  /** The flag step removes a one-letter flag, its colon and the whitespace
      after it. */
  lemma FlagDropped(c: char, rest: string)
    requires IsLetter(c) && (rest == [] || !IsSpace(rest[0]))
    ensures DropFlag([c] + ": " + rest) == rest
  {
    var s := [c] + ": " + rest;
    assert LStrip(s) == s;
    assert s[1..] == ": " + rest;
    assert LStrip(s[1..]) == s[1..];
    assert s[1..][1..] == " " + rest;
    assert (" " + rest)[1..] == rest;
    assert LStrip(rest) == rest;
  }

  // ---------------------------------------------------------------------
  // normalize_warning: the patterns replaced wherever they occur

  /** The fixed start of the default path-prefix pattern. */
  const BuildAreaRoot: string := "N:\\BuildArea\\"

  /** End of a match of the default path-prefix pattern
      `N:\\BuildArea\\[^\\]+\\` at position `i`. */
  function BuildAreaAt(s: string, i: nat): (e: Option<nat>)
    requires i <= |s|
    ensures e.Some? ==> i < e.value <= |s|
  {
    if i + |BuildAreaRoot| <= |s| && s[i..i + |BuildAreaRoot|] == BuildAreaRoot then
      var j := FindFrom(s, '\\', i + |BuildAreaRoot|);
      if i + |BuildAreaRoot| < j < |s| then Some(j + 1) else None
    else None
  }

  /** `re.sub` of the default path-prefix pattern with "", from position `i`. */
  function DropBuildAreaFrom(s: string, i: nat): string
    requires i <= |s|
    decreases |s| - i
  {
    if i == |s| then []
    else match BuildAreaAt(s, i)
      case Some(e) => DropBuildAreaFrom(s, e)
      case None => [s[i]] + DropBuildAreaFrom(s, i + 1)
  }

  /** `re.sub(pattern, "", text)` for the two default ignore patterns; any
      other pattern leaves the text as it is. */
  function DefaultPatternsSub(pattern: string, text: string): string {
    if pattern == DefaultTimestampPattern then DropTimestamp(text)
    else if pattern == DefaultPathPrefixPattern then DropBuildAreaFrom(text, 0)
    else text
  }

  /** A build-area root and a directory name are dropped. */
  lemma BuildAreaDropped(s: string, i: nat, j: nat)
    requires i + |BuildAreaRoot| < j < |s| && s[i..i + |BuildAreaRoot|] == BuildAreaRoot && s[j] == '\\'
    requires forall k :: i + |BuildAreaRoot| <= k < j ==> s[k] != '\\'
    ensures DropBuildAreaFrom(s, i) == DropBuildAreaFrom(s, j + 1)
  {
    assert BuildAreaAt(s, i) == Some(j + 1);
  }

  /** A match of the default path-prefix pattern at `i`, on characters:
      the build-area root, then a directory name with no backslash up to
      the backslash at `j`. */
  predicate BuildAreaMatch(s: string, i: nat, j: nat) {
    i + |BuildAreaRoot| < j < |s| && s[i..i + |BuildAreaRoot|] == BuildAreaRoot && s[j] == '\\'
    && forall k :: i + |BuildAreaRoot| <= k < j ==> s[k] != '\\'
  }

  /** What the scan takes for a match is one. */
  lemma BuildAreaAtShape(s: string, i: nat)
    requires i <= |s|
    ensures BuildAreaAt(s, i).Some? ==> BuildAreaMatch(s, i, BuildAreaAt(s, i).value - 1)
  {
  }

  /** Where no match starts, the character stays and the scan moves on. */
  lemma BuildAreaKept(s: string, i: nat)
    requires i < |s| && forall j :: !BuildAreaMatch(s, i, j)
    ensures DropBuildAreaFrom(s, i) == [s[i]] + DropBuildAreaFrom(s, i + 1)
  {
    BuildAreaAtShape(s, i);
  }

  /** Text without an upper-case `N` holds no build-area root and stays. */
  lemma {:induction false} NoBuildAreaKept(s: string, i: nat)
    requires i <= |s| && 'N' !in s[i..]
    ensures DropBuildAreaFrom(s, i) == s[i..]
    decreases |s| - i
  {
    if i < |s| {
      if i + |BuildAreaRoot| <= |s| {
        assert s[i..i + |BuildAreaRoot|][0] != BuildAreaRoot[0];
      }
      NoBuildAreaKept(s, i + 1);
      assert s[i..] == [s[i]] + s[i + 1..];
    }
  }

  /** The characters `[\\./]` that make a token a path. */
  predicate IsPathSeparator(c: char) {
    c == '\\' || c == '.' || c == '/'
  }

  /** A match of `([^\s()]*[\\./][^\s()]+)\(\d+\)` at position `i`: the end
      `q` of its path and the position `e` of its closing parenthesis. */
  function LineNumberAt(s: string, i: nat): (m: Option<(nat, nat)>)
    requires i <= |s|
    ensures m.Some? ==> i <= m.value.0 < m.value.1 < |s|
  {
    var q := PathEnd(s, i, false);
    if q < |s| && s[q] == '(' && (exists k :: i <= k && k + 1 < q && IsPathSeparator(s[k])) then
      var e := DigitsEnd(s, q + 1);
      if e > q + 1 && e < |s| && s[e] == ')' then Some((q, e)) else None
    else None
  }

  /** One step of the scan at `i`: what it keeps and where the next step
      starts. A match keeps its path and drops `(digits)`; otherwise one
      character is kept. */
  function LineNumberStep(s: string, i: nat): (step: (string, nat))
    requires i < |s|
    ensures i < step.1 <= |s|
  {
    match LineNumberAt(s, i)
    case Some((q, e)) => (s[i..q], e + 1)
    case None => ([s[i]], i + 1)
  }

  /** `re.sub` of that pattern with `\1`, from position `i`. */
  function StripLineNumbersFrom(s: string, i: nat): string
    requires i <= |s|
    decreases |s| - i
  {
    if i == |s| then []
    else
      var step := LineNumberStep(s, i);
      step.0 + StripLineNumbersFrom(s, step.1)
  }

  /** A `(digits)` right after a token holding a path separator is dropped:
      the token stays and the scan goes on after the `)`. */
  lemma LineNumberDropped(s: string, i: nat, q: nat, e: nat)
    requires i <= q && q + 1 < e < |s| && s[q] == '(' && s[e] == ')'
    requires forall k :: i <= k < q ==> PathChar(s[k])
    requires exists k :: i <= k && k + 1 < q && IsPathSeparator(s[k])
    requires forall k :: q + 1 <= k < e ==> IsDigit(s[k])
    ensures StripLineNumbersFrom(s, i) == s[i..q] + StripLineNumbersFrom(s, e + 1)
  {
    PathEndIs(s, i, q, false);
    DigitsEndIs(s, q + 1, e);
    assert LineNumberStep(s, i) == (s[i..q], e + 1);
  }

  /** A match of the line-number pattern at `i`, on characters: path
      characters up to the `(` at `q`, one of them a separator with a path
      character after it, then digits up to the `)` at `e`. */
  predicate LineNumberMatch(s: string, i: nat, q: nat, e: nat) {
    i <= q && q + 1 < e < |s| && s[q] == '(' && s[e] == ')'
    && (forall k :: i <= k < q ==> PathChar(s[k]))
    && (exists k :: i <= k && k + 1 < q && IsPathSeparator(s[k]))
    && (forall k :: q + 1 <= k < e ==> IsDigit(s[k]))
  }

  /** What the scan takes for a match is one. */
  lemma LineNumberAtShape(s: string, i: nat)
    requires i <= |s|
    ensures var m := LineNumberAt(s, i);
      m.Some? ==> LineNumberMatch(s, i, m.value.0, m.value.1)
  {
    var m := LineNumberAt(s, i);
    if m.Some? {
      var (q, e) := m.value;
      PathEndChars(s, i, false);
      DigitsEndIs(s, q + 1, e);
    }
  }

  /** Where no match starts, the character stays and the scan moves on. */
  lemma LineNumberKept(s: string, i: nat)
    requires i < |s| && forall q, e :: !LineNumberMatch(s, i, q, e)
    ensures StripLineNumbersFrom(s, i) == [s[i]] + StripLineNumbersFrom(s, i + 1)
  {
    LineNumberAtShape(s, i);
  }

  /** Text without `(` has no line numbers and stays. */
  lemma {:induction false} NoParenKept(s: string, i: nat)
    requires i <= |s| && '(' !in s[i..]
    ensures StripLineNumbersFrom(s, i) == s[i..]
    decreases |s| - i
  {
    if i < |s| {
      assert LineNumberAt(s, i).None? by {
        var q := PathEnd(s, i, false);
        assert q < |s| ==> s[q] != '(';
      }
      NoParenKept(s, i + 1);
      assert s[i..] == [s[i]] + s[i + 1..];
    }
  }

  /** `s[..b]` ends in one of the extensions `.pas`, `.dpr`, `.inc`, `.txt`,
      in any case. */
  predicate FileExtAt(s: string, b: nat)
    requires b <= |s|
  {
    b >= 4 && s[b - 4] == '.' &&
    var (x, y, z) := (LowerChar(s[b - 3]), LowerChar(s[b - 2]), LowerChar(s[b - 1]));
    (x == 'p' && y == 'a' && z == 's') || (x == 'd' && y == 'p' && z == 'r')
    || (x == 'i' && y == 'n' && z == 'c') || (x == 't' && y == 'x' && z == 't')
  }

  /** `s[c..]` starts with the word `hint`, ignoring case. */
  predicate HintWordAt(s: string, c: nat) {
    c + 4 <= |s| && LowerChar(s[c]) == 'h' && LowerChar(s[c + 1]) == 'i' && LowerChar(s[c + 2]) == 'n'
    && LowerChar(s[c + 3]) == 't'
  }

  /** `s[c..]` starts with the word `warning`, ignoring case. */
  predicate WarningWordAt(s: string, c: nat) {
    c + 7 <= |s| && LowerChar(s[c]) == 'w' && LowerChar(s[c + 1]) == 'a' && LowerChar(s[c + 2]) == 'r'
    && LowerChar(s[c + 3]) == 'n' && LowerChar(s[c + 4]) == 'i' && LowerChar(s[c + 5]) == 'n'
    && LowerChar(s[c + 6]) == 'g'
  }

  /** `s[c..]` starts with `hint:`, ignoring case. */
  predicate HintAt(s: string, c: nat) {
    HintWordAt(s, c) && c + 5 <= |s| && s[c + 4] == ':'
  }

  /** `s[c..]` starts with `warning:`, ignoring case. */
  predicate WarningAt(s: string, c: nat) {
    WarningWordAt(s, c) && c + 8 <= |s| && s[c + 7] == ':'
  }

  /** Length of the type word and colon at `c`, 0 when there is none. */
  function KindWordLength(s: string, c: nat): nat {
    if HintAt(s, c) then 5 else if WarningAt(s, c) then 8 else 0
  }

  /** A match of `\s*\S+\.(pas|dpr|inc|txt)\s+(Hint|Warning):`, ignoring
      case, at position `i`: where the type word starts and where the match
      ends. */
  function KindAfterFileAt(s: string, i: nat): (m: Option<(nat, nat)>)
    requires i <= |s|
    ensures m.Some? ==> i < m.value.0 < m.value.1 <= |s|
  {
    var a := SpacesEnd(s, i);
    var b := WordEnd(s, a);
    if b >= a + 5 && FileExtAt(s, b) then
      var c := SpacesEnd(s, b);
      var n := KindWordLength(s, c);
      if c > b && n > 0 then Some((c, c + n)) else None
    else None
  }

  /** One step of that scan at `i`: a match is replaced by its type word and
      colon; otherwise one character is kept. */
  function KindAfterFileStep(s: string, i: nat): (step: (string, nat))
    requires i < |s|
    ensures i < step.1 <= |s|
  {
    match KindAfterFileAt(s, i)
    case Some((c, e)) => (s[c..e], e)
    case None => ([s[i]], i + 1)
  }

  /** `re.sub` of that pattern with `\2:`, from position `i`. */
  function DropFileBeforeKindFrom(s: string, i: nat): string
    requires i <= |s|
    decreases |s| - i
  {
    if i == |s| then []
    else
      var step := KindAfterFileStep(s, i);
      step.0 + DropFileBeforeKindFrom(s, step.1)
  }

  /** A match of `\s*\S+\.(pas|dpr|inc|txt)\s+(Hint|Warning):`, ignoring
      case, at `i`, on characters: whitespace up to `a`, a word of at least
      five characters up to `b` ending in an extension, whitespace up to
      `c`, then the type word and its colon. */
  predicate FileKindMatch(s: string, i: nat, a: nat, b: nat, c: nat) {
    i <= a && a + 5 <= b < c <= |s| && FileExtAt(s, b) && (HintAt(s, c) || WarningAt(s, c))
    && (forall k :: i <= k < a ==> IsSpace(s[k]))
    && (forall k :: a <= k < b ==> !IsSpace(s[k]))
    && (forall k :: b <= k < c ==> IsSpace(s[k]))
  }

  /** What the scan takes for a match is one, and it ends after the type
      word and its colon. */
  lemma KindAfterFileAtShape(s: string, i: nat)
    requires i <= |s|
    ensures var m := KindAfterFileAt(s, i);
      m.Some? ==> (m.value.1 == m.value.0 + KindWordLength(s, m.value.0)
                   && FileKindMatch(s, i, SpacesEnd(s, i), WordEnd(s, SpacesEnd(s, i)), m.value.0))
  {
    var a := SpacesEnd(s, i);
    var b := WordEnd(s, a);
    SpacesEndIs(s, i, a);
    WordEndIs(s, a, b);
    if b <= |s| {
      SpacesEndIs(s, b, SpacesEnd(s, b));
    }
  }

  /** Where no match starts, the character stays and the scan moves on. */
  lemma FileKindKept(s: string, i: nat)
    requires i < |s| && forall a, b, c :: !FileKindMatch(s, i, a, b, c)
    ensures DropFileBeforeKindFrom(s, i) == [s[i]] + DropFileBeforeKindFrom(s, i + 1)
  {
    KindAfterFileAtShape(s, i);
  }

  /** A match that starts with whitespace at `i` takes that whitespace too:
      the file name and the whitespace on both sides of it are replaced by
      the type word and its colon, which then follow the text before `i`
      directly. */
  lemma SpacedFileBeforeKindDropped(s: string, i: nat, a: nat, b: nat, c: nat)
    requires FileKindMatch(s, i, a, b, c)
    ensures var n := KindWordLength(s, c);
      0 < n && c + n <= |s| && DropFileBeforeKindFrom(s, i) == s[c..c + n] + DropFileBeforeKindFrom(s, c + n)
  {
    assert SpacesEnd(s, i) == a by { SpacesEndIs(s, i, a); }
    assert WordEnd(s, a) == b by { WordEndIs(s, a, b); }
    assert SpacesEnd(s, b) == c by { SpacesEndIs(s, b, c); }
    DroppedAtMatch(s, i, c, c + KindWordLength(s, c));
  }

  /** A file name with a source or text extension, whitespace, and then
      `hint:` or `warning:` in any case: the file name and the whitespace go
      and the type word and its colon (5 or 8 characters) stay, as written. */
  lemma FileBeforeKindDropped(s: string, i: nat, b: nat, c: nat)
    requires i + 5 <= b < c <= |s| && FileExtAt(s, b) && (HintAt(s, c) || WarningAt(s, c))
    requires forall k :: i <= k < b ==> !IsSpace(s[k])
    requires forall k :: b <= k < c ==> IsSpace(s[k])
    ensures var n := KindWordLength(s, c);
      0 < n && c + n <= |s| && DropFileBeforeKindFrom(s, i) == s[c..c + n] + DropFileBeforeKindFrom(s, c + n)
  {
    KindAfterFileMatch(s, i, b, c);
    DroppedAtMatch(s, i, c, c + KindWordLength(s, c));
  }

  /** A match at `i` ending at `e` is replaced by its part from `c`. */
  lemma DroppedAtMatch(s: string, i: nat, c: nat, e: nat)
    requires i < c < e <= |s| && KindAfterFileAt(s, i) == Some((c, e))
    ensures DropFileBeforeKindFrom(s, i) == s[c..e] + DropFileBeforeKindFrom(s, e)
  {
    assert KindAfterFileStep(s, i) == (s[c..e], e);
  }

  /** The scan's match at `i` in the situation of `FileBeforeKindDropped`. */
  lemma KindAfterFileMatch(s: string, i: nat, b: nat, c: nat)
    requires i + 5 <= b < c <= |s| && FileExtAt(s, b) && (HintAt(s, c) || WarningAt(s, c))
    requires forall k :: i <= k < b ==> !IsSpace(s[k])
    requires forall k :: b <= k < c ==> IsSpace(s[k])
    ensures KindAfterFileAt(s, i) == Some((c, c + KindWordLength(s, c)))
  {
    assert SpacesEnd(s, i) == i by { SpacesEndIs(s, i, i); }
    assert WordEnd(s, i) == b by { WordEndIs(s, i, b); }
    assert SpacesEnd(s, b) == c by { SpacesEndIs(s, b, c); }
  }

  /** Text without `:` names no type word and stays. */
  lemma {:induction false} NoColonKept(s: string, i: nat)
    requires i <= |s| && ':' !in s[i..]
    ensures DropFileBeforeKindFrom(s, i) == s[i..]
    decreases |s| - i
  {
    if i < |s| {
      assert KindAfterFileAt(s, i).None?;
      NoColonKept(s, i + 1);
      assert s[i..] == [s[i]] + s[i + 1..];
    }
  }

  // ---------------------------------------------------------------------
  // normalize_warning

  /** The anchored patterns in the order `normalize_warning` applies them,
      with the two configured ignore patterns in between. */
  function DropPrefixes(text: string, config: Config, sub: (string, string) -> string): string {
    var tagged := DropKindTag(Strip(text));
    var timed := match Lookup(config.ignorePatterns, "timestamp")
      case Some(p) => sub(p, tagged)
      case None => tagged;
    var bare := DropBracketPrefix(DropFlag(timed));
    match Lookup(config.ignorePatterns, "path_prefix")
    case Some(p) => sub(p, bare)
    case None => bare
  }

  /** The substitutions that apply anywhere in the line, then the spacing:
      line numbers after paths and file names before a type word go, runs
      of whitespace become one space and the ends are stripped. */
  function Reduce(rooted: string): (r: string)
    ensures SingleSpaced(r)
  {
    var reduced := DropFileBeforeKindFrom(StripLineNumbersFrom(rooted, 0), 0);
    CollapseThenStrip(reduced);
    Strip(CollapseSpaces(reduced))
  }

  /** `normalize_warning`: the comparison key of a diagnostic line. `sub`
      is `re.sub(pattern, "", text)` for the configured ignore patterns.
      The key is single-spaced and, when case is ignored, lower case. */
  function NormalizeWarning(text: string, config: Config, sub: (string, string) -> string): (r: string)
    ensures SingleSpaced(r)
    ensures config.ignoreCase ==> Lower(r) == r
  {
    var spaced := Reduce(DropPrefixes(text, config, sub));
    if config.ignoreCase then
      LowerKeepsSpacing(spaced);
      LowerIdempotent(spaced);
      Lower(spaced)
    else spaced
  }

  /** Under the default configuration the prefixes go in this order: type
      tag, timestamp, flag, bracketed prefix, build-area roots. */
  lemma DefaultPrefixes(text: string)
    ensures DropPrefixes(text, DefaultConfig(), DefaultPatternsSub)
            == DropBuildAreaFrom(DropBracketPrefix(DropFlag(DropTimestamp(DropKindTag(Strip(text))))), 0)
  {
    var patterns := DefaultConfig().ignorePatterns;
    assert Lookup(patterns, "timestamp") == Some(DefaultTimestampPattern);
    assert "path_prefix"[0] != "timestamp"[0];
    assert Lookup(patterns[1..], "path_prefix") == Some(DefaultPathPrefixPattern);
    assert Lookup(patterns, "path_prefix") == Some(DefaultPathPrefixPattern);
    assert DefaultPathPrefixPattern[0] != DefaultTimestampPattern[0];
  }

  /** A line that starts with `[` and a character other than a letter
      carries no type tag. */
  lemma NoKindTagKept(s: string)
    requires |s| >= 2 && s[0] == '[' && !IsLetter(s[1])
    ensures DropKindTag(s) == s
  {
    LowerCharLetter(s[1]);
  }

  /** A flag that is a bare colon between spaces, ` : `, goes. */
  lemma ColonFlagDropped(s: string)
    requires |s| >= 3 && s[0] == ' ' && s[1] == ':' && s[2] == ' ' && (|s| == 3 || !IsSpace(s[3]))
    ensures DropFlag(s) == s[3..]
  {
    assert LStrip(s) == LStrip(s[1..]) == s[1..];
    assert s[1..][1..] == s[2..];
    assert LStrip(s[2..]) == LStrip(s[3..]) == s[3..];
  }

  /** A bracketed prefix `[...]` closed at `j`, and the space after it, go. */
  lemma BracketDropped(s: string, j: nat)
    requires 2 <= j && j + 1 < |s| && s[0] == '[' && s[j] == ']' && s[j + 1] == ' '
    requires forall k :: 1 <= k < j ==> s[k] != ']'
    requires j + 2 == |s| || !IsSpace(s[j + 2])
    ensures DropBracketPrefix(s) == s[j + 2..]
  {
    assert LStrip(s) == s;
    assert FindFrom(s, ']', 1) == j;
    assert LStrip(s[j + 1..]) == LStrip(s[j + 2..]) == s[j + 2..];
  }

  /** Text that is single-spaced and holds no `(`, `:` or `N`: nothing in it
      is a build-area root, a line number or a type word. */
  predicate PlainText(s: string) {
    SingleSpaced(s) && '(' !in s && ':' !in s && 'N' !in s
  }

  /** Text without `:` that starts with something other than whitespace
      carries no flag. */
  lemma NoColonNoFlag(s: string)
    requires ':' !in s && (s == [] || !IsSpace(s[0]))
    ensures DropFlag(s) == s
  {
    assert LStrip(s) == s;
    if |s| > 0 {
      var u := LStrip(s[1..]);
      LStripSuffix(s[1..]);
      if |u| > 0 {
        assert u[0] == s[|s| - |u|];
      }
    }
  }

  /** Under the default configuration, plain text that does not start with
      `[` is its own key: no step of `normalize_warning` changes it. */
  lemma PlainNormalized(text: string)
    requires PlainText(text) && (text == [] || text[0] != '[')
    ensures NormalizeWarning(text, DefaultConfig(), DefaultPatternsSub) == text
  {
    if |text| > 0 {
      StripKept(text);
    }
    DefaultPrefixes(text);
    NoColonNoFlag(text);
    assert LStrip(text) == text;
    PlainReduced(text);
  }

  /** Plain text passes the substitutions and the spacing unchanged. */
  lemma PlainReduced(s: string)
    requires PlainText(s)
    ensures DropBuildAreaFrom(s, 0) == s
    ensures Reduce(s) == s
  {
    NoBuildAreaKept(s, 0);
    NoParenKept(s, 0);
    NoColonKept(s, 0);
    SingleSpacedFixed(s);
  }

  // ---------------------------------------------------------------------
  // extract_warnings

  /** Position of the first pattern, in configuration order, that occurs in `line`. */
  function FirstPattern(patterns: seq<WarningPattern>, line: string): (i: Option<nat>)
    ensures i.Some? ==> i.value < |patterns| && Contains(line, patterns[i.value].pattern)
                        && forall j :: 0 <= j < i.value ==> !Contains(line, patterns[j].pattern)
    ensures i.None? ==> forall j :: 0 <= j < |patterns| ==> !Contains(line, patterns[j].pattern)
  {
    if |patterns| == 0 then None
    else if Contains(line, patterns[0].pattern) then Some(0)
    else
      match FirstPattern(patterns[1..], line)
      case Some(i) =>
        assert forall j :: 1 <= j <= i ==> patterns[j] == patterns[1..][j - 1];
        Some(i + 1)
      case None =>
        assert forall j :: 1 <= j < |patterns| ==> patterns[j] == patterns[1..][j - 1];
        None
  }

  /** The first pattern the line contains is the one at `j` when none
      before it matches. */
  lemma FirstPatternIs(patterns: seq<WarningPattern>, line: string, j: nat)
    requires j < |patterns| && Contains(line, patterns[j].pattern)
    requires forall m :: 0 <= m < j ==> !Contains(line, patterns[m].pattern)
    ensures FirstPattern(patterns, line) == Some(j)
  {
  }

  /** The record a line of stage `stage` yields: one for the first pattern
      the line holds, none if it holds none. */
  function LineWarning(line: string, stage: string, config: Config, sub: (string, string) -> string): Option<Warning> {
    match FirstPattern(config.warningPatterns, line)
    case None => None
    case Some(i) =>
      var details := ParseWarningDetails(line);
      Some(Warning(NormalizeWarning(line, config, sub), Strip(line), config.warningPatterns[i].kind, stage, details.0, details.1))
  }

  /** The values `f` gives for the elements of `xs`, in order, skipping the
      elements it gives none for. */
  function FilterMap<X, Y>(xs: seq<X>, f: X -> Option<Y>): (ys: seq<Y>)
    ensures |ys| <= |xs|
  {
    if |xs| == 0 then []
    else
      FilterMap(xs[..|xs| - 1], f)
      + match f(xs[|xs| - 1])
        case Some(y) => [y]
        case None => []
  }

  /** Every value kept is the value of some element. */
  lemma {:induction false} FilterMapSound<X, Y>(xs: seq<X>, f: X -> Option<Y>)
    ensures forall y :: y in FilterMap(xs, f) ==> exists k :: 0 <= k < |xs| && f(xs[k]) == Some(y)
    decreases |xs|
  {
    if |xs| > 0 {
      var prev := xs[..|xs| - 1];
      FilterMapSound(prev, f);
      forall y | y in FilterMap(xs, f)
        ensures exists k :: 0 <= k < |xs| && f(xs[k]) == Some(y)
      {
        if y in FilterMap(prev, f) {
          var k :| 0 <= k < |prev| && f(prev[k]) == Some(y);
          assert prev[k] == xs[k];
        } else {
          assert f(xs[|xs| - 1]) == Some(y);
        }
      }
    }
  }

  /** The value of every element that has one is kept. */
  lemma {:induction false} FilterMapComplete<X, Y>(xs: seq<X>, f: X -> Option<Y>)
    ensures forall k :: 0 <= k < |xs| && f(xs[k]).Some? ==> f(xs[k]).value in FilterMap(xs, f)
    decreases |xs|
  {
    if |xs| > 0 {
      var prev := xs[..|xs| - 1];
      FilterMapComplete(prev, f);
      assert forall k :: 0 <= k < |prev| ==> prev[k] == xs[k];
    }
  }

  /** The records of the lines of one stage, in order of the lines. */
  function OwnWarnings(lines: seq<string>, stage: string, config: Config, sub: (string, string) -> string): seq<Warning> {
    FilterMap(lines, line => LineWarning(line, stage, config, sub))
  }

  /** A forest walked in pre-order: each stage's `own` list, then its
      sub-stages', then the next stage's. */
  function Walk<W>(steps: seq<BuildStep>, own: BuildStep -> seq<W>): seq<W>
    decreases steps
  {
    if |steps| == 0 then [] else own(steps[0]) + Walk(steps[0].children, own) + Walk(steps[1..], own)
  }

  /** The records a stage yields from its own lines. */
  function OwnOf(config: Config, sub: (string, string) -> string): BuildStep -> seq<Warning> {
    (step: BuildStep) => OwnWarnings(step.lines, step.name, config, sub)
  }

  /** The records of a forest of stages: each stage's own records, then
      those of its sub-stages, then the next stage's. */
  function ForestWarnings(steps: seq<BuildStep>, config: Config, sub: (string, string) -> string): seq<Warning> {
    Walk(steps, OwnOf(config, sub))
  }

  /** `extract_warnings`: the records of a stage and of all its sub-stages. */
  function ExtractWarnings(step: BuildStep, config: Config, sub: (string, string) -> string): seq<Warning> {
    OwnWarnings(step.lines, step.name, config, sub) + ForestWarnings(step.children, config, sub)
  }

  /** The record of a line, when there is one, is typed by the first pattern
      the line holds and carries the stage, the stripped line, its key and
      its file reference. */
  ghost predicate RecordOf(w: Warning, line: string, stage: string, config: Config, sub: (string, string) -> string) {
    exists i :: FirstPattern(config.warningPatterns, line) == Some(i)
      && w == Warning(NormalizeWarning(line, config, sub), Strip(line), config.warningPatterns[i].kind,
                      stage, ParseWarningDetails(line).0, ParseWarningDetails(line).1)
  }

  /** Walking a forest is walking its first part, then the rest. */
  lemma {:induction false} WalkAppend<W>(a: seq<BuildStep>, b: seq<BuildStep>, own: BuildStep -> seq<W>)
    ensures Walk(a + b, own) == Walk(a, own) + Walk(b, own)
    decreases |a|
  {
    if |a| > 0 {
      assert (a + b)[0] == a[0];
      assert (a + b)[1..] == a[1..] + b;
      WalkAppend(a[1..], b, own);
    } else {
      assert a + b == b;
    }
  }

  /** The records of the first `c + 1` stages of a forest: those of the
      first `c`, then those of stage `c` and its sub-stages. */
  lemma ForestWarningsPrefix(steps: seq<BuildStep>, c: nat, config: Config, sub: (string, string) -> string)
    requires c < |steps|
    ensures ForestWarnings(steps[..c + 1], config, sub)
            == ForestWarnings(steps[..c], config, sub) + ExtractWarnings(steps[c], config, sub)
  {
    WalkPrefix(steps, c, OwnOf(config, sub));
  }

  lemma WalkPrefix<W>(steps: seq<BuildStep>, c: nat, own: BuildStep -> seq<W>)
    requires c < |steps|
    ensures Walk(steps[..c + 1], own) == Walk(steps[..c], own) + (own(steps[c]) + Walk(steps[c].children, own))
  {
    WalkAppend(steps[..c], [steps[c]], own);
    assert steps[..c + 1] == steps[..c] + [steps[c]];
    assert [steps[c]][1..] == [];
  }

  /** The inner loop of `extract_warnings`: the patterns are tried in order
      and the first one the line holds makes its record. */
  method FindRecord(line: string, stage: string, config: Config, sub: (string, string) -> string) returns (r: Option<Warning>)
    ensures r == LineWarning(line, stage, config, sub)
  {
    var patterns := config.warningPatterns;
    r := None;
    var j := 0;
    while j < |patterns|
      invariant 0 <= j <= |patterns|
      invariant forall m :: 0 <= m < j ==> !Contains(line, patterns[m].pattern)
    {
      if Contains(line, patterns[j].pattern) {
        var details := ParseWarningDetails(line);
        r := Some(Warning(NormalizeWarning(line, config, sub), Strip(line), patterns[j].kind, stage, details.0, details.1));
        FirstPatternIs(patterns, line, j);
        return;
      }
      j := j + 1;
    }
  }

  /** The first loop of `extract_warnings`: the stage's lines in order,
      each appending its record, if any, to the list. */
  method CollectOwnWarnings(lines: seq<string>, stage: string, config: Config, sub: (string, string) -> string)
    returns (ws: seq<Warning>)
    ensures ws == OwnWarnings(lines, stage, config, sub)
  {
    ghost var f := line => LineWarning(line, stage, config, sub);
    ws := [];
    var i := 0;
    while i < |lines|
      invariant 0 <= i <= |lines|
      invariant ws == FilterMap(lines[..i], f)
    {
      var r := FindRecord(lines[i], stage, config, sub);
      assert lines[..i + 1][..i] == lines[..i];
      if r.Some? {
        ws := ws + [r.value];
      }
      i := i + 1;
    }
    assert lines[..i] == lines;
  }

  /** `extract_warnings` as the source runs it: the stage's own records,
      then each sub-stage's in turn, appended to the same list. */
  method CollectWarnings(step: BuildStep, config: Config, sub: (string, string) -> string) returns (ws: seq<Warning>)
    ensures ws == ExtractWarnings(step, config, sub)
    decreases step, 1
  {
    var own := CollectOwnWarnings(step.lines, step.name, config, sub);
    var rest := CollectForest(step.children, config, sub);
    ws := own + rest;
  }

  /** The second loop of `extract_warnings`: the records of each stage of
      a forest, with its sub-stages, one stage after another. */
  method CollectForest(steps: seq<BuildStep>, config: Config, sub: (string, string) -> string) returns (ws: seq<Warning>)
    ensures ws == ForestWarnings(steps, config, sub)
    decreases steps, 0
  {
    ws := [];
    var c := 0;
    while c < |steps|
      invariant 0 <= c <= |steps|
      invariant ws == ForestWarnings(steps[..c], config, sub)
    {
      var childWarnings := CollectWarnings(steps[c], config, sub);
      ForestWarningsPrefix(steps, c, config, sub);
      ws := ws + childWarnings;
      c := c + 1;
    }
    assert steps[..c] == steps;
  }

  /** A line yields a record exactly when it holds a pattern, and that
      record is the line's. */
  lemma LineWarningSpec(line: string, stage: string, config: Config, sub: (string, string) -> string)
    ensures LineWarning(line, stage, config, sub).Some? <==> FirstPattern(config.warningPatterns, line).Some?
    ensures LineWarning(line, stage, config, sub).Some? ==>
      RecordOf(LineWarning(line, stage, config, sub).value, line, stage, config, sub)
  {
  }

  /** A stage's records: each is the record of one of its lines, and every
      line that holds a pattern has its record among them. */
  lemma OwnWarningsSpec(lines: seq<string>, stage: string, config: Config, sub: (string, string) -> string)
    ensures forall w :: w in OwnWarnings(lines, stage, config, sub) ==>
      exists k :: 0 <= k < |lines| && RecordOf(w, lines[k], stage, config, sub)
    ensures forall k :: 0 <= k < |lines| && FirstPattern(config.warningPatterns, lines[k]).Some? ==>
      LineWarning(lines[k], stage, config, sub).value in OwnWarnings(lines, stage, config, sub)
  {
    var f := line => LineWarning(line, stage, config, sub);
    FilterMapSound(lines, f);
    FilterMapComplete(lines, f);
    forall line | line in lines {
      LineWarningSpec(line, stage, config, sub);
    }
  }

  /** Every record a stage yields names that stage. */
  lemma OwnWarningsStage(lines: seq<string>, stage: string, config: Config, sub: (string, string) -> string)
    ensures forall w :: w in OwnWarnings(lines, stage, config, sub) ==> w.stage == stage
  {
    OwnWarningsSpec(lines, stage, config, sub);
  }

  /** The stages of a forest in pre-order: each stage, then its sub-stages,
      then the next stage. */
  function PreOrder(steps: seq<BuildStep>): seq<BuildStep>
    decreases steps
  {
    if |steps| == 0 then [] else [steps[0]] + PreOrder(steps[0].children) + PreOrder(steps[1..])
  }

  /** The `own` lists of each of `stages`, one stage after another. */
  function ConcatEach<W>(stages: seq<BuildStep>, own: BuildStep -> seq<W>): seq<W> {
    if |stages| == 0 then [] else own(stages[0]) + ConcatEach(stages[1..], own)
  }

  /** The own records of each of `stages`, one stage after another. */
  function EachOwn(stages: seq<BuildStep>, config: Config, sub: (string, string) -> string): seq<Warning> {
    ConcatEach(stages, OwnOf(config, sub))
  }

  lemma {:induction false} ConcatEachAppend<W>(a: seq<BuildStep>, b: seq<BuildStep>, own: BuildStep -> seq<W>)
    ensures ConcatEach(a + b, own) == ConcatEach(a, own) + ConcatEach(b, own)
  {
    if |a| > 0 {
      assert (a + b)[1..] == a[1..] + b;
      ConcatEachAppend(a[1..], b, own);
    } else {
      assert a + b == b;
    }
  }

  /** A pre-order walk lists the `own` lists of the stages in pre-order. */
  lemma {:induction false} WalkPreOrder<W>(steps: seq<BuildStep>, own: BuildStep -> seq<W>)
    ensures Walk(steps, own) == ConcatEach(PreOrder(steps), own)
    decreases steps
  {
    if |steps| > 0 {
      var s := steps[0];
      WalkPreOrder(s.children, own);
      WalkPreOrder(steps[1..], own);
      ConcatEachAppend([s] + PreOrder(s.children), PreOrder(steps[1..]), own);
      ConcatEachAppend([s], PreOrder(s.children), own);
      assert ([s] + PreOrder(s.children))[1..] == PreOrder(s.children);
    }
  }

  /** Records come in pre-order: a forest's records are the own records of
      its stages listed in pre-order. */
  lemma ForestWarningsPreOrder(steps: seq<BuildStep>, config: Config, sub: (string, string) -> string)
    ensures ForestWarnings(steps, config, sub) == EachOwn(PreOrder(steps), config, sub)
  {
    WalkPreOrder(steps, OwnOf(config, sub));
  }

  /** `extract_warnings` lists the stage's own records first, then those of
      its sub-stages in pre-order. */
  lemma ExtractWarningsPreOrder(step: BuildStep, config: Config, sub: (string, string) -> string)
    ensures ExtractWarnings(step, config, sub) == EachOwn(PreOrder([step]), config, sub)
  {
    var own := OwnOf(config, sub);
    WalkPreOrder([step], own);
    assert [step][1..] == [];
  }
}

=== FILE: extractor_examples.dfy ===
/**
  Worked examples of `parse_warning_details`, and of `normalize_warning`
  under the default configuration. Each stage of the normalization is taken in its own lemma, on a string
  fixed by the lemma's precondition, so that every proof stays local to one
  step. Long lines are written as a concatenation of short parts.
*/
module ExtractorExamples {
  import opened Strings
  import opened Configuration
  import opened Extractor

  // ---------------------------------------------------------------------
  // The documented examples of parse_warning_details

  /** Both example paths are accepted whole by the reference pattern. */
  lemma ExamplePaths(path: string)
    requires path == "N:\\Path\\" + "file.pas" || path == "file.pas"
    ensures SourcePath(path)
  {
    forall k | 0 <= k < |path| ensures PathChar(path[k]) {
      VisibleNotSpace(path[k]);
    }
  }

  /** The decimal forms of the two example line numbers. */
  lemma ExampleNumbers()
    ensures NatToString(123) == "123" && NatToString(456) == "456"
  {
  }

  /** The reference written part by part is the reference written whole. */
  lemma ReferenceRegrouped(path: string, ds: string, tail: string)
    ensures path + "(" + ds + ")" + tail == path + ("(" + ds + ")") + tail
  {
  }

  /** A path on a drive. */
  lemma ParseWarningDetailsDriveExample()
    ensures ParseWarningDetails("N:\\Path\\" + "file.pas" + "(123)" + " Warning: test") == ("N:\\Path\\" + "file.pas", 123)
  {
    var path := "N:\\Path\\" + "file.pas";
    ExamplePaths(path);
    ExampleNumbers();
    DetailsOfReference(path, 123, " Warning: test");
    ReferenceRegrouped(path, "123", " Warning: test");
    assert "(" + "123" + ")" == "(123)";
  }

  /** A bare file name. */
  lemma ParseWarningDetailsFileExample()
    ensures ParseWarningDetails("file.pas" + "(456)" + " Hint: test") == ("file.pas", 456)
  {
    var path := "file.pas";
    ExamplePaths(path);
    ExampleNumbers();
    DetailsOfReference(path, 456, " Hint: test");
    ReferenceRegrouped(path, "456", " Hint: test");
    assert "(" + "456" + ")" == "(456)";
  }

  // ---------------------------------------------------------------------
  // The documented example "[14:13:30] : [<dcc>] file.pas(123) Warning: test"

  /** The timestamp goes; there is no type tag and nothing to strip. */
  lemma DocStampDropped(s: string)
    requires s == "[14:13:30]" + " : " + "[<dcc>] " + "file.pas(123)" + " Warning: test"
    ensures DropTimestamp(DropKindTag(Strip(s))) == " : " + "[<dcc>] " + "file.pas(123)" + " Warning: test"
  {
    StripKept(s);
    NoKindTagKept(s);
    assert s[10..] == " : " + "[<dcc>] " + "file.pas(123)" + " Warning: test";
  }

  /** The colon flag goes. */
  lemma DocFlagDropped(s: string)
    requires s == " : " + "[<dcc>] " + "file.pas(123)" + " Warning: test"
    ensures DropFlag(s) == "[<dcc>] " + "file.pas(123)" + " Warning: test"
  {
    ColonFlagDropped(s);
    assert s[3..] == "[<dcc>] " + "file.pas(123)" + " Warning: test";
  }

  /** The stage marker goes. */
  lemma DocMarkerDropped(s: string)
    requires s == "[<dcc>] " + "file.pas(123)" + " Warning: test"
    ensures DropBracketPrefix(s) == "file.pas(123)" + " Warning: test"
  {
    BracketDropped(s, 6);
    assert s[8..] == "file.pas(123)" + " Warning: test";
  }

  /** There is no build-area path to remove. */
  lemma DocNoBuildArea(s: string)
    requires s == "file.pas(123)" + " Warning: test"
    ensures DropBuildAreaFrom(s, 0) == s
  {
    NoBuildAreaKept(s, 0);
  }

  /** "file.pas(123)" loses its line number. */
  lemma DocLineNumberHead(s: string)
    requires s == "file.pas(123)" + " Warning: test"
    ensures StripLineNumbersFrom(s, 0) == s[0..8] + StripLineNumbersFrom(s, 13)
  {
    assert forall k :: 0 <= k < 8 ==> PathChar(s[k]);
    assert IsPathSeparator(s[4]);
    assert forall k :: 9 <= k < 12 ==> IsDigit(s[k]);
    LineNumberDropped(s, 0, 8, 12);
  }

  /** No other parenthesis follows, so only that line number goes. */
  lemma DocLineNumberDropped(s: string)
    requires s == "file.pas(123)" + " Warning: test"
    ensures StripLineNumbersFrom(s, 0) == "file.pas" + " Warning: test"
  {
    DocLineNumberHead(s);
    assert s[13..] == " Warning: test";
    NoParenKept(s, 13);
    assert s[0..8] == "file.pas";
  }

  /** "file.pas" is a source file name: five characters or more, no
      space, a known extension. */
  lemma DocFileName(s: string)
    requires s == "file.pas" + " Warning: test"
    ensures FileExtAt(s, 8) && forall k :: 0 <= k < 8 ==> !IsSpace(s[k])
  {
  }

  /** "Warning:" follows it after one space. */
  lemma DocKindWord(s: string)
    requires s == "file.pas" + " Warning: test"
    ensures WarningAt(s, 9) && !HintAt(s, 9) && IsSpace(s[8])
  {
  }

  /** "file.pas" before "Warning:" is a file name and goes with its space. */
  lemma DocFileNameHead(s: string)
    requires s == "file.pas" + " Warning: test"
    ensures DropFileBeforeKindFrom(s, 0) == s[9..17] + DropFileBeforeKindFrom(s, 17)
  {
    DocFileName(s);
    DocKindWord(s);
    // The positions are bound by name, not written as literals, so that the
    // verifier does not try to evaluate the scan at them.
    var i: nat, b: nat, c: nat :| i == 0 && b == 8 && c == 9;
    FileBeforeKindDropped(s, i, b, c);
  }

  /** Only colon after it is the one of "Warning:". */
  lemma DocNoColonAfter(s: string)
    requires s == "file.pas" + " Warning: test"
    ensures DropFileBeforeKindFrom(s, 17) == " test"
  {
    assert s[17..] == " test";
    NoColonKept(s, 17);
  }

  /** No other colon follows, so only that file name goes. */
  lemma DocFileNameDropped(s: string)
    requires s == "file.pas" + " Warning: test"
    ensures DropFileBeforeKindFrom(s, 0) == "Warning: test"
  {
    DocFileNameHead(s);
    DocNoColonAfter(s);
    assert s[9..17] == "Warning:";
  }

  /** The result is already single-spaced. */
  lemma DocSpacing(s: string)
    requires s == "Warning: test"
    ensures Strip(CollapseSpaces(s)) == s
  {
    SingleSpacedFixed(s);
  }

  /** The example of `normalize_warning`'s documentation: the timestamp, the
      colon flag, the stage marker, the line number and the file name all
      go, and only "Warning: test" is left (the documentation says
      "file.pas Warning: test"; the code also drops the file name). */
  lemma NormalizeDocExample()
    ensures NormalizeWarning("[14:13:30]" + " : " + "[<dcc>] " + "file.pas(123)" + " Warning: test",
                             DefaultConfig(), DefaultPatternsSub) == "Warning: test"
  {
    var line := "[14:13:30]" + " : " + "[<dcc>] " + "file.pas(123)" + " Warning: test";
    var s1 := " : " + "[<dcc>] " + "file.pas(123)" + " Warning: test";
    var s2 := "[<dcc>] " + "file.pas(123)" + " Warning: test";
    var s3 := "file.pas(123)" + " Warning: test";
    var s4 := "file.pas" + " Warning: test";
    var r := "Warning: test";
    DocSpacing(r);
    DefaultPrefixes(line);
    DocStampDropped(line);
    DocFlagDropped(s1);
    DocMarkerDropped(s2);
    DocNoBuildArea(s3);
    DocLineNumberDropped(s3);
    DocFileNameDropped(s4);
  }

  // ---------------------------------------------------------------------
  // The type tag and the file name before the type word

  /** The example of the type-tag step in `normalize_warning`'s comments:
      `[Hint] [14:14:17] ...` loses its tag and keeps its timestamp. */
  lemma KindTagDocExample()
    ensures DropKindTag("[Hint] " + "[14:14:17] x") == "[14:14:17] x"
  {
    assert Lower("Hint") == "hint";
    assert "[" + "Hint" + "]" + " " + "[14:14:17] x" == "[Hint] " + "[14:14:17] x";
    KindTagDropped("Hint", " ", "[14:14:17] x");
  }

  /** The character before a whitespace-led match is not part of one. */
  lemma GluedHead(s: string)
    requires s == "x file.pas Hint: y"
    ensures DropFileBeforeKindFrom(s, 0) == "x" + DropFileBeforeKindFrom(s, 1)
  {
    assert WordEnd(s, 0) == 1 by { WordEndIs(s, 0, 1); }
    assert SpacesEnd(s, 0) == 0;
  }

  /** The match at the space before the file name. */
  lemma GluedMatch(s: string)
    requires s == "x file.pas Hint: y"
    ensures DropFileBeforeKindFrom(s, 1) == "Hint:" + DropFileBeforeKindFrom(s, 16)
  {
    GluedFileKind(s);
    SpacedFileBeforeKindDropped(s, 1, 2, 10, 11);
    assert HintAt(s, 11);
    assert s[11..16] == "Hint:";
  }

  /** The space, the file name, the space and `Hint:` form a match. */
  lemma GluedFileKind(s: string)
    requires s == "x file.pas Hint: y"
    ensures FileKindMatch(s, 1, 2, 10, 11)
  {
    assert FileExtAt(s, 10);
    assert HintAt(s, 11);
    assert s[1] == ' ' && s[10] == ' ';
    assert s[2] == 'f' && s[3] == 'i' && s[4] == 'l' && s[5] == 'e';
    assert s[6] == '.' && s[7] == 'p' && s[8] == 'a' && s[9] == 's';
  }

  /** After the type word's colon no type word follows. */
  lemma GluedTail(s: string)
    requires s == "x file.pas Hint: y"
    ensures DropFileBeforeKindFrom(s, 16) == " y"
  {
    assert s[16..] == " y";
    NoColonKept(s, 16);
  }

  /** A match may start with the whitespace before the file name; that
      whitespace goes too, so the type word follows the text before it
      directly: `x file.pas Hint: y` becomes `xHint: y`. */
  lemma FileKindGlued(s: string)
    requires s == "x file.pas Hint: y"
    ensures DropFileBeforeKindFrom(s, 0) == "xHint: y"
  {
    GluedHead(s);
    GluedMatch(s);
    GluedTail(s);
    assert "x" + ("Hint:" + " y") == "xHint: y";
  }

  // ---------------------------------------------------------------------
  // Normalization is not idempotent

  /** Neither line has a type tag, a timestamp or a flag. */
  lemma UntouchedPrefix(s: string)
    requires s == "[<a>] " + "[<b>] c" || s == "[<b>] c"
    ensures DropFlag(DropTimestamp(DropKindTag(Strip(s)))) == s
  {
    StripKept(s);
    NoKindTagKept(s);
    assert LStrip(s) == s;
  }

  /** Only the first bracketed prefix goes. */
  lemma OneBracketDropped(s: string)
    requires s == "[<a>] " + "[<b>] c" || s == "[<b>] c"
    ensures DropBracketPrefix(s) == s[6..]
  {
    assert s[1] != ']' && s[2] != ']' && s[3] != ']';
    assert !IsSpace(s[6]);
    BracketDropped(s, 4);
  }

  /** What is left has no path, no line number, no file name and single spaces. */
  lemma PlainKept(s: string)
    requires s == "[<b>] c" || s == "c"
    ensures DropBuildAreaFrom(s, 0) == s
    ensures Reduce(s) == s
  {
    PlainReduced(s);
  }

  /** The prefixes of either line come down to its first bracketed prefix. */
  lemma BracketPrefixes(s: string)
    requires s == "[<a>] " + "[<b>] c" || s == "[<b>] c"
    ensures DropPrefixes(s, DefaultConfig(), DefaultPatternsSub) == s[6..]
  {
    DefaultPrefixes(s);
    UntouchedPrefix(s);
    OneBracketDropped(s);
    assert s[6..] == "[<b>] c" || s[6..] == "c";
    PlainKept(s[6..]);
  }

  /** Normalizing a key again can change it: each pass drops one bracketed
      prefix only, so "[<a>] [<b>] c" becomes "[<b>] c" and then "c". */
  lemma NormalizeNotIdempotent()
    ensures NormalizeWarning("[<a>] [<b>] c", DefaultConfig(), DefaultPatternsSub) == "[<b>] c"
    ensures NormalizeWarning("[<b>] c", DefaultConfig(), DefaultPatternsSub) == "c"
  {
    var s0, s1, s2 := "[<a>] [<b>] c", "[<b>] c", "c";
    BracketPrefixes(s0);
    assert s0[6..] == s1;
    BracketPrefixes(s1);
    assert s1[6..] == s2;
    PlainKept(s1);
    PlainKept(s2);
  }
}

=== FILE: parser.dfy ===
/**
  The stage tree of a build log. Each line of the log may open a stage: a
  configured target step, or an angle-bracket marker such as `<build>:` or a
  project `<App.dpr>:`. Its depth is the indentation after the timestamp and
  flag. Stages nest by depth, and every other non-blank line belongs to the
  innermost stage open at that point.
*/
module Parser {
  import opened Wrappers
  import opened Strings
  import opened Configuration

  /** One stage of the build: its name, depth, the 1-based numbers of its
      first and last line, its own lines (header first) and its sub-stages. */
  datatype BuildStep = BuildStep(
    name: string,
    level: nat,
    startLine: nat,
    endLine: nat,
    lines: seq<string>,
    children: seq<BuildStep>)

  // ---------------------------------------------------------------------
  // Indentation

  /** The characters `calculate_indentation` counts. */
  predicate IsIndent(c: char) {
    c == ' ' || c == '\t'
  }

  /** Length of the run of spaces and tabs that starts `line`. */
  function IndentRun(line: string): (n: nat)
    ensures n <= |line| && (forall i :: 0 <= i < n ==> IsIndent(line[i]))
    ensures n < |line| ==> !IsIndent(line[n])
  {
    if |line| > 0 && IsIndent(line[0]) then 1 + IndentRun(line[1..]) else 0
  }

  /** `calculate_indentation`: the depth of a line is one per leading space
      plus four per leading tab, counted up to the first other character. */
  function Indentation(line: string): (indent: nat)
    ensures var run := multiset(line[..IndentRun(line)]);
      indent == run[' '] + 4 * run['\t']
  {
    if |line| > 0 && IsIndent(line[0]) then
      assert line[..IndentRun(line)] == [line[0]] + line[1..][..IndentRun(line[1..])];
      (if line[0] == ' ' then 1 else 4) + Indentation(line[1..])
    else 0
  }

  /** Indentation adds up across a prefix made of spaces and tabs. */
  lemma {:induction false} IndentationAppend(u: string, v: string)
    requires forall i :: 0 <= i < |u| ==> IsIndent(u[i])
    ensures Indentation(u + v) == Indentation(u) + Indentation(v)
  {
    if |u| > 0 {
      assert (u + v)[1..] == u[1..] + v;
      IndentationAppend(u[1..], v);
    } else {
      assert u + v == v;
    }
  }

  /** A line with no leading space or tab has depth 0. */
  lemma IndentationNoIndentExample()
    ensures Indentation("no indent") == 0
  {
  }

  /** Two leading spaces make depth 2. */
  lemma IndentationSpacesExample()
    ensures Indentation("  two spaces") == 2
  {
    var t := "  two spaces";
    assert t[2..] == "two spaces";
    assert Indentation(t[2..]) == 0;
    assert t[1..] == " two spaces" && t[1..][1..] == t[2..];
    assert Indentation(t[1..]) == 1;
  }

  /** Two leading tabs make depth 8. */
  lemma IndentationTabsExample()
    ensures Indentation("\t\tone tab") == 8
  {
    var s := "\t\tone tab";
    assert s[2..] == "one tab";
    assert Indentation(s[2..]) == 0;
    assert s[1..] == "\tone tab" && s[1..][1..] == s[2..];
    assert Indentation(s[1..]) == 4;
  }

  /** Two spaces, a tab and two spaces make depth 8 (the source's
      documentation gives 6 for this line; the code counts 8). */
  lemma IndentationMixedExample()
    ensures Indentation("  \t  mixed") == 8
  {
    var s := "  \t  mixed";
    assert s[5..] == "mixed";
    assert Indentation(s[5..]) == 0;
    assert s[4..] == " mixed" && s[4..][1..] == s[5..];
    assert Indentation(s[4..]) == 1;
    assert s[3..] == "  mixed" && s[3..][1..] == s[4..];
    assert Indentation(s[3..]) == 2;
    assert s[2..] == "\t  mixed" && s[2..][1..] == s[3..];
    assert Indentation(s[2..]) == 6;
    assert s[1..] == " \t  mixed" && s[1..][1..] == s[2..];
    assert Indentation(s[1..]) == 7;
  }

  // ---------------------------------------------------------------------
  // Recognising a stage-opening line

  /** The line, once stripped, starts with `[` and holds a `]` somewhere:
      the shape of a line that begins with a timestamp. */
  predicate HasTimestamp(line: string) {
    FirstNonSpaceIs(line, '[') && FindFrom(line, ']', 0) < |line|
  }

  /** The first non-whitespace character of `s` is `c`. */
  predicate FirstNonSpaceIs(s: string, c: char)
    decreases |s|
  {
    |s| > 0 && if IsSpace(s[0]) then FirstNonSpaceIs(s[1..], c) else s[0] == c
  }

  /** `s.strip().startswith(c)` only looks at the first non-whitespace character. */
  lemma {:induction false} FirstNonSpaceIsStrip(s: string, c: char)
    ensures FirstNonSpaceIs(s, c) <==> StartsWith(Strip(s), [c])
    decreases |s|
  {
    if |s| > 0 && IsSpace(s[0]) {
      FirstNonSpaceIsStrip(s[1..], c);
    } else if |s| > 0 {
      var r := RStrip(s);
      RStripSpec(s);
      assert r != [] && r[0] == s[0];
    }
  }

  /** Where the text the indentation is measured on starts: after the first
      `:` that follows the first `]`, or right after that `]` when no `:`
      follows it; at the start of a line without a timestamp. */
  function IndentStart(line: string): (p: nat)
    ensures p <= |line|
    ensures !HasTimestamp(line) ==> p == 0
    ensures HasTimestamp(line) ==>
      var b := FindFrom(line, ']', 0);
      (b + 1 < p && line[p - 1] == ':' && forall i :: b < i < p - 1 ==> line[i] != ':')
      || (p == b + 1 && forall i :: b < i < |line| ==> line[i] != ':')
  {
    if HasTimestamp(line) then
      var b := FindFrom(line, ']', 0);
      var c := FindFrom(line, ':', b + 1);
      if c < |line| then c + 1 else b + 1
    else 0
  }

  /** The text the indentation is measured on. */
  function AfterTimestamp(line: string): string {
    line[IndentStart(line)..]
  }

  /** The text after a leading `[...]` prefix, if there is one, left-stripped. */
  function SkipBracketPrefix(content: string): string {
    if |content| > 0 && content[0] == '[' && FindFrom(content, ']', 0) < |content| then
      LStrip(content[FindFrom(content, ']', 0) + 1..])
    else content
  }

  /** A leading `[...]` goes, up to the first `]`, together with the
      whitespace after it. */
  lemma BracketPrefixSkipped(b: string, sp: string, rest: string)
    requires ']' !in b && AllSpace(sp) && (rest == [] || !IsSpace(rest[0]))
    ensures SkipBracketPrefix("[" + b + "]" + sp + rest) == rest
  {
    var c := "[" + b + "]" + sp + rest;
    assert c[|b| + 1] == ']';
    assert forall j :: 0 <= j < |b| + 1 ==> c[j] != ']' by {
      forall j | 0 < j < |b| + 1 ensures c[j] != ']' { assert c[j] == b[j - 1]; }
    }
    assert FindFrom(c, ']', 0) == |b| + 1;
    assert c[|b| + 2..] == sp + rest;
    LStripSpaces(sp, rest);
  }

  /** Text that does not start with `[`, or holds no `]`, is kept whole. */
  lemma NoBracketPrefixKept(content: string)
    requires content == [] || content[0] != '[' || ']' !in content
    ensures SkipBracketPrefix(content) == content
  {
    if |content| > 0 && content[0] == '[' {
      assert FindFrom(content, ']', 0) == |content|;
    }
  }

  /** The part of a line that markers are looked for in. */
  function StepContent(line: string): string {
    SkipBracketPrefix(LStrip(AfterTimestamp(line)))
  }

  /** The index of the first target step whose pattern occurs in `line`. */
  function FirstTarget(targets: seq<TargetStep>, line: string): (r: Option<nat>)
    ensures r.Some? ==>
      r.value < |targets| && Contains(line, targets[r.value].pattern)
      && forall j :: 0 <= j < r.value ==> !Contains(line, targets[j].pattern)
    ensures r.None? <==> forall j :: 0 <= j < |targets| ==> !Contains(line, targets[j].pattern)
  {
    if |targets| == 0 then None
    else if Contains(line, targets[0].pattern) then Some(0)
    else
      var r := FirstTarget(targets[1..], line);
      assert forall j :: 0 < j < |targets| ==> targets[j] == targets[1..][j - 1];
      if r.Some? then Some(r.value + 1) else None
  }

  /** `<w>:` starts `s`, with `w` non-empty and free of `>`: a match of the
      pattern `<([^>]+)>:` at the start of `s`, whose group is `w`. */
  predicate IsMarkerToken(s: string, w: string) {
    |w| > 0 && '>' !in w && StartsWith(s, "<" + w + ">:")
  }

  /** The group of a match of `<([^>]+)>:` at the start of `s`, if any;
      there is at most one. */
  function MarkerAt(s: string): (g: Option<string>)
    ensures g.Some? ==> IsMarkerToken(s, g.value)
    ensures forall w :: IsMarkerToken(s, w) ==> g == Some(w)
  {
    if |s| > 0 && s[0] == '<' then
      var j := FindFrom(s, '>', 1);
      if 1 < j && j + 1 < |s| && s[j + 1] == ':' then
        var w := s[1..j];
        assert s[..j + 2] == [s[0]] + w + [s[j], s[j + 1]];
        assert "<" + w + ">:" == ['<'] + w + ['>', ':'];
        MarkerTokenShape(s);
        Some(w)
      else
        MarkerTokenShape(s);
        None
    else
      MarkerTokenShape(s);
      None
  }

  /** A marker token at the start of `s` ends at the first `>` after the `<`,
      and a `:` follows it. */
  lemma MarkerTokenShape(s: string)
    ensures forall w :: IsMarkerToken(s, w) ==>
      |s| > 0 && s[0] == '<' && FindFrom(s, '>', 1) == |w| + 1
      && |w| + 2 < |s| && s[|w| + 2] == ':' && w == s[1..|w| + 1]
  {
    forall w | IsMarkerToken(s, w)
      ensures |s| > 0 && s[0] == '<' && FindFrom(s, '>', 1) == |w| + 1
        && |w| + 2 < |s| && s[|w| + 2] == ':' && w == s[1..|w| + 1]
    {
      MarkerTokenOf(s, w);
    }
  }

  /** The shape of one marker token `<w>:` at the start of `s`. */
  lemma MarkerTokenOf(s: string, w: string)
    requires IsMarkerToken(s, w)
    ensures |w| + 2 < |s| && s[0] == '<' && s[1..|w| + 1] == w && s[|w| + 1] == '>' && s[|w| + 2] == ':'
    ensures FindFrom(s, '>', 1) == |w| + 1
  {
    var t := "<" + w + ">:";
    assert s[..|t|] == t;
    assert s[1..|w| + 1] == t[1..|w| + 1] == w;
    assert s[|w| + 1] == t[|w| + 1];
    assert s[|w| + 2] == t[|w| + 2];
    assert forall j :: 1 <= j <= |w| ==> s[j] == w[j - 1];
  }

  /** `re.findall(r"<([^>]+)>:", s)`: the groups of the successive
      non-overlapping matches, from left to right. */
  function MarkerGroups(s: string): (gs: seq<string>)
    ensures forall k :: 0 <= k < |gs| ==> |gs[k]| > 0 && '>' !in gs[k]
  {
    MarkerGroupsFrom(s, 0)
  }

  /** The scan of `re.findall` from position `i` on: a match there is taken
      and the scan resumes after it, otherwise it moves one character on. */
  function MarkerGroupsFrom(s: string, i: nat): (gs: seq<string>)
    requires i <= |s|
    ensures forall k :: 0 <= k < |gs| ==> |gs[k]| > 0 && '>' !in gs[k]
    decreases |s| - i
  {
    if i == |s| then []
    else match MarkerAt(s[i..])
      case Some(g) => [g] + MarkerGroupsFrom(s, i + |g| + 3)
      case None => MarkerGroupsFrom(s, i + 1)
  }

  /** Position `i` lies inside the span of one of the matches at `ps`. */
  predicate Covered(ps: seq<nat>, gs: seq<string>, i: int)
    requires |ps| == |gs|
  {
    exists k :: 0 <= k < |ps| && ps[k] <= i < ps[k] + |gs[k]| + 3
  }

  /** `gs` are the groups of the matches of `<([^>]+)>:` that start at the
      positions `ps`, all at or after `lo`, in increasing order and without
      overlap, and every position at or after `lo` where a match starts lies
      inside one of them: the first match is taken, then the first that
      starts after it ends, and so on. */
  predicate MarkerScan(s: string, lo: nat, ps: seq<nat>, gs: seq<string>) {
    |ps| == |gs| && MatchesAt(s, lo, ps, gs) && Spaced(ps, gs) && AllCovered(s, lo, ps, gs)
  }

  /** A match with group `gs[k]` starts at each position `ps[k]`, at or after `lo`. */
  predicate MatchesAt(s: string, lo: nat, ps: seq<nat>, gs: seq<string>)
    requires |ps| == |gs|
  {
    forall k :: 0 <= k < |ps| ==> lo <= ps[k] < |s| && MarkerAt(s[ps[k]..]) == Some(gs[k])
  }

  /** Each match starts after the previous one ends. */
  predicate Spaced(ps: seq<nat>, gs: seq<string>)
    requires |ps| == |gs|
  {
    forall k :: 0 < k < |ps| ==> ps[k - 1] + |gs[k - 1]| + 3 <= ps[k]
  }

  /** Every match position at or after `lo` lies inside a listed match. */
  predicate AllCovered(s: string, lo: nat, ps: seq<nat>, gs: seq<string>)
    requires |ps| == |gs|
  {
    forall i :: lo <= i < |s| && MarkerAt(s[i..]).Some? ==> Covered(ps, gs, i)
  }

  /** The scan from `i` finds the matches from `i` on, leftmost first. */
  lemma {:induction false} MarkerGroupsFromScan(s: string, i: nat)
    requires i <= |s|
    ensures exists ps :: MarkerScan(s, i, ps, MarkerGroupsFrom(s, i))
    decreases |s| - i
  {
    if i == |s| {
      assert MarkerScan(s, i, [], MarkerGroupsFrom(s, i));
    } else {
      match MarkerAt(s[i..])
      case Some(g) =>
        var next := i + |g| + 3;
        MarkerGroupsFromScan(s, next);
        var ps :| MarkerScan(s, next, ps, MarkerGroupsFrom(s, next));
        MarkerScanTake(s, i, g, ps, MarkerGroupsFrom(s, next));
        assert MarkerGroupsFrom(s, i) == [g] + MarkerGroupsFrom(s, next);
        assert MarkerScan(s, i, [i] + ps, MarkerGroupsFrom(s, i));
      case None =>
        MarkerGroupsFromScan(s, i + 1);
        var ps :| MarkerScan(s, i + 1, ps, MarkerGroupsFrom(s, i + 1));
        MarkerScanSkip(s, i, ps, MarkerGroupsFrom(s, i + 1));
        assert MarkerGroupsFrom(s, i) == MarkerGroupsFrom(s, i + 1);
        assert MarkerScan(s, i, ps, MarkerGroupsFrom(s, i));
    }
  }

  /** A match at `i` is taken, and the scan of what follows it is kept. */
  lemma MarkerScanTake(s: string, i: nat, g: string, ps: seq<nat>, gs: seq<string>)
    requires i < |s| && MarkerAt(s[i..]) == Some(g)
    requires MarkerScan(s, i + |g| + 3, ps, gs)
    ensures MarkerScan(s, i, [i] + ps, [g] + gs)
  {
    TakeMatches(s, i, g, ps, gs);
    TakeSpaced(s, i, g, ps, gs);
    TakeCovered(s, i, g, ps, gs);
  }

  lemma TakeMatches(s: string, i: nat, g: string, ps: seq<nat>, gs: seq<string>)
    requires i < |s| && MarkerAt(s[i..]) == Some(g)
    requires |ps| == |gs| && MatchesAt(s, i + |g| + 3, ps, gs)
    ensures MatchesAt(s, i, [i] + ps, [g] + gs)
  {
    var ps', gs' := [i] + ps, [g] + gs;
    forall k | 0 <= k < |ps'|
      ensures i <= ps'[k] < |s| && MarkerAt(s[ps'[k]..]) == Some(gs'[k])
    {
      if k > 0 { assert ps'[k] == ps[k - 1] && gs'[k] == gs[k - 1]; }
    }
  }

  lemma TakeSpaced(s: string, i: nat, g: string, ps: seq<nat>, gs: seq<string>)
    requires |ps| == |gs| && Spaced(ps, gs)
    requires forall k :: 0 <= k < |ps| ==> i + |g| + 3 <= ps[k]
    ensures Spaced([i] + ps, [g] + gs)
  {
    var ps', gs' := [i] + ps, [g] + gs;
    forall k | 0 < k < |ps'|
      ensures ps'[k - 1] + |gs'[k - 1]| + 3 <= ps'[k]
    {
      if k > 1 { assert ps'[k - 1] == ps[k - 2] && gs'[k - 1] == gs[k - 2]; }
      assert ps'[k] == ps[k - 1];
    }
  }

  lemma TakeCovered(s: string, i: nat, g: string, ps: seq<nat>, gs: seq<string>)
    requires |ps| == |gs| && AllCovered(s, i + |g| + 3, ps, gs)
    ensures AllCovered(s, i, [i] + ps, [g] + gs)
  {
    var ps', gs' := [i] + ps, [g] + gs;
    forall j | i <= j < |s| && MarkerAt(s[j..]).Some?
      ensures Covered(ps', gs', j)
    {
      if j < i + |g| + 3 {
        assert ps'[0] <= j < ps'[0] + |gs'[0]| + 3;
      } else {
        assert Covered(ps, gs, j);
        var k :| 0 <= k < |ps| && ps[k] <= j < ps[k] + |gs[k]| + 3;
        assert ps'[k + 1] == ps[k] && gs'[k + 1] == gs[k];
      }
    }
  }

  /** No match at `i`: the scan from `i` is the scan from `i + 1`. */
  lemma MarkerScanSkip(s: string, i: nat, ps: seq<nat>, gs: seq<string>)
    requires i < |s| && MarkerAt(s[i..]).None?
    requires MarkerScan(s, i + 1, ps, gs)
    ensures MarkerScan(s, i, ps, gs)
  {
  }

  /** `MarkerGroups` returns the groups of the leftmost non-overlapping
      matches over the whole string. */
  lemma MarkerGroupsScan(s: string)
    ensures exists ps :: MarkerScan(s, 0, ps, MarkerGroups(s))
  {
    MarkerGroupsFromScan(s, 0);
    assert MarkerGroups(s) == MarkerGroupsFrom(s, 0);
  }

  /** A marker group that names a stage: a configured marker or a project file. */
  predicate NamesStage(g: string, markers: seq<string>) {
    "<" + g + ">" in markers || EndsWith(g, ".dpr")
  }

  /** The stage name for the first group, in order, that names a stage. */
  function FirstStageMarker(groups: seq<string>, markers: seq<string>): (m: Option<string>)
    ensures m.None? <==> forall k :: 0 <= k < |groups| ==> !NamesStage(groups[k], markers)
    ensures m.Some? ==>
      exists k :: 0 <= k < |groups| && NamesStage(groups[k], markers)
        && (forall j :: 0 <= j < k ==> !NamesStage(groups[j], markers))
        && m.value == "<" + groups[k] + ">"
  {
    if |groups| == 0 then None
    else if NamesStage(groups[0], markers) then Some("<" + groups[0] + ">")
    else
      var m := FirstStageMarker(groups[1..], markers);
      assert forall j :: 0 < j < |groups| ==> groups[j] == groups[1..][j - 1];
      if m.Some? then
        ghost var k :| 0 <= k < |groups[1..]| && NamesStage(groups[1..][k], markers)
          && (forall j :: 0 <= j < k ==> !NamesStage(groups[1..][j], markers))
          && m.value == "<" + groups[1..][k] + ">";
        assert groups[k + 1] == groups[1..][k];
        m
      else m
  }

  /** `_extract_step_info`: the name and depth of the stage `line` opens, if
      it opens one. */
  function StepInfo(line: string, config: Config): (info: Option<(string, nat)>)
    ensures info.Some? ==> info.value.1 == Indentation(AfterTimestamp(line))
  {
    var indent := Indentation(AfterTimestamp(line));
    match FirstTarget(config.targetSteps, line)
    case Some(t) => Some((config.targetSteps[t].name, indent))
    case None =>
      match FirstStageMarker(MarkerGroups(StepContent(line)), config.stageMarkers)
      case Some(m) => Some((m, indent))
      case None => None
  }

  /** A target step wins: if target `i` is the first whose pattern occurs in
      the line, the stage is named after it whatever markers the line holds. */
  lemma TargetPrecedence(line: string, config: Config, i: nat)
    requires i < |config.targetSteps| && Contains(line, config.targetSteps[i].pattern)
    requires forall j :: 0 <= j < i ==> !Contains(line, config.targetSteps[j].pattern)
    ensures StepInfo(line, config) == Some((config.targetSteps[i].name, Indentation(AfterTimestamp(line))))
  {
    var r := FirstTarget(config.targetSteps, line);
    assert r.Some?;
    assert r.value == i;
  }

  /** Without a target step, the first marker group of the content that
      names a stage gives the stage's name. */
  lemma MarkerFallback(line: string, config: Config, k: nat)
    requires forall j :: 0 <= j < |config.targetSteps| ==> !Contains(line, config.targetSteps[j].pattern)
    requires var gs := MarkerGroups(StepContent(line));
      k < |gs| && NamesStage(gs[k], config.stageMarkers)
      && forall j :: 0 <= j < k ==> !NamesStage(gs[j], config.stageMarkers)
    ensures StepInfo(line, config)
      == Some(("<" + MarkerGroups(StepContent(line))[k] + ">", Indentation(AfterTimestamp(line))))
  {
    var gs := MarkerGroups(StepContent(line));
    var m := FirstStageMarker(gs, config.stageMarkers);
    assert FirstTarget(config.targetSteps, line).None?;
    var k' :| 0 <= k' < |gs| && NamesStage(gs[k'], config.stageMarkers)
      && (forall j :: 0 <= j < k' ==> !NamesStage(gs[j], config.stageMarkers))
      && m.value == "<" + gs[k'] + ">";
    assert k' == k;
  }

  /** A line opens no stage exactly when no target pattern occurs in it and
      no marker group of its content names a stage. */
  lemma NoStepInfo(line: string, config: Config)
    ensures StepInfo(line, config).None? ==>
      (forall j :: 0 <= j < |config.targetSteps| ==> !Contains(line, config.targetSteps[j].pattern))
      && (forall k :: 0 <= k < |MarkerGroups(StepContent(line))| ==>
            !NamesStage(MarkerGroups(StepContent(line))[k], config.stageMarkers))
    ensures (forall j :: 0 <= j < |config.targetSteps| ==> !Contains(line, config.targetSteps[j].pattern))
      && (forall k :: 0 <= k < |MarkerGroups(StepContent(line))| ==>
            !NamesStage(MarkerGroups(StepContent(line))[k], config.stageMarkers))
      ==> StepInfo(line, config).None?
  {
    var gs := MarkerGroups(StepContent(line));
    var t := FirstTarget(config.targetSteps, line);
    var m := FirstStageMarker(gs, config.stageMarkers);
    assert StepInfo(line, config).None? <==> t.None? && m.None?;
  }

  // ---------------------------------------------------------------------
  // The stage tree, stated declaratively over the whole input

  /** What a line is to the stage tree: blank (skipped), the header of a
      stage with its name and depth, or content of the innermost open stage. */
  datatype LineKind = Blank | Header(name: string, level: nat) | Content

  /** How `parse_log` treats `line`. */
  function Kind(line: string, config: Config): LineKind {
    if IsBlank(line) then Blank
    else match StepInfo(line, config)
      case Some(info) => Header(info.0, info.1)
      case None => Content
  }

  /** The kinds of all lines of `input`, in order. */
  function Kinds(input: seq<string>, config: Config): (kinds: seq<LineKind>)
    ensures |kinds| == |input|
  {
    seq(|input|, i requires 0 <= i < |input| => Kind(input[i], config))
  }

  /** Reading one more line adds its kind. */
  lemma KindsAppend(input: seq<string>, line: string, config: Config)
    ensures Kinds(input + [line], config) == Kinds(input, config) + [Kind(line, config)]
  {
    var input' := input + [line];
    assert forall i :: 0 <= i < |input| ==> input'[i] == input[i];
  }

  /** The header of a stage: the 0-based index of the line that opened it,
      the stage's name and its depth. */
  datatype Head = Head(index: nat, name: string, level: nat)

  /** Header indices lie below `n` and increase strictly. */
  ghost predicate HeadsFit(hs: seq<Head>, n: nat) {
    (forall k :: 0 <= k < |hs| ==> hs[k].index < n)
    && (forall a, b {:trigger hs[a], hs[b]} :: 0 <= a && b == a + 1 && b < |hs| ==> hs[a].index < hs[b].index)
  }

  /** The headers among `kinds`, in order. */
  function Heads(kinds: seq<LineKind>): (hs: seq<Head>)
    decreases |kinds|
  {
    if |kinds| == 0 then []
    else
      var prev := kinds[..|kinds| - 1];
      var hs := Heads(prev);
      match kinds[|kinds| - 1]
      case Header(name, level) => hs + [Head(|prev|, name, level)]
      case _ => hs
  }

  /** Headers lie inside the input, in order, and are header lines. */
  lemma {:induction false} HeadsSpec(kinds: seq<LineKind>)
    ensures HeadsFit(Heads(kinds), |kinds|)
    ensures forall k :: 0 <= k < |Heads(kinds)| ==> kinds[Heads(kinds)[k].index] == Header(Heads(kinds)[k].name, Heads(kinds)[k].level)
    decreases |kinds|
  {
    if |kinds| > 0 {
      var prev := kinds[..|kinds| - 1];
      HeadsSpec(prev);
      var hs := Heads(prev);
      assert forall k :: 0 <= k < |hs| ==> kinds[hs[k].index] == prev[hs[k].index];
    }
  }

  /** One more line adds a header if, and only if, it is one. */
  lemma HeadsAppend(kinds: seq<LineKind>, kind: LineKind)
    ensures Heads(kinds + [kind]) ==
      Heads(kinds) + (if kind.Header? then [Head(|kinds|, kind.name, kind.level)] else [])
  {
    assert (kinds + [kind])[..|kinds|] == kinds;
  }

  /** Every header line has a header. */
  lemma {:induction false} HeadsComplete(kinds: seq<LineKind>, i: nat)
    requires i < |kinds| && kinds[i].Header?
    ensures exists k :: 0 <= k < |Heads(kinds)| && Heads(kinds)[k].index == i
    decreases |kinds|
  {
    var prev := kinds[..|kinds| - 1];
    HeadsAppend(prev, kinds[|kinds| - 1]);
    assert prev + [kinds[|kinds| - 1]] == kinds;
    if i < |prev| {
      HeadsComplete(prev, i);
      var k :| 0 <= k < |Heads(prev)| && Heads(prev)[k].index == i;
      assert Heads(kinds)[k] == Heads(prev)[k];
    } else {
      assert Heads(kinds)[|Heads(prev)|].index == i;
    }
  }

  /** The last header before position `k` whose depth is below `d`. */
  function LastBelow(hs: seq<Head>, k: nat, d: nat): (p: Option<nat>)
    requires k <= |hs|
    ensures p.Some? ==> p.value < k
  {
    if k == 0 then None
    else if hs[k - 1].level < d then Some(k - 1)
    else LastBelow(hs, k - 1, d)
  }

  /** `LastBelow` finds a header below `d` with none below `d` after it, or
      reports that there is none. */
  lemma {:induction false} LastBelowSpec(hs: seq<Head>, k: nat, d: nat)
    requires k <= |hs|
    ensures var p := LastBelow(hs, k, d);
      (p.Some? ==> hs[p.value].level < d && forall j :: p.value < j < k ==> hs[j].level >= d)
      && (p.None? ==> forall j :: 0 <= j < k ==> hs[j].level >= d)
    decreases k
  {
    if k > 0 && hs[k - 1].level >= d {
      LastBelowSpec(hs, k - 1, d);
    }
  }

  /** The parent of stage `j`: the latest earlier stage of smaller depth. */
  function ParentOf(hs: seq<Head>, j: nat): Option<nat>
    requires j < |hs|
  {
    LastBelow(hs, j, hs[j].level)
  }

  /** The stages among the first `n` whose parent is `i`, in order. */
  function ChildIds(hs: seq<Head>, i: nat, n: nat): (ids: seq<nat>)
    requires n <= |hs|
    ensures forall a :: 0 <= a < |ids| ==> i < ids[a] < n
  {
    if n == 0 then []
    else ChildIds(hs, i, n - 1) + (if ParentOf(hs, n - 1) == Some(i) then [n - 1] else [])
  }

  /** The children of `i` are exactly the stages whose parent is `i`. */
  lemma {:induction false} ChildIdsExact(hs: seq<Head>, i: nat, n: nat)
    requires n <= |hs|
    ensures forall x: nat :: x in ChildIds(hs, i, n) <==> x < n && ParentOf(hs, x) == Some(i)
    decreases n
  {
    if n > 0 {
      var prev := ChildIds(hs, i, n - 1);
      var last := if ParentOf(hs, n - 1) == Some(i) then [n - 1] else [];
      ChildIdsExact(hs, i, n - 1);
      ChildIdsNext(hs, i, n - 1);
      forall x: nat
        ensures x in ChildIds(hs, i, n) <==> x < n && ParentOf(hs, x) == Some(i)
      {
        assert x in prev + last <==> x in prev || x in last;
        if x == n - 1 {
          assert x in last <==> ParentOf(hs, x) == Some(i);
        }
      }
    }
  }

  /** The children of `i` are listed in the order of the log. */
  lemma {:induction false} ChildIdsOrdered(hs: seq<Head>, i: nat, n: nat)
    requires n <= |hs|
    ensures forall a, b :: 0 <= a < b < |ChildIds(hs, i, n)| ==> ChildIds(hs, i, n)[a] < ChildIds(hs, i, n)[b]
    decreases n
  {
    if n > 0 {
      ChildIdsOrdered(hs, i, n - 1);
      ChildIdsNext(hs, i, n - 1);
    }
  }

  /** Looking at one more stage adds it to the children of `i` if, and only
      if, `i` is its parent. */
  lemma ChildIdsNext(hs: seq<Head>, i: nat, n: nat)
    requires n < |hs|
    ensures ChildIds(hs, i, n + 1) == ChildIds(hs, i, n) + (if ParentOf(hs, n) == Some(i) then [n] else [])
  {
  }

  /** A stage has no children among the stages up to itself. */
  lemma {:induction false} NoEarlyChildren(hs: seq<Head>, i: nat, m: nat)
    requires m <= i + 1 && m <= |hs|
    ensures ChildIds(hs, i, m) == []
    decreases m
  {
    if m > 0 {
      NoEarlyChildren(hs, i, m - 1);
    }
  }

  /** The stages among the first `n` that have no parent, in order. */
  function RootIds(hs: seq<Head>, n: nat): (ids: seq<nat>)
    requires n <= |hs|
    ensures forall a :: 0 <= a < |ids| ==> ids[a] < n
  {
    if n == 0 then []
    else RootIds(hs, n - 1) + (if ParentOf(hs, n - 1).None? then [n - 1] else [])
  }

  /** The top-level stages are exactly those without a parent. */
  lemma {:induction false} RootIdsExact(hs: seq<Head>, n: nat)
    requires n <= |hs|
    ensures forall x: nat :: x in RootIds(hs, n) <==> x < n && ParentOf(hs, x).None?
    decreases n
  {
    if n > 0 {
      var prev := RootIds(hs, n - 1);
      var last := if ParentOf(hs, n - 1).None? then [n - 1] else [];
      RootIdsExact(hs, n - 1);
      RootIdsNext(hs, n - 1);
      forall x: nat
        ensures x in RootIds(hs, n) <==> x < n && ParentOf(hs, x).None?
      {
        assert x in prev + last <==> x in prev || x in last;
        if x == n - 1 {
          assert x in last <==> ParentOf(hs, x).None?;
        }
      }
    }
  }

  /** The top-level stages are listed in the order of the log. */
  lemma {:induction false} RootIdsOrdered(hs: seq<Head>, n: nat)
    requires n <= |hs|
    ensures forall a, b :: 0 <= a < b < |RootIds(hs, n)| ==> RootIds(hs, n)[a] < RootIds(hs, n)[b]
    decreases n
  {
    if n > 0 {
      RootIdsOrdered(hs, n - 1);
      RootIdsNext(hs, n - 1);
    }
  }

  /** Looking at one more stage adds it to the top level if, and only if,
      it has no parent. */
  lemma RootIdsNext(hs: seq<Head>, n: nat)
    requires n < |hs|
    ensures RootIds(hs, n + 1) == RootIds(hs, n) + (if ParentOf(hs, n).None? then [n] else [])
  {
  }

  /** The first header at or after position `j` whose depth is at most `d`. */
  function CloserFrom(hs: seq<Head>, j: nat, d: nat): (c: Option<nat>)
    requires j <= |hs|
    ensures c.Some? ==> j <= c.value < |hs|
    decreases |hs| - j
  {
    if j == |hs| then None
    else if hs[j].level <= d then Some(j)
    else CloserFrom(hs, j + 1, d)
  }

  /** `CloserFrom` finds the first header at or after `j` not deeper than
      `d`, or reports that every one from `j` on is deeper. */
  lemma {:induction false} CloserFromSpec(hs: seq<Head>, j: nat, d: nat)
    requires j <= |hs|
    ensures var c := CloserFrom(hs, j, d);
      (c.Some? ==> hs[c.value].level <= d && forall m :: j <= m < c.value ==> hs[m].level > d)
      && (c.None? ==> forall m :: j <= m < |hs| ==> hs[m].level > d)
    decreases |hs| - j
  {
    if j < |hs| && hs[j].level > d {
      CloserFromSpec(hs, j + 1, d);
    }
  }

  /** The stage whose opening closes stage `i`: the first later one that is
      not deeper; none while `i` is still open. */
  function Closer(hs: seq<Head>, i: nat): Option<nat>
    requires i < |hs|
  {
    CloserFrom(hs, i + 1, hs[i].level)
  }

  /** The lines at positions `a` up to `e` (excluded) that are not blank. */
  function NonBlankIn(lines: seq<string>, kinds: seq<LineKind>, a: nat, e: nat): (r: seq<string>)
    requires |kinds| == |lines| && e <= |lines|
    decreases e
  {
    if e <= a then []
    else NonBlankIn(lines, kinds, a, e - 1) + (if kinds[e - 1].Blank? then [] else [lines[e - 1]])
  }

  /** Lines read later do not change the non-blank lines of a range. */
  lemma {:induction false} NonBlankInSnoc(lines: seq<string>, kinds: seq<LineKind>, line: string, kind: LineKind, a: nat, e: nat)
    requires |kinds| == |lines| && e <= |lines|
    ensures NonBlankIn(lines + [line], kinds + [kind], a, e) == NonBlankIn(lines, kinds, a, e)
    decreases e
  {
    if e > a {
      NonBlankInSnoc(lines, kinds, line, kind, a, e - 1);
      assert (lines + [line])[e - 1] == lines[e - 1];
      assert (kinds + [kind])[e - 1] == kinds[e - 1];
    }
  }

  /** Index just past the input lines of stage `i`: the next header, or the end. */
  function SegmentEnd(hs: seq<Head>, i: nat, n: nat): nat
    requires i < |hs|
  {
    if i + 1 < |hs| then hs[i + 1].index else n
  }

  /** The lines of stage `i`: its header line and the non-blank lines after
      it up to the next header. */
  function OwnLines(input: seq<string>, kinds: seq<LineKind>, hs: seq<Head>, i: nat): seq<string>
    requires |kinds| == |input| && i < |hs|
  {
    var a, e := hs[i].index, SegmentEnd(hs, i, |input|);
    if e <= |input| then NonBlankIn(input, kinds, a, e) else []
  }

  /** The 1-based number of the last line of stage `i` once all `n` lines
      are read: the line before the header that closes it, or the last line. */
  function EndLine(hs: seq<Head>, i: nat, n: nat): nat
    requires i < |hs|
  {
    match Closer(hs, i)
    case Some(c) => hs[c].index
    case None => n
  }

  /** One stage with its sub-stages given by position: the shape of the
      tree held in an array, each stage once. */
  datatype StepNode = StepNode(
    name: string,
    level: nat,
    startLine: nat,
    endLine: nat,
    lines: seq<string>,
    children: seq<nat>)

  /** Stage `i` of the specification. */
  function SpecNode(input: seq<string>, kinds: seq<LineKind>, hs: seq<Head>, i: nat): StepNode
    requires |kinds| == |input| && i < |hs|
  {
    StepNode(hs[i].name, hs[i].level, hs[i].index + 1, EndLine(hs, i, |input|),
      OwnLines(input, kinds, hs, i), ChildIds(hs, i, |hs|))
  }

  /** All stages of the input, by position of their header. */
  function SpecArena(input: seq<string>, config: Config): (arena: seq<StepNode>)
    ensures var kinds := Kinds(input, config); var hs := Heads(kinds);
      |arena| == |hs| && forall i :: 0 <= i < |arena| ==> arena[i] == SpecNode(input, kinds, hs, i)
  {
    var kinds := Kinds(input, config);
    var hs := Heads(kinds);
    seq(|hs|, i requires 0 <= i < |hs| => SpecNode(input, kinds, hs, i))
  }

  /** The top-level stages of the input. */
  function SpecRoots(input: seq<string>, config: Config): seq<nat> {
    var hs := Heads(Kinds(input, config));
    RootIds(hs, |hs|)
  }

  // ---------------------------------------------------------------------
  // From positions to the tree

  /** Every sub-stage position lies after its parent and inside the array. */
  ghost predicate ArenaOk(arena: seq<StepNode>) {
    forall i, j :: 0 <= i < |arena| && 0 <= j < |arena[i].children| ==> i < arena[i].children[j] < |arena|
  }

  /** The stage at position `id` with its whole subtree. */
  function TreeOf(arena: seq<StepNode>, id: nat): BuildStep
    requires ArenaOk(arena) && id < |arena|
    decreases |arena| - id, 0, 0
  {
    var n := arena[id];
    BuildStep(n.name, n.level, n.startLine, n.endLine, n.lines, TreesOf(arena, n.children, id + 1))
  }

  /** The stages at positions `ids`, all at or after `lo`, with their subtrees. */
  function TreesOf(arena: seq<StepNode>, ids: seq<nat>, lo: nat): (ts: seq<BuildStep>)
    requires ArenaOk(arena) && forall k :: 0 <= k < |ids| ==> lo <= ids[k] < |arena|
    ensures |ts| == |ids|
    ensures forall k :: 0 <= k < |ids| ==> ts[k] == TreeOf(arena, ids[k])
    decreases |arena| - lo, 1, |ids|
  {
    if |ids| == 0 then [] else [TreeOf(arena, ids[0])] + TreesOf(arena, ids[1..], lo)
  }

  /** The specification arena is well formed. */
  lemma SpecArenaOk(input: seq<string>, config: Config)
    ensures ArenaOk(SpecArena(input, config))
    ensures forall k :: 0 <= k < |SpecRoots(input, config)| ==> SpecRoots(input, config)[k] < |SpecArena(input, config)|
  {
  }

  /** The stage forest of `input`: what parsing the log returns. */
  function SpecForest(input: seq<string>, config: Config): seq<BuildStep> {
    SpecArenaOk(input, config);
    TreesOf(SpecArena(input, config), SpecRoots(input, config), 0)
  }

  // ---------------------------------------------------------------------
  // Shape of the stage forest

  /** Header positions increase along the headers. */
  lemma {:induction false} HeadsIncrease(hs: seq<Head>, n: nat, a: nat, b: nat)
    requires HeadsFit(hs, n) && a < b < |hs|
    ensures hs[a].index < hs[b].index
    decreases b - a
  {
    if a + 1 < b {
      HeadsIncrease(hs, n, a + 1, b);
    }
    assert hs[a].index < hs[a + 1].index;
  }

  /** A stage ends no earlier than its header line and no later than the log. */
  lemma StageBounds(hs: seq<Head>, i: nat, n: nat)
    requires HeadsFit(hs, n) && i < |hs|
    ensures hs[i].index + 1 <= EndLine(hs, i, n) <= n
  {
    match Closer(hs, i) {
      case Some(c) => HeadsIncrease(hs, n, i, c);
      case None =>
    }
  }

  /** A sub-stage is deeper than its parent, starts after it and ends no later. */
  lemma ChildInsideParent(hs: seq<Head>, p: nat, c: nat, n: nat)
    requires HeadsFit(hs, n) && c < |hs| && ParentOf(hs, c) == Some(p)
    ensures p < c && hs[p].level < hs[c].level
    ensures hs[p].index < hs[c].index && EndLine(hs, c, n) <= EndLine(hs, p, n)
  {
    LastBelowSpec(hs, c, hs[c].level);
    HeadsIncrease(hs, n, p, c);
    CloserFromSpec(hs, p + 1, hs[p].level);
    CloserFromSpec(hs, c + 1, hs[c].level);
    StageBounds(hs, c, n);
    match Closer(hs, p) {
      case None =>
      case Some(q) =>
        assert c < q;
        var r := Closer(hs, c);
        assert r.Some? && r.value <= q;
        if r.value < q {
          HeadsIncrease(hs, n, r.value, q);
        }
    }
  }

  /** The non-blank lines of a range split at any point in between. */
  lemma {:induction false} NonBlankInSplit(lines: seq<string>, kinds: seq<LineKind>, a: nat, m: nat, e: nat)
    requires |kinds| == |lines| && a <= m <= e <= |lines|
    ensures NonBlankIn(lines, kinds, a, e) == NonBlankIn(lines, kinds, a, m) + NonBlankIn(lines, kinds, m, e)
    decreases e
  {
    if m < e {
      NonBlankInSplit(lines, kinds, a, m, e - 1);
    }
  }

  /** A range that starts with a line that is not blank holds that line first. */
  lemma HeaderFirst(lines: seq<string>, kinds: seq<LineKind>, a: nat, e: nat)
    requires |kinds| == |lines| && a < e <= |lines| && !kinds[a].Blank?
    ensures |NonBlankIn(lines, kinds, a, e)| > 0 && NonBlankIn(lines, kinds, a, e)[0] == lines[a]
  {
    NonBlankInSplit(lines, kinds, a, a + 1, e);
    assert NonBlankIn(lines, kinds, a, a + 1) == [lines[a]];
  }

  /** Stage `i` starts at its header line, which comes first among its
      lines, and ends no later than the log. */
  lemma StageLinesShape(input: seq<string>, kinds: seq<LineKind>, hs: seq<Head>, i: nat)
    requires |kinds| == |input| && hs == Heads(kinds) && i < |hs|
    ensures var s := SpecNode(input, kinds, hs, i);
      1 <= s.startLine <= s.endLine <= |input| && |s.lines| > 0 && s.lines[0] == input[s.startLine - 1]
  {
    var n := |input|;
    HeadsSpec(kinds);
    StageBounds(hs, i, n);
    var a, e := hs[i].index, SegmentEnd(hs, i, n);
    if i + 1 < |hs| {
      HeadsIncrease(hs, n, i, i + 1);
    }
    assert kinds[a] == Header(hs[i].name, hs[i].level);
    HeaderFirst(input, kinds, a, e);
  }

  /** The sub-stages of stage `i` are deeper, lie inside it and are listed
      in the order of the log. */
  lemma StageChildrenShape(input: seq<string>, kinds: seq<LineKind>, hs: seq<Head>, i: nat)
    requires |kinds| == |input| && hs == Heads(kinds) && i < |hs|
    ensures var s := SpecNode(input, kinds, hs, i);
      (forall j :: 0 <= j < |s.children| ==>
         var c := SpecNode(input, kinds, hs, s.children[j]);
         i < s.children[j] < |hs| && s.level < c.level && s.startLine < c.startLine && c.endLine <= s.endLine)
      && (forall a, b :: 0 <= a < b < |s.children| ==> s.children[a] < s.children[b])
  {
    var s, ids := SpecNode(input, kinds, hs, i), ChildIds(hs, i, |hs|);
    HeadsSpec(kinds);
    ChildIdsOrdered(hs, i, |hs|);
    forall j | 0 <= j < |s.children|
      ensures var c := SpecNode(input, kinds, hs, s.children[j]);
        i < s.children[j] < |hs| && s.level < c.level && s.startLine < c.startLine && c.endLine <= s.endLine
    {
      var k := ids[j];
      ChildHeadInside(hs, i, |input|, j);
      var c := SpecNode(input, kinds, hs, k);
      assert c.level == hs[k].level && c.startLine == hs[k].index + 1 && c.endLine == EndLine(hs, k, |input|);
    }
  }

  /** The header of the `j`th sub-stage of `i` is deeper and later, and the
      sub-stage ends no later than `i`. */
  lemma ChildHeadInside(hs: seq<Head>, i: nat, n: nat, j: nat)
    requires HeadsFit(hs, n) && i < |hs| && j < |ChildIds(hs, i, |hs|)|
    ensures var k := ChildIds(hs, i, |hs|)[j];
      i < k < |hs| && hs[i].level < hs[k].level
      && hs[i].index < hs[k].index && EndLine(hs, k, n) <= EndLine(hs, i, n)
  {
    var k := ChildIds(hs, i, |hs|)[j];
    ChildIdsExact(hs, i, |hs|);
    assert k in ChildIds(hs, i, |hs|);
    ChildInsideParent(hs, i, k, n);
  }

  /** The shape of stage `i`, read off an array that holds the stages. */
  lemma ArenaStageShape(input: seq<string>, kinds: seq<LineKind>, hs: seq<Head>, arena: seq<StepNode>, i: nat)
    requires |kinds| == |input| && hs == Heads(kinds) && |arena| == |hs| && i < |hs|
    requires forall x :: 0 <= x < |arena| ==> arena[x] == SpecNode(input, kinds, hs, x)
    ensures var s := arena[i];
      1 <= s.startLine <= s.endLine <= |input|
      && |s.lines| > 0 && s.lines[0] == input[s.startLine - 1]
      && (forall j :: 0 <= j < |s.children| ==>
            i < s.children[j] < |arena| && s.level < arena[s.children[j]].level
            && s.startLine < arena[s.children[j]].startLine && arena[s.children[j]].endLine <= s.endLine)
      && (forall a, b :: 0 <= a < b < |s.children| ==> s.children[a] < s.children[b])
  {
    StageLinesShape(input, kinds, hs, i);
    StageChildrenShape(input, kinds, hs, i);
  }

  /** Every stage of the log starts at its header line, which comes first
      among its lines, and ends no later than the log; its sub-stages are
      deeper, lie inside it and are listed in the order of the log. */
  lemma SpecStageShape(input: seq<string>, config: Config, i: nat)
    requires i < |SpecArena(input, config)|
    ensures var arena := SpecArena(input, config); var s := arena[i];
      1 <= s.startLine <= s.endLine <= |input|
      && |s.lines| > 0 && s.lines[0] == input[s.startLine - 1]
      && (forall j :: 0 <= j < |s.children| ==>
            i < s.children[j] < |arena| && s.level < arena[s.children[j]].level
            && s.startLine < arena[s.children[j]].startLine && arena[s.children[j]].endLine <= s.endLine)
      && (forall a, b :: 0 <= a < b < |s.children| ==> s.children[a] < s.children[b])
  {
    var kinds := Kinds(input, config);
    ArenaStageShape(input, kinds, Heads(kinds), SpecArena(input, config), i);
  }

  /** The non-blank lines of `lines`, in order. */
  function NonBlankLines(lines: seq<string>): (r: seq<string>)
    ensures |r| <= |lines|
  {
    if |lines| == 0 then []
    else NonBlankLines(lines[..|lines| - 1]) + (if IsBlank(lines[|lines| - 1]) then [] else [lines[|lines| - 1]])
  }

  /** One more line adds itself to the non-blank lines unless it is blank. */
  lemma NonBlankLinesSnoc(lines: seq<string>, line: string)
    ensures NonBlankLines(lines + [line]) == NonBlankLines(lines) + (if IsBlank(line) then [] else [line])
  {
    assert (lines + [line])[..|lines|] == lines;
  }

  /** A line is blank to the stage tree exactly when `strip()` empties it. */
  lemma KindBlank(line: string, config: Config)
    ensures Kind(line, config).Blank? <==> IsBlank(line)
  {
  }

  /** Blank kinds mark the blank lines. */
  ghost predicate BlankMarked(input: seq<string>, kinds: seq<LineKind>) {
    |kinds| == |input| && forall j :: 0 <= j < |input| ==> (kinds[j].Blank? <==> IsBlank(input[j]))
  }

  /** The kinds of the input mark its blank lines. */
  lemma KindsMarkBlank(input: seq<string>, config: Config)
    ensures BlankMarked(input, Kinds(input, config))
  {
    forall j | 0 <= j < |input|
      ensures Kinds(input, config)[j].Blank? <==> IsBlank(input[j])
    {
      KindBlank(input[j], config);
    }
  }

  /** When blank kinds mark the blank lines, the non-blank lines of a range
      are its lines that are not blank. */
  lemma {:induction false} NonBlankInIsFilter(input: seq<string>, kinds: seq<LineKind>, a: nat, e: nat)
    requires BlankMarked(input, kinds) && a <= e <= |input|
    ensures NonBlankIn(input, kinds, a, e) == NonBlankLines(input[a..e])
    decreases e
  {
    if a < e {
      NonBlankInIsFilter(input, kinds, a, e - 1);
      assert input[a..e] == input[a..e - 1] + [input[e - 1]];
      NonBlankLinesSnoc(input[a..e - 1], input[e - 1]);
    }
  }

  /** The lines of the first `k` stages, concatenated in the order of their headers. */
  function StageLines(arena: seq<StepNode>, k: nat): seq<string>
    requires k <= |arena|
  {
    if k == 0 then [] else StageLines(arena, k - 1) + arena[k - 1].lines
  }

  /** The first `k` stages hold the non-blank lines from the first header
      up to the header after the last of them. */
  lemma {:induction false} LinesPrefix(input: seq<string>, kinds: seq<LineKind>, hs: seq<Head>, arena: seq<StepNode>, k: nat)
    requires |kinds| == |input| && hs == Heads(kinds) && |arena| == |hs| && 0 < k <= |hs|
    requires forall i :: 0 <= i < |hs| ==> arena[i].lines == OwnLines(input, kinds, hs, i)
    ensures var e := SegmentEnd(hs, k - 1, |input|);
      hs[0].index <= e <= |input| && StageLines(arena, k) == NonBlankIn(input, kinds, hs[0].index, e)
    decreases k
  {
    var n := |input|;
    HeadsSpec(kinds);
    if k < |hs| {
      HeadsIncrease(hs, n, k - 1, k);
    }
    if k > 1 {
      LinesPrefix(input, kinds, hs, arena, k - 1);
      HeadsIncrease(hs, n, 0, k - 1);
      NonBlankInSplit(input, kinds, hs[0].index, hs[k - 1].index, SegmentEnd(hs, k - 1, n));
    }
  }

  /** The stages hold the non-blank lines from the first header on. */
  lemma {:induction false} LinesAccounted(input: seq<string>, kinds: seq<LineKind>, hs: seq<Head>, arena: seq<StepNode>)
    requires BlankMarked(input, kinds) && hs == Heads(kinds) && |arena| == |hs| && |hs| > 0
    requires forall i :: 0 <= i < |hs| ==> arena[i].lines == OwnLines(input, kinds, hs, i)
    ensures hs[0].index < |input| && StageLines(arena, |hs|) == NonBlankLines(input[hs[0].index..])
  {
    HeadsSpec(kinds);
    LinesPrefix(input, kinds, hs, arena, |hs|);
    NonBlankInIsFilter(input, kinds, hs[0].index, |input|);
    assert input[hs[0].index..|input|] == input[hs[0].index..];
  }

  /** Line accounting: between them the stages hold, each once and in
      order, every non-blank line from the first header on; the lines
      before the first header belong to no stage. */
  lemma SpecLinesAccounted(input: seq<string>, config: Config)
    ensures var arena := SpecArena(input, config);
      |arena| > 0 ==>
        1 <= arena[0].startLine <= |input|
        && StageLines(arena, |arena|) == NonBlankLines(input[arena[0].startLine - 1..])
  {
    var arena := SpecArena(input, config);
    if |arena| > 0 {
      var kinds := Kinds(input, config);
      var hs := Heads(kinds);
      KindsMarkBlank(input, config);
      LinesAccounted(input, kinds, hs, arena);
      assert arena[0].startLine == hs[0].index + 1;
    }
  }


  // ---------------------------------------------------------------------
  // Facts about the declarative tree when one more line is read

  lemma {:induction false} LastBelowAppend(hs: seq<Head>, h: Head, k: nat, d: nat)
    requires k <= |hs|
    ensures LastBelow(hs + [h], k, d) == LastBelow(hs, k, d)
    decreases k
  {
    if k > 0 {
      assert (hs + [h])[k - 1] == hs[k - 1];
      LastBelowAppend(hs, h, k - 1, d);
    }
  }

  lemma ParentOfAppend(hs: seq<Head>, h: Head, j: nat)
    requires j < |hs|
    ensures ParentOf(hs + [h], j) == ParentOf(hs, j)
  {
    assert (hs + [h])[j] == hs[j];
    LastBelowAppend(hs, h, j, hs[j].level);
  }

  lemma {:induction false} ChildIdsAppend(hs: seq<Head>, h: Head, i: nat, n: nat)
    requires n <= |hs|
    ensures ChildIds(hs + [h], i, n) == ChildIds(hs, i, n)
    decreases n
  {
    if n > 0 {
      ChildIdsAppend(hs, h, i, n - 1);
      ParentOfAppend(hs, h, n - 1);
      assert ChildIds(hs + [h], i, n) == ChildIds(hs + [h], i, n - 1) + (if ParentOf(hs + [h], n - 1) == Some(i) then [n - 1] else []);
    }
  }

  lemma {:induction false} RootIdsAppend(hs: seq<Head>, h: Head, n: nat)
    requires n <= |hs|
    ensures RootIds(hs + [h], n) == RootIds(hs, n)
    decreases n
  {
    if n > 0 {
      RootIdsAppend(hs, h, n - 1);
      ParentOfAppend(hs, h, n - 1);
    }
  }

  lemma {:induction false} CloserFromAppend(hs: seq<Head>, h: Head, j: nat, d: nat)
    requires j <= |hs|
    ensures CloserFrom(hs + [h], j, d) ==
      if CloserFrom(hs, j, d).Some? then CloserFrom(hs, j, d)
      else if h.level <= d then Some(|hs|)
      else None
    decreases |hs| - j
  {
    if j < |hs| {
      assert (hs + [h])[j] == hs[j];
      CloserFromAppend(hs, h, j + 1, d);
    } else {
      assert (hs + [h])[j] == h;
    }
  }

  /** A new header closes exactly the open stages that are not shallower. */
  lemma CloserAppend(hs: seq<Head>, h: Head, i: nat)
    requires i < |hs|
    ensures Closer(hs + [h], i) ==
      if Closer(hs, i).Some? then Closer(hs, i)
      else if h.level <= hs[i].level then Some(|hs|)
      else None
  {
    assert (hs + [h])[i] == hs[i];
    CloserFromAppend(hs, h, i + 1, hs[i].level);
  }

  /** The parent of a new header at depth `d` is the last stage below `d`
      that is still open, which is the top of the stack once the stages at
      depth `d` or deeper have been popped. */
  lemma ParentOfNew(stack: seq<nat>, hs: seq<Head>, d: nat, k: nat)
    requires StackOfOpen(stack, hs)
    requires k <= |stack|
    requires forall a :: k <= a < |stack| ==> hs[stack[a]].level >= d
    requires k > 0 ==> hs[stack[k - 1]].level < d
    ensures LastBelow(hs, |hs|, d) == if k > 0 then Some(stack[k - 1]) else None
  {
    var p := LastBelow(hs, |hs|, d);
    LastBelowSpec(hs, |hs|, d);
    if p.Some? {
      var m := p.value;
      CloserFromSpec(hs, m + 1, hs[m].level);
      assert Closer(hs, m).None?;
      var a :| 0 <= a < |stack| && stack[a] == m;
      assert a < k;
      forall b | 0 <= b < k - 1
        ensures stack[b] < stack[k - 1]
      {
        IncreasingBelow(stack, b, k - 1);
      }
    } else {
      assert forall b :: 0 <= b < |stack| ==> hs[stack[b]].level >= d;
    }
  }

  /** The lines of an earlier stage do not change when a header is read. */
  lemma OwnLinesAfterHeader(input: seq<string>, kinds: seq<LineKind>, hs: seq<Head>, line: string, h: Head, i: nat)
    requires |kinds| == |input| && HeadsFit(hs, |input|) && i < |hs|
    requires h.index == |input|
    ensures OwnLines(input + [line], kinds + [Header(h.name, h.level)], hs + [h], i) == OwnLines(input, kinds, hs, i)
  {
    var hs' := hs + [h];
    assert hs'[i] == hs[i];
    var a, e := hs[i].index, SegmentEnd(hs, i, |input|);
    assert SegmentEnd(hs', i, |input| + 1) == e;
    NonBlankInSnoc(input, kinds, line, Header(h.name, h.level), a, e);
  }

  /** A line that is not a header belongs to the newest stage. */
  lemma OwnLinesAfterOther(input: seq<string>, kinds: seq<LineKind>, hs: seq<Head>, line: string, kind: LineKind, i: nat)
    requires |kinds| == |input| && HeadsFit(hs, |input|) && i < |hs|
    requires !kind.Header?
    ensures OwnLines(input + [line], kinds + [kind], hs, i) ==
      OwnLines(input, kinds, hs, i) + (if i + 1 == |hs| && !kind.Blank? then [line] else [])
  {
    if i + 1 < |hs| {
      OwnLinesOfEarlier(input, kinds, hs, line, kind, i);
    } else {
      OwnLinesOfNewest(input, kinds, hs, line, kind);
    }
  }

  /** A stage followed by another header keeps its lines when a line is read. */
  lemma OwnLinesOfEarlier(input: seq<string>, kinds: seq<LineKind>, hs: seq<Head>, line: string, kind: LineKind, i: nat)
    requires |kinds| == |input| && HeadsFit(hs, |input|) && i + 1 < |hs|
    ensures OwnLines(input + [line], kinds + [kind], hs, i) == OwnLines(input, kinds, hs, i)
  {
    NonBlankInSnoc(input, kinds, line, kind, hs[i].index, hs[i + 1].index);
  }

  /** The newest stage gains a line that is not blank. */
  lemma OwnLinesOfNewest(input: seq<string>, kinds: seq<LineKind>, hs: seq<Head>, line: string, kind: LineKind)
    requires |kinds| == |input| && HeadsFit(hs, |input|) && |hs| > 0
    ensures OwnLines(input + [line], kinds + [kind], hs, |hs| - 1) ==
      OwnLines(input, kinds, hs, |hs| - 1) + (if kind.Blank? then [] else [line])
  {
    var a := hs[|hs| - 1].index;
    NonBlankInSnoc(input, kinds, line, kind, a, |input|);
    assert (input + [line])[|input|] == line && (kinds + [kind])[|input|] == kind;
  }

  // ---------------------------------------------------------------------
  // The parser's state between lines

  /** `stack` lists, bottom first, exactly the stages no later header has closed. */
  ghost predicate StackOfOpen(stack: seq<nat>, hs: seq<Head>) {
    Increasing(stack)
    && (forall a :: 0 <= a < |stack| ==> stack[a] < |hs| && Closer(hs, stack[a]).None?)
    && (forall i :: 0 <= i < |hs| && Closer(hs, i).None? ==> i in stack)
  }

  /** Each element of `s` is smaller than the next. */
  ghost predicate Increasing(s: seq<nat>) {
    forall a, b {:trigger s[a], s[b]} :: 0 <= a && b == a + 1 && b < |s| ==> s[a] < s[b]
  }

  /** In an increasing sequence an earlier element is smaller. */
  lemma {:induction false} IncreasingBelow(s: seq<nat>, a: nat, b: nat)
    requires Increasing(s) && a < b < |s|
    ensures s[a] < s[b]
    decreases b - a
  {
    if a + 1 < b {
      IncreasingBelow(s, a + 1, b);
    }
    assert s[a] < s[a + 1];
  }

  /** Keeping the first `k` elements of an increasing sequence and pushing a
      larger one keeps it increasing. */
  lemma PushIncreasing(s: seq<nat>, k: nat, x: nat)
    requires Increasing(s) && k <= |s|
    requires k > 0 ==> s[k - 1] < x
    ensures Increasing(s[..k] + [x])
  {
    var s' := s[..k] + [x];
    forall a, b | 0 <= a && b == a + 1 && b < |s'|
      ensures s'[a] < s'[b]
    {
      if b < k {
        assert s'[a] == s[a] && s'[b] == s[b];
      }
    }
  }

  /** `node` is stage `i` as far as the lines read so far tell: a closed
      stage is final, an open one ends somewhere between its start and the
      last line read. */
  ghost predicate NodeAgrees(node: StepNode, input: seq<string>, kinds: seq<LineKind>, hs: seq<Head>, i: nat)
    requires |kinds| == |input| && i < |hs|
  {
    node.name == hs[i].name && node.level == hs[i].level && node.startLine == hs[i].index + 1
    && node.lines == OwnLines(input, kinds, hs, i)
    && node.children == ChildIds(hs, i, |hs|)
    && match Closer(hs, i)
       case Some(c) => node.endLine == hs[c].index
       case None => node.startLine <= node.endLine <= |input|
  }

  /** The state after reading `input`, whose lines are of kinds `kinds`. */
  ghost predicate Refines(steps: seq<StepNode>, roots: seq<nat>, stack: seq<nat>, input: seq<string>, kinds: seq<LineKind>) {
    var hs := Heads(kinds);
    |kinds| == |input| && |steps| == |hs| && roots == RootIds(hs, |hs|) && StackOfOpen(stack, hs)
    && forall i {:trigger NodeAgrees(steps[i], input, kinds, hs, i)} :: 0 <= i < |hs| ==> NodeAgrees(steps[i], input, kinds, hs, i)
  }

  /** `steps'` is the state after a line that is not a header, read as line
      `n + 1`: a blank line changes nothing; any other line joins the stage
      on top of the stack, which now ends at it, and is dropped when no
      stage is open. */
  ghost predicate Continued(steps: seq<StepNode>, steps': seq<StepNode>, stack: seq<nat>, n: nat, line: string, blank: bool) {
    if blank || |stack| == 0 || stack[|stack| - 1] >= |steps| then steps' == steps
    else
      var top := stack[|stack| - 1];
      steps' == steps[top := steps[top].(lines := steps[top].lines + [line], endLine := n + 1)]
  }

  /** `steps'` is `steps` with every stage on `stack` ending at line `n`. */
  ghost predicate Closed(steps: seq<StepNode>, steps': seq<StepNode>, stack: seq<nat>, n: nat) {
    |steps'| == |steps|
    && forall i :: 0 <= i < |steps| ==> steps'[i] == if i in stack then steps[i].(endLine := n) else steps[i]
  }

  /** `steps'` is the state after a header at depth `d` read as line `n + 1`:
      the stages above position `k` of the stack end at line `n`, the new
      stage becomes a sub-stage of the one left on top (or a top-level
      stage) and is pushed, holding its header line. */
  ghost predicate Opened(steps: seq<StepNode>, steps': seq<StepNode>, stack: seq<nat>, k: nat,
                         n: nat, name: string, d: nat, line: string) {
    k <= |stack| && |steps'| == |steps| + 1
    && steps'[|steps|] == StepNode(name, d, n + 1, n + 1, [line], [])
    && forall i :: 0 <= i < |steps| ==>
         steps'[i] == steps[i].(endLine := if i in stack[k..] then n else steps[i].endLine,
                                children := steps[i].children + (if k > 0 && i == stack[k - 1] then [|steps|] else []))
  }

  /** The depths along the stack increase strictly from bottom to top. */
  lemma StackDeepens(steps: seq<StepNode>, roots: seq<nat>, stack: seq<nat>, input: seq<string>, kinds: seq<LineKind>)
    requires Refines(steps, roots, stack, input, kinds)
    ensures forall a :: 0 <= a < |stack| ==> stack[a] < |steps|
    ensures forall a, b :: 0 <= a < b < |stack| ==> steps[stack[a]].level < steps[stack[b]].level
  {
    var hs := Heads(kinds);
    forall a, b | 0 <= a < b < |stack|
      ensures steps[stack[a]].level < steps[stack[b]].level
    {
      IncreasingBelow(stack, a, b);
      CloserFromSpec(hs, stack[a] + 1, hs[stack[a]].level);
      assert NodeAgrees(steps[stack[a]], input, kinds, hs, stack[a]);
      assert NodeAgrees(steps[stack[b]], input, kinds, hs, stack[b]);
    }
  }

  /** The newest stage is open and so is on top of the stack. */
  lemma TopIsNewest(stack: seq<nat>, hs: seq<Head>)
    requires StackOfOpen(stack, hs) && |hs| > 0
    ensures |stack| > 0 && stack[|stack| - 1] == |hs| - 1
  {
    assert Closer(hs, |hs| - 1).None?;
    var a :| 0 <= a < |stack| && stack[a] == |hs| - 1;
    if a < |stack| - 1 {
      IncreasingBelow(stack, a, |stack| - 1);
    }
  }

  /** Reading a header line keeps the state in step with the specification. */
  lemma OpenStep(steps: seq<StepNode>, roots: seq<nat>, stack: seq<nat>, input: seq<string>, kinds: seq<LineKind>,
                 line: string, name: string, d: nat, k: nat, steps': seq<StepNode>)
    requires Refines(steps, roots, stack, input, kinds)
    requires k <= |stack|
    requires forall a :: k <= a < |stack| ==> steps[stack[a]].level >= d
    requires k > 0 ==> steps[stack[k - 1]].level < d
    requires Opened(steps, steps', stack, k, |input|, name, d, line)
    ensures Refines(steps', if k > 0 then roots else roots + [|steps|],
                    stack[..k] + [|steps|],
                    input + [line], kinds + [Header(name, d)])
  {
    var hs := Heads(kinds);
    var n := |hs|;
    var h := Head(|input|, name, d);
    var hs' := hs + [h];
    var kinds' := kinds + [Header(name, d)];
    HeadsSpec(kinds);
    HeadsAppend(kinds, Header(name, d));
    StackLevels(steps, stack, input, kinds, hs, d, k);
    HeaderShape(stack, hs, h, k);
    NodesAfterOpen(steps, stack, input, kinds, hs, line, name, d, k, steps');
    RefinesIntro(steps', if k > 0 then roots else roots + [|steps|], stack[..k] + [|steps|], input + [line], kinds', hs');
  }

  /** A header at depth `h.level` that leaves `k` stages of the stack in
      place: its parent is the stage left on top, it is top-level exactly
      when none is left, and the open stages are those left plus itself. */
  lemma HeaderShape(stack: seq<nat>, hs: seq<Head>, h: Head, k: nat)
    requires StackOfOpen(stack, hs)
    requires k <= |stack|
    requires forall a :: k <= a < |stack| ==> hs[stack[a]].level >= h.level
    requires k > 0 ==> hs[stack[k - 1]].level < h.level
    ensures ParentOf(hs + [h], |hs|) == if k > 0 then Some(stack[k - 1]) else None
    ensures RootIds(hs + [h], |hs| + 1) == RootIds(hs, |hs|) + (if k > 0 then [] else [|hs|])
    ensures StackOfOpen(stack[..k] + [|hs|], hs + [h])
  {
    var n := |hs|;
    var hs' := hs + [h];
    ParentOfNew(stack, hs, h.level, k);
    LastBelowAppend(hs, h, n, h.level);
    assert hs'[n] == h;
    RootIdsAppend(hs, h, n);
    RootIdsNext(hs', n);
    StackAfterHeader(stack, hs, h, k);
  }

  /** The parts of `Refines`, with the headers given. */
  lemma RefinesIntro(steps: seq<StepNode>, roots: seq<nat>, stack: seq<nat>, input: seq<string>, kinds: seq<LineKind>, hs: seq<Head>)
    requires hs == Heads(kinds) && |kinds| == |input| && |steps| == |hs|
    requires roots == RootIds(hs, |hs|) && StackOfOpen(stack, hs)
    requires forall i {:trigger NodeAgrees(steps[i], input, kinds, hs, i)} :: 0 <= i < |hs| ==> NodeAgrees(steps[i], input, kinds, hs, i)
    ensures Refines(steps, roots, stack, input, kinds)
  {
  }

  /** The depths the parser reads off its stages are those of the headers. */
  lemma StackLevels(steps: seq<StepNode>, stack: seq<nat>, input: seq<string>, kinds: seq<LineKind>, hs: seq<Head>, d: nat, k: nat)
    requires |kinds| == |input| && |steps| == |hs| && StackOfOpen(stack, hs)
    requires forall i {:trigger NodeAgrees(steps[i], input, kinds, hs, i)} :: 0 <= i < |hs| ==> NodeAgrees(steps[i], input, kinds, hs, i)
    requires k <= |stack|
    requires forall a :: k <= a < |stack| ==> steps[stack[a]].level >= d
    requires k > 0 ==> steps[stack[k - 1]].level < d
    ensures forall a :: k <= a < |stack| ==> hs[stack[a]].level >= d
    ensures k > 0 ==> hs[stack[k - 1]].level < d
  {
    forall a | 0 <= a < |stack|
      ensures steps[stack[a]].level == hs[stack[a]].level
    {
      assert NodeAgrees(steps[stack[a]], input, kinds, hs, stack[a]);
    }
  }

  /** The stack after a header at depth `h.level` that leaves `k` stages of
      the old stack in place. */
  lemma StackAfterHeader(stack: seq<nat>, hs: seq<Head>, h: Head, k: nat)
    requires StackOfOpen(stack, hs)
    requires k <= |stack|
    requires forall a :: k <= a < |stack| ==> hs[stack[a]].level >= h.level
    requires k > 0 ==> hs[stack[k - 1]].level < h.level
    ensures StackOfOpen(stack[..k] + [|hs|], hs + [h])
  {
    var hs' := hs + [h];
    forall i | 0 <= i < |hs|
      ensures Closer(hs', i).None? <==> Closer(hs, i).None? && hs[i].level < h.level
    {
      CloserAppend(hs, h, i);
    }
    assert Closer(hs', |hs|).None?;
    StackAfterOpen(stack, hs, hs', h.level, k);
  }

  /** Every stage agrees with the specification after a header line. */
  lemma NodesAfterOpen(steps: seq<StepNode>, stack: seq<nat>, input: seq<string>, kinds: seq<LineKind>, hs: seq<Head>,
                       line: string, name: string, d: nat, k: nat, steps': seq<StepNode>)
    requires |kinds| == |input| && HeadsFit(hs, |input|) && |steps| == |hs|
    requires StackOfOpen(stack, hs)
    requires forall i {:trigger NodeAgrees(steps[i], input, kinds, hs, i)} :: 0 <= i < |hs| ==> NodeAgrees(steps[i], input, kinds, hs, i)
    requires k <= |stack|
    requires forall a :: k <= a < |stack| ==> hs[stack[a]].level >= d
    requires k > 0 ==> hs[stack[k - 1]].level < d
    requires ParentOf(hs + [Head(|input|, name, d)], |hs|) == if k > 0 then Some(stack[k - 1]) else None
    requires Opened(steps, steps', stack, k, |input|, name, d, line)
    ensures forall i {:trigger NodeAgrees(steps'[i], input + [line], kinds + [Header(name, d)], hs + [Head(|input|, name, d)], i)} :: 0 <= i < |hs| + 1 ==>
      NodeAgrees(steps'[i], input + [line], kinds + [Header(name, d)], hs + [Head(|input|, name, d)], i)
  {
    var n := |hs|;
    var hs' := hs + [Head(|input|, name, d)];
    var input', kinds' := input + [line], kinds + [Header(name, d)];
    forall i | 0 <= i < n + 1
      ensures NodeAgrees(steps'[i], input', kinds', hs', i)
    {
      if i == n {
        assert OwnLines(input', kinds', hs', n) == [line] by {
          assert input'[|input|] == line && kinds'[|input|] == Header(name, d);
          assert hs'[n].index == |input| && SegmentEnd(hs', n, |input'|) == |input| + 1;
          assert NonBlankIn(input', kinds', |input|, |input|) == [];
        }
        NoEarlyChildren(hs', n, n + 1);
        assert Closer(hs', n).None?;
      } else {
        ClosedByHeader(stack, hs, d, k, i);
        OldNodeAfterOpen(steps[i], steps'[i], input, kinds, hs, line, name, d, i,
                         i in stack[k..], k > 0 && i == stack[k - 1]);
      }
    }
  }

  /** After a header at depth `d`, the open stages are those of the old stack
      below position `k`, plus the new one. */
  lemma StackAfterOpen(stack: seq<nat>, hs: seq<Head>, hs': seq<Head>, d: nat, k: nat)
    requires StackOfOpen(stack, hs)
    requires |hs'| == |hs| + 1
    requires k <= |stack|
    requires forall a :: k <= a < |stack| ==> hs[stack[a]].level >= d
    requires k > 0 ==> hs[stack[k - 1]].level < d
    requires forall i :: 0 <= i < |hs| ==> (Closer(hs', i).None? <==> Closer(hs, i).None? && hs[i].level < d)
    requires Closer(hs', |hs|).None?
    ensures StackOfOpen(stack[..k] + [|hs|], hs')
  {
    var stack' := stack[..k] + [|hs|];
    PushIncreasing(stack, k, |hs|);
    OpenStagesStay(stack, hs, hs', d, k);
    OpenStagesBelow(stack, hs, hs', d, k);
    assert forall a :: 0 <= a < k ==> stack'[a] == stack[a];
    OpenStagesListed(stack, hs, hs', d, k);
  }

  /** After a header every open stage is on the new stack. */
  lemma OpenStagesListed(stack: seq<nat>, hs: seq<Head>, hs': seq<Head>, d: nat, k: nat)
    requires |hs'| == |hs| + 1 && k <= |stack|
    requires forall i :: 0 <= i < |hs| && Closer(hs', i).None? ==> exists a :: 0 <= a < k && stack[a] == i
    ensures forall i :: 0 <= i < |hs'| && Closer(hs', i).None? ==> i in stack[..k] + [|hs|]
  {
    var stack' := stack[..k] + [|hs|];
    forall i | 0 <= i < |hs'| && Closer(hs', i).None?
      ensures i in stack'
    {
      if i < |hs| {
        var a :| 0 <= a < k && stack[a] == i;
        assert stack'[a] == i;
      } else {
        assert stack'[k] == i;
      }
    }
  }

  /** The stages below position `k` of the stack stay open after a header at
      depth `d`: they are all shallower than `d`. */
  lemma OpenStagesStay(stack: seq<nat>, hs: seq<Head>, hs': seq<Head>, d: nat, k: nat)
    requires StackOfOpen(stack, hs)
    requires |hs'| == |hs| + 1
    requires k <= |stack|
    requires k > 0 ==> hs[stack[k - 1]].level < d
    requires forall i :: 0 <= i < |hs| ==> (Closer(hs', i).None? <==> Closer(hs, i).None? && hs[i].level < d)
    ensures forall a :: 0 <= a < k ==> Closer(hs', stack[a]).None?
  {
    BelowShallower(stack, hs, d, k);
  }

  /** A stage still open after a header at depth `d` lies below position `k`
      of the stack. */
  lemma OpenStagesBelow(stack: seq<nat>, hs: seq<Head>, hs': seq<Head>, d: nat, k: nat)
    requires StackOfOpen(stack, hs)
    requires |hs'| == |hs| + 1
    requires k <= |stack|
    requires forall a :: k <= a < |stack| ==> hs[stack[a]].level >= d
    requires forall i :: 0 <= i < |hs| ==> (Closer(hs', i).None? <==> Closer(hs, i).None? && hs[i].level < d)
    ensures forall i :: 0 <= i < |hs| && Closer(hs', i).None? ==> exists a :: 0 <= a < k && stack[a] == i
  {
    forall i | 0 <= i < |hs| && Closer(hs', i).None?
      ensures exists a :: 0 <= a < k && stack[a] == i
    {
      var a :| 0 <= a < |stack| && stack[a] == i;
      assert hs[i].level < d;
    }
  }

  /** The stages left on the stack by a header at depth `d` are shallower
      than `d`. */
  lemma BelowShallower(stack: seq<nat>, hs: seq<Head>, d: nat, k: nat)
    requires StackOfOpen(stack, hs)
    requires k <= |stack|
    requires k > 0 ==> hs[stack[k - 1]].level < d
    ensures forall b :: 0 <= b < k ==> hs[stack[b]].level < d
  {
    forall b | 0 <= b < k
      ensures hs[stack[b]].level < d
    {
      ShallowerBelow(stack, hs, b, k - 1);
    }
  }

  /** Lower on the stack means shallower. */
  lemma ShallowerBelow(stack: seq<nat>, hs: seq<Head>, a: nat, b: nat)
    requires StackOfOpen(stack, hs)
    requires a <= b < |stack|
    ensures hs[stack[a]].level <= hs[stack[b]].level
  {
    if a < b {
      var c := Closer(hs, stack[a]);
      CloserFromSpec(hs, stack[a] + 1, hs[stack[a]].level);
      IncreasingBelow(stack, a, b);
      assert c.None?;
    }
  }

  /** Exactly the open stages at depth `d` or deeper sit above position `k`
      of the stack. */
  lemma ClosedByHeader(stack: seq<nat>, hs: seq<Head>, d: nat, k: nat, i: nat)
    requires StackOfOpen(stack, hs)
    requires k <= |stack|
    requires forall a :: k <= a < |stack| ==> hs[stack[a]].level >= d
    requires k > 0 ==> hs[stack[k - 1]].level < d
    requires i < |hs|
    ensures i in stack[k..] <==> Closer(hs, i).None? && d <= hs[i].level
  {
    if i in stack[k..] {
      var a :| 0 <= a < |stack[k..]| && stack[k..][a] == i;
      assert stack[k + a] == i;
    }
    if Closer(hs, i).None? && d <= hs[i].level {
      var a :| 0 <= a < |stack| && stack[a] == i;
      BelowShallower(stack, hs, d, k);
      assert a >= k;
      assert stack[k..][a - k] == i;
    }
  }

  /** A stage read before a header still agrees after it, given how the
      header closes it (`closing`) and whether it adopts the new stage. */
  lemma OldNodeAfterOpen(node: StepNode, node': StepNode, input: seq<string>, kinds: seq<LineKind>, hs: seq<Head>,
                         line: string, name: string, d: nat, i: nat, closing: bool, adopting: bool)
    requires |kinds| == |input| && HeadsFit(hs, |input|) && i < |hs|
    requires NodeAgrees(node, input, kinds, hs, i)
    requires node' == node.(endLine := if closing then |input| else node.endLine,
                            children := node.children + (if adopting then [|hs|] else []))
    requires closing <==> Closer(hs, i).None? && d <= hs[i].level
    requires adopting <==> ParentOf(hs + [Head(|input|, name, d)], |hs|) == Some(i)
    ensures NodeAgrees(node', input + [line], kinds + [Header(name, d)], hs + [Head(|input|, name, d)], i)
  {
    var h := Head(|input|, name, d);
    var hs' := hs + [h];
    assert hs'[i] == hs[i];
    EndAfterOpen(node, node', hs, h, i, |input|, closing);
    FieldsAfterOpen(node.lines, node.children, input, kinds, hs, line, h, i, adopting);
  }

  /** The lines and children of an earlier stage after a header: the lines
      stay, the children gain the new stage if it is adopted. */
  lemma FieldsAfterOpen(lines: seq<string>, children: seq<nat>, input: seq<string>, kinds: seq<LineKind>, hs: seq<Head>,
                        line: string, h: Head, i: nat, adopting: bool)
    requires |kinds| == |input| && HeadsFit(hs, |input|) && i < |hs| && h.index == |input|
    requires lines == OwnLines(input, kinds, hs, i) && children == ChildIds(hs, i, |hs|)
    requires adopting <==> ParentOf(hs + [h], |hs|) == Some(i)
    ensures lines == OwnLines(input + [line], kinds + [Header(h.name, h.level)], hs + [h], i)
    ensures children + (if adopting then [|hs|] else []) == ChildIds(hs + [h], i, |hs| + 1)
  {
    OwnLinesAfterHeader(input, kinds, hs, line, h, i);
    ChildIdsAppend(hs, h, i, |hs|);
    ChildIdsNext(hs + [h], i, |hs|);
  }

  /** How a header at depth `h.level` read as line `n + 1` decides where an
      earlier stage ends. */
  lemma EndAfterOpen(node: StepNode, node': StepNode, hs: seq<Head>, h: Head, i: nat, n: nat, closing: bool)
    requires i < |hs| && h.index == n
    requires match Closer(hs, i)
             case Some(c) => node.endLine == hs[c].index
             case None => node.startLine <= node.endLine <= n
    requires node'.startLine == node.startLine && node'.endLine == if closing then n else node.endLine
    requires closing <==> Closer(hs, i).None? && h.level <= hs[i].level
    requires node.startLine <= n
    ensures match Closer(hs + [h], i)
            case Some(c) => node'.endLine == (hs + [h])[c].index
            case None => node'.startLine <= node'.endLine <= n + 1
  {
    CloserAppend(hs, h, i);
    if Closer(hs, i).Some? {
      assert (hs + [h])[Closer(hs, i).value] == hs[Closer(hs, i).value];
    } else if closing {
      assert (hs + [h])[|hs|] == h;
    }
  }

  /** Reading a line that is not a header keeps the state in step with the
      specification. */
  lemma OtherStep(steps: seq<StepNode>, roots: seq<nat>, stack: seq<nat>, input: seq<string>, kinds: seq<LineKind>,
                  line: string, kind: LineKind, steps': seq<StepNode>)
    requires Refines(steps, roots, stack, input, kinds)
    requires !kind.Header?
    requires Continued(steps, steps', stack, |input|, line, kind.Blank?)
    ensures Refines(steps', roots, stack, input + [line], kinds + [kind])
  {
    var hs := Heads(kinds);
    HeadsSpec(kinds);
    HeadsAppend(kinds, kind);
    if |hs| > 0 {
      TopIsNewest(stack, hs);
    }
    forall i | 0 <= i < |hs|
      ensures NodeAgrees(steps'[i], input + [line], kinds + [kind], hs, i)
    {
      OtherNodeStep(steps[i], steps'[i], input, kinds, hs, line, kind, i);
    }
    RefinesIntro(steps', roots, stack, input + [line], kinds + [kind], hs);
  }

  /** A stage still agrees after a line that is not a header; only the
      newest stage gains a line that is not blank, and ends at it. */
  lemma OtherNodeStep(node: StepNode, node': StepNode, input: seq<string>, kinds: seq<LineKind>, hs: seq<Head>,
                      line: string, kind: LineKind, i: nat)
    requires |kinds| == |input| && HeadsFit(hs, |input|) && i < |hs| && !kind.Header?
    requires NodeAgrees(node, input, kinds, hs, i)
    requires node' == if i + 1 == |hs| && !kind.Blank? then node.(lines := node.lines + [line], endLine := |input| + 1) else node
    ensures NodeAgrees(node', input + [line], kinds + [kind], hs, i)
  {
    OwnLinesAfterOther(input, kinds, hs, line, kind, i);
    if i + 1 == |hs| {
      assert Closer(hs, i).None?;
    }
  }

  /** Once every line is read, closing the open stages at the last line
      gives the specification's stages. */
  lemma FinishStep(steps: seq<StepNode>, roots: seq<nat>, stack: seq<nat>, input: seq<string>, config: Config,
                   steps': seq<StepNode>)
    requires Refines(steps, roots, stack, input, Kinds(input, config))
    requires Closed(steps, steps', stack, |input|)
    ensures steps' == SpecArena(input, config) && roots == SpecRoots(input, config)
  {
    var kinds := Kinds(input, config);
    var hs := Heads(kinds);
    forall i | 0 <= i < |hs|
      ensures steps'[i] == SpecNode(input, kinds, hs, i)
    {
      assert NodeAgrees(steps[i], input, kinds, hs, i);
    }
  }

  /** How many stages stay on the stack when a header at depth `d` is read:
      the stages at depth `d` or deeper are popped from the top. */
  function KeptOnStack(steps: seq<StepNode>, stack: seq<nat>, d: nat): (k: nat)
    ensures k <= |stack|
    decreases |stack|
  {
    if |stack| > 0 && stack[|stack| - 1] < |steps| && steps[stack[|stack| - 1]].level >= d
    then KeptOnStack(steps, stack[..|stack| - 1], d)
    else |stack|
  }

  /** The stages popped for a header at depth `d` are at depth `d` or deeper,
      and the one left on top is shallower. */
  lemma {:induction false} KeptOnStackSpec(steps: seq<StepNode>, stack: seq<nat>, d: nat)
    requires forall a :: 0 <= a < |stack| ==> stack[a] < |steps|
    ensures var k := KeptOnStack(steps, stack, d);
      (forall a :: k <= a < |stack| ==> steps[stack[a]].level >= d)
      && (k > 0 ==> steps[stack[k - 1]].level < d)
    decreases |stack|
  {
    if |stack| > 0 && steps[stack[|stack| - 1]].level >= d {
      var s := stack[..|stack| - 1];
      KeptOnStackSpec(steps, s, d);
      assert forall a :: 0 <= a < |s| ==> stack[a] == s[a];
    }
  }

  /** Popping from the top exactly the stages at depth `d` or deeper keeps
      `KeptOnStack` of them. */
  lemma {:induction false} KeptOnStackOf(steps: seq<StepNode>, stack: seq<nat>, d: nat, k: nat)
    requires k <= |stack| && forall a :: 0 <= a < |stack| ==> stack[a] < |steps|
    requires forall a :: k <= a < |stack| ==> steps[stack[a]].level >= d
    requires k > 0 ==> steps[stack[k - 1]].level < d
    ensures KeptOnStack(steps, stack, d) == k
    decreases |stack|
  {
    if k < |stack| {
      var s := stack[..|stack| - 1];
      assert forall a :: 0 <= a < |s| ==> s[a] == stack[a];
      KeptOnStackOf(steps, s, d, k);
    }
  }

  /** Nothing is kept on the stack at depth 0: every stage is popped. */
  lemma KeptNoneAtZero(steps: seq<StepNode>, stack: seq<nat>)
    requires forall a :: 0 <= a < |stack| ==> stack[a] < |steps|
    ensures KeptOnStack(steps, stack, 0) == 0
  {
    KeptOnStackSpec(steps, stack, 0);
  }

  /** `steps'` is `steps` with the stages on `stack` from position `m` up
      ending at line `n`. */
  ghost predicate ClosedFrom(steps: seq<StepNode>, steps': seq<StepNode>, stack: seq<nat>, m: nat, n: nat) {
    m <= |stack| && |steps'| == |steps|
    && forall i :: 0 <= i < |steps| ==>
         steps'[i] == if i in stack[m..] then steps[i].(endLine := n) else steps[i]
  }

  /** Closing stages changes no depth. */
  lemma ClosedKeepsLevel(steps: seq<StepNode>, steps': seq<StepNode>, stack: seq<nat>, m: nat, n: nat, i: nat)
    requires ClosedFrom(steps, steps', stack, m, n) && i < |steps|
    ensures steps'[i].level == steps[i].level
  {
  }

  /** Popping one more stage of an increasing stack ends it too. */
  lemma CloseOneMore(steps: seq<StepNode>, steps': seq<StepNode>, stack: seq<nat>, m: nat, n: nat)
    requires ClosedFrom(steps, steps', stack, m, n) && Increasing(stack)
    requires 0 < m && stack[m - 1] < |steps|
    ensures var top := stack[m - 1];
      ClosedFrom(steps, steps'[top := steps'[top].(endLine := n)], stack, m - 1, n)
  {
    var top := stack[m - 1];
    forall b | m <= b < |stack|
      ensures stack[b] != top
    {
      IncreasingBelow(stack, m - 1, b);
    }
    assert stack[m - 1..] == [top] + stack[m..];
  }

  /** Closing the stages above position `k` of the stack, adopting the new
      stage into the one left on top and appending it is `Opened`. */
  lemma OpenedIntro(steps: seq<StepNode>, closed: seq<StepNode>, steps': seq<StepNode>, stack: seq<nat>, k: nat,
                    n: nat, name: string, d: nat, line: string)
    requires ClosedFrom(steps, closed, stack, k, n) && Increasing(stack)
    requires forall a :: 0 <= a < |stack| ==> stack[a] < |steps|
    requires k <= |stack|
    requires k > 0 ==> var p := stack[k - 1];
      steps' == closed[p := closed[p].(children := closed[p].children + [|steps|])] + [StepNode(name, d, n + 1, n + 1, [line], [])]
    requires k == 0 ==> steps' == closed + [StepNode(name, d, n + 1, n + 1, [line], [])]
    ensures Opened(steps, steps', stack, k, n, name, d, line)
  {
    if k > 0 {
      var p := stack[k - 1];
      forall b | k <= b < |stack|
        ensures stack[b] != p
      {
        IncreasingBelow(stack, k - 1, b);
      }
      assert p !in stack[k..];
    }
  }

  /** A header line read in a state that agrees with the specification
      leads to one that agrees too. */
  lemma HeaderRead(steps: seq<StepNode>, roots: seq<nat>, stack: seq<nat>, input: seq<string>, kinds: seq<LineKind>,
                   line: string, name: string, d: nat, k: nat, steps': seq<StepNode>)
    requires Refines(steps, roots, stack, input, kinds)
    requires k == KeptOnStack(steps, stack, d)
    requires Opened(steps, steps', stack, k, |input|, name, d, line)
    ensures Refines(steps', if k > 0 then roots else roots + [|steps|], stack[..k] + [|steps|],
                    input + [line], kinds + [Header(name, d)])
  {
    StackInArena(steps, roots, stack, input, kinds);
    KeptOnStackSpec(steps, stack, d);
    OpenStep(steps, roots, stack, input, kinds, line, name, d, k, steps');
  }

  /** The stack lists positions of the array, increasing. */
  lemma StackInArena(steps: seq<StepNode>, roots: seq<nat>, stack: seq<nat>, input: seq<string>, kinds: seq<LineKind>)
    requires Refines(steps, roots, stack, input, kinds)
    ensures Increasing(stack) && forall a :: 0 <= a < |stack| ==> stack[a] < |steps|
  {
  }

  /** `kinds` are the kinds of the lines of `input`. */
  ghost predicate KindsOf(kinds: seq<LineKind>, input: seq<string>, config: Config) {
    |kinds| == |input| && forall j {:trigger Kind(input[j], config)} :: 0 <= j < |input| ==> kinds[j] == Kind(input[j], config)
  }

  /** The kind of one more line extends the kinds. */
  lemma KindsOfAppend(kinds: seq<LineKind>, input: seq<string>, config: Config, line: string)
    requires KindsOf(kinds, input, config)
    ensures KindsOf(kinds + [Kind(line, config)], input + [line], config)
  {
    var input' := input + [line];
    forall j | 0 <= j < |input'|
      ensures (kinds + [Kind(line, config)])[j] == Kind(input'[j], config)
    {
      if j < |input| {
        assert input'[j] == input[j];
      }
    }
  }

  /** `KindsOf` pins the kinds down. */
  lemma KindsOfAll(kinds: seq<LineKind>, input: seq<string>, config: Config)
    requires KindsOf(kinds, input, config)
    ensures kinds == Kinds(input, config)
  {
    forall j | 0 <= j < |input|
      ensures kinds[j] == Kinds(input, config)[j]
    {
      assert kinds[j] == Kind(input[j], config);
    }
  }

  /** The parser's state after reading `input`. */
  ghost predicate Parsed(steps: seq<StepNode>, roots: seq<nat>, stack: seq<nat>, lineNumber: nat,
                         input: seq<string>, kinds: seq<LineKind>, config: Config) {
    lineNumber == |input| && KindsOf(kinds, input, config) && Refines(steps, roots, stack, input, kinds)
  }

  /** Reading a header keeps the parser's state. */
  lemma ParsedHeader(steps: seq<StepNode>, roots: seq<nat>, stack: seq<nat>, input: seq<string>, kinds: seq<LineKind>, config: Config,
                     line: string, name: string, d: nat, k: nat, steps': seq<StepNode>)
    requires Parsed(steps, roots, stack, |input|, input, kinds, config)
    requires Kind(line, config) == Header(name, d)
    requires k == KeptOnStack(steps, stack, d)
    requires Opened(steps, steps', stack, k, |input|, name, d, line)
    ensures Parsed(steps', if k > 0 then roots else roots + [|steps|], stack[..k] + [|steps|], |input| + 1,
                   input + [line], kinds + [Kind(line, config)], config)
  {
    HeaderRead(steps, roots, stack, input, kinds, line, name, d, k, steps');
    KindsOfAppend(kinds, input, config, line);
  }

  /** Reading a line that is not a header keeps the parser's state. */
  lemma ParsedOther(steps: seq<StepNode>, roots: seq<nat>, stack: seq<nat>, input: seq<string>, kinds: seq<LineKind>, config: Config,
                    line: string, steps': seq<StepNode>)
    requires Parsed(steps, roots, stack, |input|, input, kinds, config)
    requires !Kind(line, config).Header?
    requires Continued(steps, steps', stack, |input|, line, Kind(line, config).Blank?)
    ensures Parsed(steps', roots, stack, |input| + 1, input + [line], kinds + [Kind(line, config)], config)
  {
    OtherStep(steps, roots, stack, input, kinds, line, Kind(line, config), steps');
    KindsOfAppend(kinds, input, config, line);
  }

  /** Reads a header line as line `n + 1`: pops the stages it closes, then
      opens its stage under the one left on top, or as a top-level stage. */
  method ReadHeader(steps: seq<StepNode>, roots: seq<nat>, stack: seq<nat>, n: nat,
                    ghost input: seq<string>, ghost kinds: seq<LineKind>, config: Config,
                    line: string, name: string, d: nat)
    returns (steps': seq<StepNode>, roots': seq<nat>, stack': seq<nat>)
    requires Parsed(steps, roots, stack, n, input, kinds, config) && Kind(line, config) == Header(name, d)
    ensures Parsed(steps', roots', stack', n + 1, input + [line], kinds + [Kind(line, config)], config)
    ensures var k := KeptOnStack(steps, stack, d);
      Opened(steps, steps', stack, k, n, name, d, line)
      && stack' == stack[..k] + [|steps|]
      && roots' == if k > 0 then roots else roots + [|steps|]
  {
    StackInArena(steps, roots, stack, input, kinds);
    var closed, kept := CloseDeeper(steps, stack, d, n);
    steps', roots' := closed, roots;
    var k, id := |kept|, |steps|;
    if k > 0 {
      var p := kept[k - 1];
      steps' := steps'[p := steps'[p].(children := steps'[p].children + [id])];
    } else {
      roots' := roots' + [id];
    }
    steps' := steps' + [StepNode(name, d, n + 1, n + 1, [line], [])];
    stack' := kept + [id];
    OpenedIntro(steps, closed, steps', stack, k, n, name, d, line);
    ParsedHeader(steps, roots, stack, input, kinds, config, line, name, d, k, steps');
  }

  /** Reads a line that is not a header as line `n + 1`: a line that is not
      blank joins the stage on top of the stack, which now ends at it. */
  method ReadOther(steps: seq<StepNode>, roots: seq<nat>, stack: seq<nat>, n: nat,
                   ghost input: seq<string>, ghost kinds: seq<LineKind>, config: Config,
                   line: string, kind: LineKind)
    returns (steps': seq<StepNode>)
    requires Parsed(steps, roots, stack, n, input, kinds, config) && kind == Kind(line, config) && !kind.Header?
    ensures Parsed(steps', roots, stack, n + 1, input + [line], kinds + [kind], config)
    ensures Continued(steps, steps', stack, n, line, kind.Blank?)
  {
    steps' := steps;
    if kind.Content? && |stack| > 0 {
      StackInArena(steps, roots, stack, input, kinds);
      var top := stack[|stack| - 1];
      steps' := steps'[top := steps'[top].(lines := steps'[top].lines + [line], endLine := n + 1)];
    }
    ParsedOther(steps, roots, stack, input, kinds, config, line, steps');
  }

  /** Pops the stages at depth `d` or deeper off `stack`, each ending at
      line `n`: the line before the one being read. */
  method CloseDeeper(steps: seq<StepNode>, stack: seq<nat>, d: nat, n: nat) returns (steps': seq<StepNode>, stack': seq<nat>)
    requires Increasing(stack) && forall a :: 0 <= a < |stack| ==> stack[a] < |steps|
    ensures |stack'| == KeptOnStack(steps, stack, d) && stack' == stack[..|stack'|]
    ensures ClosedFrom(steps, steps', stack, |stack'|, n)
  {
    steps', stack' := steps, stack;
    while |stack'| > 0 && steps'[stack'[|stack'| - 1]].level >= d
      invariant |stack'| <= |stack| && stack' == stack[..|stack'|]
      invariant forall a :: |stack'| <= a < |stack| ==> steps[stack[a]].level >= d
      invariant ClosedFrom(steps, steps', stack, |stack'|, n)
      decreases |stack'|
    {
      var m := |stack'|;
      var top := stack'[m - 1];
      assert top == stack[m - 1];
      ClosedKeepsLevel(steps, steps', stack, m, n, top);
      CloseOneMore(steps, steps', stack, m, n);
      steps' := steps'[top := steps'[top].(endLine := n)];
      stack' := stack'[..m - 1];
      assert stack' == stack[..m - 1];
    }
    KeptOnStackOf(steps, stack, d, |stack'|);
  }

  /** `parse_log`: reads `lines` one at a time, opening a stage at each
      header and closing the stages it ends, then closes the stages still
      open at the last line; returns the top-level stages. Its state:
      `steps` holds every stage read so far by position of its header,
      `roots` the top-level stages and `stack` the open stages, bottom
      first. */
  method ParseLog(lines: seq<string>, config: Config) returns (forest: seq<BuildStep>)
    ensures forest == SpecForest(lines, config)
  {
    var steps, roots, stack, n := [], [], [], 0;
    ghost var kinds := [];
    while n < |lines|
      invariant n <= |lines| && Parsed(steps, roots, stack, n, lines[..n], kinds, config)
    {
      var line := lines[n];
      var kind := Kind(line, config);
      assert lines[..n + 1] == lines[..n] + [line];
      match kind {
        case Header(name, d) =>
          steps, roots, stack := ReadHeader(steps, roots, stack, n, lines[..n], kinds, config, line, name, d);
        case _ =>
          steps := ReadOther(steps, roots, stack, n, lines[..n], kinds, config, line, kind);
      }
      kinds := kinds + [kind];
      n := n + 1;
    }
    assert lines[..n] == lines;
    KeptNoneAtZero(steps, stack);
    StackInArena(steps, roots, stack, lines, kinds);
    var closed, kept := CloseDeeper(steps, stack, 0, n);
    assert stack[0..] == stack;
    KindsOfAll(kinds, lines, config);
    FinishStep(steps, roots, stack, lines, config, closed);
    SpecArenaOk(lines, config);
    forest := TreesOf(closed, roots, 0);
  }

  // ---------------------------------------------------------------------
  // Selecting the target stages

  /** A target step selects a stage whose name equals its name or holds its pattern. */
  predicate Selects(t: TargetStep, step: BuildStep) {
    t.name == step.name || Contains(step.name, t.pattern)
  }

  /** Some target step selects `step`. */
  predicate IsTarget(step: BuildStep, targets: seq<TargetStep>) {
    exists t :: t in targets && Selects(t, step)
  }

  /** Some target step has the pattern `*`. */
  predicate SelectsAll(targets: seq<TargetStep>) {
    exists t :: t in targets && t.pattern == "*"
  }

  /** `extract_target_steps`: every stage when a target's pattern is `*`;
      otherwise, in order, each selected stage with its whole subtree, and
      for each other stage what its sub-stages yield. */
  function ExtractTargetSteps(steps: seq<BuildStep>, config: Config): seq<BuildStep>
    decreases steps, 1
  {
    if SelectsAll(config.targetSteps) then steps else ExtractEach(steps, config)
  }

  /** The loop of `extract_target_steps` over `steps`. */
  function ExtractEach(steps: seq<BuildStep>, config: Config): (r: seq<BuildStep>)
    decreases steps, 0
  {
    if |steps| == 0 then []
    else
      (if IsTarget(steps[0], config.targetSteps) then [steps[0]] else ExtractTargetSteps(steps[0].children, config))
      + ExtractEach(steps[1..], config)
  }

  /** `x` is a stage of the forest `steps` that is reached from the top
      through stages no target step selects. */
  predicate Exposed(x: BuildStep, steps: seq<BuildStep>, targets: seq<TargetStep>)
    decreases steps
  {
    exists i :: 0 <= i < |steps| && (steps[i] == x || (!IsTarget(steps[i], targets) && Exposed(x, steps[i].children, targets)))
  }

  /** A `*` pattern selects the whole forest as it is. */
  lemma ExtractWildcard(steps: seq<BuildStep>, config: Config)
    requires SelectsAll(config.targetSteps)
    ensures ExtractTargetSteps(steps, config) == steps
  {
  }

  /** Without a `*` pattern, the selected stages are exactly the targets
      reached from the top through stages that are not targets. */
  lemma {:induction false} ExtractExposed(steps: seq<BuildStep>, config: Config, x: BuildStep)
    requires !SelectsAll(config.targetSteps)
    ensures x in ExtractTargetSteps(steps, config) <==> IsTarget(x, config.targetSteps) && Exposed(x, steps, config.targetSteps)
    decreases steps
  {
    var targets := config.targetSteps;
    if |steps| > 0 {
      var head := steps[0];
      ExtractExposed(head.children, config, x);
      ExtractExposed(steps[1..], config, x);
      assert ExtractTargetSteps(steps, config) ==
        (if IsTarget(head, targets) then [head] else ExtractTargetSteps(head.children, config)) + ExtractTargetSteps(steps[1..], config);
      ExposedCons(x, steps, targets);
    }
  }

  /** `x` is exposed in a nonempty forest when it is exposed through its
      first stage or in the rest. */
  lemma ExposedCons(x: BuildStep, steps: seq<BuildStep>, targets: seq<TargetStep>)
    requires |steps| > 0
    ensures Exposed(x, steps, targets) <==>
      steps[0] == x || (!IsTarget(steps[0], targets) && Exposed(x, steps[0].children, targets)) || Exposed(x, steps[1..], targets)
  {
    if Exposed(x, steps[1..], targets) {
      var i :| 0 <= i < |steps[1..]| && (steps[1..][i] == x || (!IsTarget(steps[1..][i], targets) && Exposed(x, steps[1..][i].children, targets)));
      assert steps[i + 1] == steps[1..][i];
    }
    if Exposed(x, steps, targets) {
      var i :| 0 <= i < |steps| && (steps[i] == x || (!IsTarget(steps[i], targets) && Exposed(x, steps[i].children, targets)));
      if i > 0 {
        assert steps[1..][i - 1] == steps[i];
      }
    }
  }

  /** The stages of the forest `steps` in pre-order, not descending below a
      stage that a target step selects. */
  function ExposedWalk(steps: seq<BuildStep>, targets: seq<TargetStep>): (w: seq<BuildStep>)
    ensures |steps| > 0 ==> |w| > 0 && w[0] == steps[0]
    decreases steps
  {
    if |steps| == 0 then []
    else
      [steps[0]] + (if IsTarget(steps[0], targets) then [] else ExposedWalk(steps[0].children, targets))
      + ExposedWalk(steps[1..], targets)
  }

  /** The walk visits exactly the exposed stages. */
  lemma {:induction false} ExposedWalkMembers(steps: seq<BuildStep>, targets: seq<TargetStep>, x: BuildStep)
    ensures x in ExposedWalk(steps, targets) <==> Exposed(x, steps, targets)
    decreases steps
  {
    if |steps| > 0 {
      var head := steps[0];
      ExposedWalkMembers(head.children, targets, x);
      ExposedWalkMembers(steps[1..], targets, x);
      ExposedCons(x, steps, targets);
    }
  }

  /** The stages of `w` that a target step selects, in order. */
  function TargetsIn(w: seq<BuildStep>, targets: seq<TargetStep>): (r: seq<BuildStep>)
    ensures |r| <= |w|
  {
    if |w| == 0 then []
    else (if IsTarget(w[0], targets) then [w[0]] else []) + TargetsIn(w[1..], targets)
  }

  /** The filter keeps exactly the stages of `w` that are targets. */
  lemma {:induction false} TargetsInMembers(w: seq<BuildStep>, targets: seq<TargetStep>, x: BuildStep)
    ensures x in TargetsIn(w, targets) <==> x in w && IsTarget(x, targets)
  {
    if |w| > 0 {
      TargetsInMembers(w[1..], targets, x);
      assert w == [w[0]] + w[1..];
    }
  }

  /** Filtering a concatenation filters each part. */
  lemma {:induction false} TargetsInAppend(a: seq<BuildStep>, b: seq<BuildStep>, targets: seq<TargetStep>)
    ensures TargetsIn(a + b, targets) == TargetsIn(a, targets) + TargetsIn(b, targets)
  {
    if |a| == 0 {
      assert a + b == b;
    } else {
      var keep := if IsTarget(a[0], targets) then [a[0]] else [];
      TargetsInAppend(a[1..], b, targets);
      assert (a + b)[0] == a[0] && (a + b)[1..] == a[1..] + b;
      assert TargetsIn(a + b, targets) == keep + TargetsIn(a[1..] + b, targets);
      assert TargetsIn(a, targets) == keep + TargetsIn(a[1..], targets);
    }
  }

  /** Without a `*` pattern, the selection is the pre-order walk that stops at
      targets, keeping the targets: the same stages, in the same order, with
      the same repetitions. */
  lemma {:induction false} ExtractInOrder(steps: seq<BuildStep>, config: Config)
    requires !SelectsAll(config.targetSteps)
    ensures ExtractTargetSteps(steps, config) == TargetsIn(ExposedWalk(steps, config.targetSteps), config.targetSteps)
    decreases steps
  {
    var targets := config.targetSteps;
    if |steps| > 0 {
      var head := steps[0];
      var below := if IsTarget(head, targets) then [] else ExposedWalk(head.children, targets);
      ExtractInOrder(steps[1..], config);
      if !IsTarget(head, targets) {
        ExtractInOrder(head.children, config);
      }
      TargetsInAppend([head] + below, ExposedWalk(steps[1..], targets), targets);
      TargetsInAppend([head], below, targets);
      assert [head][1..] == [];
      assert ExtractTargetSteps(steps, config) ==
        (if IsTarget(head, targets) then [head] else ExtractTargetSteps(head.children, config)) + ExtractTargetSteps(steps[1..], config);
    }
  }

  /** Every selected stage is a target, whole: selecting again changes nothing. */
  lemma {:induction false} ExtractIdempotent(steps: seq<BuildStep>, config: Config)
    ensures ExtractTargetSteps(ExtractTargetSteps(steps, config), config) == ExtractTargetSteps(steps, config)
  {
    if !SelectsAll(config.targetSteps) {
      var r := ExtractTargetSteps(steps, config);
      forall x | x in r
        ensures IsTarget(x, config.targetSteps)
      {
        ExtractExposed(steps, config, x);
      }
      AllTargetsKept(r, config);
    }
  }

  /** A forest of targets is selected as it is. */
  lemma {:induction false} AllTargetsKept(steps: seq<BuildStep>, config: Config)
    requires !SelectsAll(config.targetSteps)
    requires forall x :: x in steps ==> IsTarget(x, config.targetSteps)
    ensures ExtractTargetSteps(steps, config) == steps
    decreases |steps|
  {
    if |steps| > 0 {
      assert steps[0] in steps;
      AllTargetsKept(steps[1..], config);
      assert [steps[0]] + steps[1..] == steps;
    }
  }
}

=== FILE: reporter.dfy ===
/** The text helpers of the report: ANSI colouring and the word wrap of a
    record's display text. */
module Reporter {
  import opened Wrappers
  import opened Strings
  import opened Extractor

  // ---------------------------------------------------------------------
  // colorize

  /** The escape character that starts every ANSI code. */
  const Esc: char := '\U{1B}'

  const Green: string := [Esc] + "[92m"
  const Red: string := [Esc] + "[91m"
  const Gray: string := [Esc] + "[90m"
  const Reset: string := [Esc] + "[0m"
  const Bold: string := [Esc] + "[1m"

  /** `colorize`: the text unchanged when colours are off, else wrapped in
      the colour code and the reset code. */
  function Colorize(text: string, color: string, useColors: bool): (r: string)
    ensures !useColors ==> r == text
    ensures useColors ==> StartsWith(r, color) && EndsWith(r, Reset)
                          && |r| == |color| + |text| + |Reset| && r[|color|..|r| - |Reset|] == text
  {
    if !useColors then text else color + text + Reset
  }

  /** The documented examples of `colorize`. */
  lemma ColorizeDocExample()
    ensures Colorize("test", Green, true) == [Esc] + "[92mtest" + [Esc] + "[0m"
    ensures Colorize("test", Green, false) == "test"
  {
  }

  // ---------------------------------------------------------------------
  // format_warning_text: the greedy word wrap

  /** The words of a list of lines, in order. */
  function Flatten(groups: seq<seq<string>>): seq<string> {
    if |groups| == 0 then [] else Flatten(groups[..|groups| - 1]) + groups[|groups| - 1]
  }

  /** Each group joined by single spaces. */
  function JoinAll(groups: seq<seq<string>>): (lines: seq<string>)
    ensures |lines| == |groups| && forall k :: 0 <= k < |groups| ==> lines[k] == Join(groups[k], " ")
  {
    seq(|groups|, k requires 0 <= k < |groups| => Join(groups[k], " "))
  }

  /** The state of the wrapping loop after `words`: the finished lines and
      the current line, each as its list of words. A word goes onto the
      current line when that line is empty or has room for a space and the
      word within `avail`; otherwise the current line is finished and the
      word starts the next. */
  function WrapState(words: seq<string>, avail: int): (seq<seq<string>>, seq<string>) {
    if |words| == 0 then ([], [])
    else
      var (done, current) := WrapState(words[..|words| - 1], avail);
      var w := words[|words| - 1];
      if current == [] then (done, [w])
      else if |Join(current, " ")| + 1 + |w| <= avail then (done, current + [w])
      else (done + [current], [w])
  }

  /** The lines of the wrap, each as its list of words. */
  function WrapGroups(words: seq<string>, avail: int): seq<seq<string>> {
    var (done, current) := WrapState(words, avail);
    if current == [] then done else done + [current]
  }

  /** The lines the greedy wrap of `words` within `avail` produces. */
  function Wrap(words: seq<string>, avail: int): seq<string> {
    JoinAll(WrapGroups(words, avail))
  }

  /** What a greedy wrap promises about its lines, given as word lists: they
      hold the words in order, none is empty, each fits within `avail` or
      holds a single word, and the first word of each line would not have
      fitted on the line before it. */
  predicate GreedyGroups(words: seq<string>, avail: int, groups: seq<seq<string>>) {
    Flatten(groups) == words
    && (forall k :: 0 <= k < |groups| ==> |groups[k]| > 0)
    && (forall k :: 0 <= k < |groups| ==> |Join(groups[k], " ")| <= avail || |groups[k]| == 1)
    && (forall k :: 0 <= k < |groups| - 1 && |groups[k + 1]| > 0 ==>
          |Join(groups[k], " ")| + 1 + |groups[k + 1][0]| > avail)
  }

  /** What holds of the loop's state after `words`. */
  predicate StateOk(words: seq<string>, avail: int, done: seq<seq<string>>, current: seq<string>) {
    (current == [] <==> |words| == 0)
    && (|words| == 0 ==> done == [])
    && GreedyGroups(words, avail, if current == [] then done else done + [current])
  }

  lemma JoinNonEmpty(g: seq<string>)
    requires |g| > 0 && g[0] != []
    ensures |Join(g, " ")| >= |g[0]| > 0
  {
  }

  /** The first word starts the first line. */
  lemma StartOk(w: string, avail: int)
    requires w != []
    ensures StateOk([w], avail, [], [w])
  {
    assert [[w]][..0] == [];
    assert Flatten([[w]]) == [w];
  }

  /** A word that fits goes onto the current line. */
  lemma ExtendOk(words: seq<string>, w: string, avail: int, done: seq<seq<string>>, current: seq<string>)
    requires StateOk(words, avail, done, current) && current != []
    requires |Join(current, " ")| + 1 + |w| <= avail
    ensures StateOk(words + [w], avail, done, current + [w])
  {
    var gs, gs' := done + [current], done + [current + [w]];
    assert gs'[..|gs'| - 1] == done == gs[..|gs| - 1];
    JoinSnoc(current, w, " ");
    GreedyGrow(words, w, avail, gs, gs');
  }

  /** Appending a word to the last line, where it fits, keeps the promises. */
  lemma GreedyGrow(words: seq<string>, w: string, avail: int, gs: seq<seq<string>>, gs': seq<seq<string>>)
    requires GreedyGroups(words, avail, gs) && |gs| > 0
    requires |gs'| == |gs| && gs'[..|gs| - 1] == gs[..|gs| - 1] && gs'[|gs| - 1] == gs[|gs| - 1] + [w]
    requires |Join(gs'[|gs| - 1], " ")| <= avail
    ensures GreedyGroups(words + [w], avail, gs')
  {
    var n := |gs| - 1;
    assert Flatten(gs') == Flatten(gs) + [w] by {
      assert Flatten(gs') == Flatten(gs[..n]) + (gs[n] + [w]);
    }
    GrowLast(gs, gs', avail);
  }

  /** Replacing the last line by one with the same first word that fits
      within `avail` keeps the promises on widths and breaks. */
  lemma GrowLast(gs: seq<seq<string>>, gs': seq<seq<string>>, avail: int)
    requires |gs| == |gs'| > 0 && gs[..|gs| - 1] == gs'[..|gs'| - 1]
    requires |gs[|gs| - 1]| > 0 && |gs'[|gs'| - 1]| > 0 && gs'[|gs'| - 1][0] == gs[|gs| - 1][0]
    requires |Join(gs'[|gs'| - 1], " ")| <= avail
    requires forall k :: 0 <= k < |gs| ==> |gs[k]| > 0
    requires forall k :: 0 <= k < |gs| ==> |Join(gs[k], " ")| <= avail || |gs[k]| == 1
    requires forall k :: 0 <= k < |gs| - 1 && |gs[k + 1]| > 0 ==> |Join(gs[k], " ")| + 1 + |gs[k + 1][0]| > avail
    ensures forall k :: 0 <= k < |gs'| ==> |gs'[k]| > 0
    ensures forall k :: 0 <= k < |gs'| ==> |Join(gs'[k], " ")| <= avail || |gs'[k]| == 1
    ensures forall k :: 0 <= k < |gs'| - 1 && |gs'[k + 1]| > 0 ==> |Join(gs'[k], " ")| + 1 + |gs'[k + 1][0]| > avail
  {
    var n := |gs| - 1;
    forall k | 0 <= k < n ensures gs'[k] == gs[k] {
      assert gs'[k] == gs'[..n][k] == gs[..n][k] == gs[k];
    }
    forall k | 0 <= k < |gs'| - 1 && |gs'[k + 1]| > 0
      ensures |Join(gs'[k], " ")| + 1 + |gs'[k + 1][0]| > avail
    {
      if k + 1 < n {
        assert gs'[k + 1] == gs[k + 1];
      }
    }
  }

  /** A word that does not fit finishes the current line and starts the next. */
  lemma BreakOk(words: seq<string>, w: string, avail: int, done: seq<seq<string>>, current: seq<string>)
    requires StateOk(words, avail, done, current) && current != [] && w != []
    requires |Join(current, " ")| + 1 + |w| > avail
    ensures StateOk(words + [w], avail, done + [current], [w])
  {
    var gs, gs' := done + [current], done + [current] + [[w]];
    assert gs'[..|gs'| - 1] == gs;
    forall k | 0 <= k < |gs'| ensures |Join(gs'[k], " ")| <= avail || |gs'[k]| == 1 {
      if k < |gs| {
        assert gs'[k] == gs[k];
      }
    }
    forall k | 0 <= k < |gs'| - 1 && |gs'[k + 1]| > 0
      ensures |Join(gs'[k], " ")| + 1 + |gs'[k + 1][0]| > avail
    {
      assert gs'[k] == gs[k];
      if k + 1 < |gs| {
        assert gs'[k + 1] == gs[k + 1];
      }
    }
  }

  /** One more word keeps the loop's promises. */
  lemma StepOk(front: seq<string>, w: string, avail: int)
    requires w != []
    requires StateOk(front, avail, WrapState(front, avail).0, WrapState(front, avail).1)
    ensures StateOk(front + [w], avail, WrapState(front + [w], avail).0, WrapState(front + [w], avail).1)
  {
    var words := front + [w];
    assert words[..|words| - 1] == front;
    var done, current := WrapState(front, avail).0, WrapState(front, avail).1;
    if current == [] {
      assert front == [];
      StartOk(w, avail);
      assert WrapState(words, avail) == ([], [w]);
    } else if |Join(current, " ")| + 1 + |w| <= avail {
      ExtendOk(front, w, avail, done, current);
      assert WrapState(words, avail) == (done, current + [w]);
    } else {
      BreakOk(front, w, avail, done, current);
      assert WrapState(words, avail) == (done + [current], [w]);
    }
  }

  lemma {:induction false} WrapStateOk(words: seq<string>, avail: int)
    requires forall k :: 0 <= k < |words| ==> words[k] != []
    ensures StateOk(words, avail, WrapState(words, avail).0, WrapState(words, avail).1)
    decreases |words|
  {
    if |words| > 0 {
      var front, w := words[..|words| - 1], words[|words| - 1];
      assert words == front + [w];
      WrapStateOk(front, avail);
      StepOk(front, w, avail);
    }
  }

  /** The greedy wrap keeps its promises. */
  lemma WrapGreedy(words: seq<string>, avail: int)
    requires forall k :: 0 <= k < |words| ==> words[k] != []
    ensures GreedyGroups(words, avail, WrapGroups(words, avail))
    ensures |WrapGroups(words, avail)| == 0 <==> |words| == 0
  {
    WrapStateOk(words, avail);
  }

  /** The words `split()` finds in each line. */
  function SplitAll(lines: seq<string>): (groups: seq<seq<string>>)
    ensures |groups| == |lines| && forall k :: 0 <= k < |lines| ==> groups[k] == Split(lines[k])
  {
    seq(|lines|, k requires 0 <= k < |lines| => Split(lines[k]))
  }

  /** The wrap of a text's words, stated on the lines themselves: there is
      a line exactly when there is a word; read back with `split()`, the
      lines give the text's words in order; each line is its words joined
      by single spaces; each line fits within `avail` or holds one word; and
      the first word of each line would not have fitted on the line before. */
  lemma WrapLines(text: string, avail: int)
    ensures var words, lines := Split(text), Wrap(Split(text), avail);
      (|lines| == 0 <==> |words| == 0)
      && Flatten(SplitAll(lines)) == words
      && (forall k :: 0 <= k < |lines| ==> |Split(lines[k])| > 0 && lines[k] == Join(Split(lines[k]), " "))
      && (forall k :: 0 <= k < |lines| ==> |lines[k]| <= avail || |Split(lines[k])| == 1)
      && (forall k :: 0 <= k < |lines| - 1 ==> |lines[k]| + 1 + |Split(lines[k + 1])[0]| > avail)
  {
    SplitWords(text);
    WrapGreedy(Split(text), avail);
    WrapReadBack(text, avail);
  }

  /** Read back with `split()`, the lines of the wrap are its word lists. */
  lemma WrapReadBack(text: string, avail: int)
    ensures SplitAll(Wrap(Split(text), avail)) == WrapGroups(Split(text), avail)
    ensures Flatten(SplitAll(Wrap(Split(text), avail))) == Split(text)
  {
    var words := Split(text);
    SplitWords(text);
    WrapGreedy(words, avail);
    var groups := WrapGroups(words, avail);
    var lines := Wrap(words, avail);
    forall k | 0 <= k < |groups| ensures Split(lines[k]) == groups[k] {
      forall j | 0 <= j < |groups[k]| ensures groups[k][j] != [] && NoSpace(groups[k][j]) {
        WordOfGroup(words, groups, k, j);
      }
      SplitJoin(groups[k]);
    }
  }

  /** A word of a line of the wrap is one of the words wrapped. */
  lemma WordOfGroup(words: seq<string>, groups: seq<seq<string>>, k: nat, j: nat)
    requires Flatten(groups) == words
    requires k < |groups| && j < |groups[k]|
    ensures groups[k][j] in words
  {
    FlattenHas(groups, k);
    assert groups[k][j] in groups[k];
  }

  lemma {:induction false} FlattenHas(groups: seq<seq<string>>, k: nat)
    requires k < |groups|
    ensures forall x :: x in groups[k] ==> x in Flatten(groups)
    decreases |groups|
  {
    if k < |groups| - 1 {
      FlattenHas(groups[..|groups| - 1], k);
    }
  }

  // ---------------------------------------------------------------------
  // format_warning_text

  /** `indent + "[" + type + "] "`. */
  function Prefix(w: Warning, indent: string): string {
    indent + "[" + w.kind + "] "
  }

  /** The text shown for a record: its original text, with ` (xN)` appended
      when it stands for `N > 1` occurrences. */
  function Shown(w: Warning, count: int): string {
    if count > 1 then w.original + " (x" + NatToString(count) + ")" else w.original
  }

  /** `" " * n`. */
  function Spaces(n: nat): (r: string)
    ensures |r| == n && forall i :: 0 <= i < n ==> r[i] == ' '
  {
    seq(n, i => ' ')
  }

  /** The output lines of a wrapped record: the first behind the prefix, the
      others behind as many spaces as the prefix is long. */
  function Rows(prefix: string, lines: seq<string>): (rows: seq<string>)
    ensures |rows| == |lines|
    ensures forall k :: 0 <= k < |rows| ==> |rows[k]| == |prefix| + |lines[k]| && rows[k][|prefix|..] == lines[k]
    ensures |rows| > 0 ==> rows[0][..|prefix|] == prefix
    ensures forall k, i :: 0 < k < |rows| && 0 <= i < |prefix| ==> rows[k][i] == ' '
  {
    var rows := seq(|lines|, k requires 0 <= k < |lines| => (if k == 0 then prefix else Spaces(|prefix|)) + lines[k]);
    assert forall k :: 0 <= k < |rows| ==> |rows[k]| == |prefix| + |lines[k]| && rows[k][|prefix|..] == lines[k] by {
      forall k | 0 <= k < |rows| ensures |rows[k]| == |prefix| + |lines[k]| && rows[k][|prefix|..] == lines[k] {
        var margin := if k == 0 then prefix else Spaces(|prefix|);
        assert rows[k] == margin + lines[k];
      }
    }
    assert forall k, i :: 0 < k < |rows| && 0 <= i < |prefix| ==> |prefix| <= |rows[k]| && rows[k][i] == ' ' by {
      forall k, i | 0 < k < |rows| && 0 <= i < |prefix| ensures |prefix| <= |rows[k]| && rows[k][i] == ' ' {
        assert rows[k] == Spaces(|prefix|) + lines[k];
      }
    }
    rows
  }

  /** A joined list starts with its first element. */
  lemma JoinStart(parts: seq<string>, sep: string)
    requires |parts| > 0
    ensures StartsWith(Join(parts, sep), parts[0])
  {
    if |parts| > 1 {
      assert Join(parts, sep) == parts[0] + (sep + Join(parts[1..], sep));
    }
  }

  /** Lines joined by newlines split into the words of the lines. */
  lemma {:induction false} SplitJoinedRows(rows: seq<string>)
    ensures Split(Join(rows, "\n")) == Flatten(SplitAll(rows))
    decreases |rows|
  {
    if |rows| == 0 {
      assert Split("") == [];
    } else if |rows| == 1 {
      assert SplitAll(rows) == [Split(rows[0])];
      assert [Split(rows[0])][..0] == [];
    } else {
      var front, last := rows[..|rows| - 1], rows[|rows| - 1];
      assert rows == front + [last];
      SplitJoinSnoc(front, last);
      SplitJoinedRows(front);
      SplitAllSnoc(front, last);
    }
  }

  /** One more line, after a newline, adds its words. */
  lemma SplitJoinSnoc(front: seq<string>, last: string)
    requires |front| > 0
    ensures Split(Join(front + [last], "\n")) == Split(Join(front, "\n")) + Split(last)
  {
    var j := Join(front, "\n");
    assert Join(front + [last], "\n") == (j + "\n") + last by {
      JoinSnoc(front, last, "\n");
    }
    assert Split((j + "\n") + last) == Split(j + "\n") + Split(last) by {
      SplitAppend(j + "\n", last);
    }
    assert Split(j + "\n") == Split(j) by {
      SplitAppend(j, "\n");
      SplitAllSpace("\n");
    }
  }

  lemma SplitAllSnoc(front: seq<string>, last: string)
    ensures Flatten(SplitAll(front + [last])) == Flatten(SplitAll(front)) + Split(last)
  {
    var rows := front + [last];
    var all, n := SplitAll(rows), |front|;
    assert all[..n] == SplitAll(front) by {
      forall k | 0 <= k < n ensures all[..n][k] == SplitAll(front)[k] {
        assert rows[k] == front[k];
      }
    }
    assert all[n] == Split(last);
  }

  /** Flattening lists that differ only by a head on the first list. */
  lemma {:induction false} FlattenHead(a: seq<seq<string>>, b: seq<seq<string>>, head: seq<string>)
    requires |a| == |b| > 0 && a[0] == head + b[0]
    requires forall k :: 1 <= k < |a| ==> a[k] == b[k]
    ensures Flatten(a) == head + Flatten(b)
    decreases |a|
  {
    if |a| == 1 {
      assert a[..0] == [] && b[..0] == [];
    } else {
      FlattenHead(a[..|a| - 1], b[..|b| - 1], head);
    }
  }

  /** The words of one output line. */
  lemma RowWords(prefix: string, lines: seq<string>, k: nat)
    requires |prefix| > 0 && IsSpace(prefix[|prefix| - 1]) && k < |lines|
    ensures Split(Rows(prefix, lines)[k]) == (if k == 0 then Split(prefix) else []) + Split(lines[k])
  {
    if k == 0 {
      SplitAppend(prefix, lines[0]);
    } else {
      var pad := Spaces(|prefix|);
      SplitAppend(pad, lines[k]);
      SplitAllSpace(pad);
    }
  }

  /** The output lines hold the prefix's words, then the words of the lines. */
  lemma RowsWords(prefix: string, lines: seq<string>)
    requires |prefix| > 0 && IsSpace(prefix[|prefix| - 1]) && |lines| > 0
    ensures Flatten(SplitAll(Rows(prefix, lines))) == Split(prefix) + Flatten(SplitAll(lines))
  {
    var a, b := SplitAll(Rows(prefix, lines)), SplitAll(lines);
    forall k | 0 <= k < |a| ensures a[k] == (if k == 0 then Split(prefix) else []) + b[k] {
      RowWords(prefix, lines, k);
    }
    assert a[0] == Split(prefix) + b[0];
    FlattenHead(a, b, Split(prefix));
  }

  /** There is a line exactly when the text has a word. */
  lemma WrapEmpty(text: string, avail: int)
    ensures |Wrap(Split(text), avail)| == 0 <==> Split(text) == []
  {
    SplitWords(text);
    WrapGreedy(Split(text), avail);
  }

  /** A record that fits starts with the prefix and holds the prefix's words
      followed by the words of the text. */
  lemma ShortOutput(prefix: string, text: string)
    requires |prefix| > 0 && IsSpace(prefix[|prefix| - 1])
    ensures StartsWith(prefix + text, prefix) && Split(prefix + text) == Split(prefix) + Split(text)
  {
    SplitAppend(prefix, text);
    assert (prefix + text)[..|prefix|] == prefix;
  }

  /** A wrapped record's output starts with the prefix and holds the
      prefix's words followed by the words of the text. */
  lemma WrappedOutput(prefix: string, text: string, avail: int)
    requires |prefix| > 0 && IsSpace(prefix[|prefix| - 1]) && Split(text) != []
    ensures var out := Join(Rows(prefix, Wrap(Split(text), avail)), "\n");
      StartsWith(out, prefix) && Split(out) == Split(prefix) + Split(text)
  {
    var lines := Wrap(Split(text), avail);
    WrapReadBack(text, avail);
    WrapEmpty(text, avail);
    var rows := Rows(prefix, lines);
    RowsWords(prefix, lines);
    SplitJoinedRows(rows);
    JoinStart(rows, "\n");
  }

  /** The loop of `format_warning_text` over `text.split()`. */
  method WrapWords(text: string, avail: int) returns (lines: seq<string>)
    ensures lines == Wrap(Split(text), avail)
  {
    var words := Split(text);
    SplitWords(text);
    ghost var done: seq<seq<string>> := [];
    ghost var current: seq<string> := [];
    lines := [];
    var currentLine := "";
    var i := 0;
    while i < |words|
      invariant i <= |words|
      invariant (done, current) == WrapState(words[..i], avail)
      invariant lines == JoinAll(done) && currentLine == Join(current, " ")
      invariant current == [] <==> i == 0
      invariant currentLine == "" <==> i == 0
    {
      var word := words[i];
      assert words[..i + 1][..i] == words[..i];
      assert word != [];
      if currentLine == "" {
        currentLine := word;
        current := [word];
      } else if |currentLine| + 1 + |word| <= avail {
        JoinSnoc(current, word, " ");
        currentLine := currentLine + " " + word;
        current := current + [word];
      } else {
        lines := lines + [currentLine];
        done := done + [current];
        currentLine := word;
        current := [word];
      }
      i := i + 1;
    }
    assert words[..i] == words;
    if currentLine != "" {
      lines := lines + [currentLine];
      done := done + [current];
    }
  }

  /** What `format_warning_text` returns for a prefix and a text to show:
      `None` where the source raises `IndexError` (a text too long for the
      line that has no words to wrap). A text that fits is returned behind
      the prefix on one line; otherwise its words are wrapped within what
      the prefix leaves of `maxWidth` and laid out as `Rows`, joined by
      newlines. */
  function FormatText(prefix: string, text: string, maxWidth: int): (r: Option<string>)
    ensures |prefix + text| <= maxWidth ==> r == Some(prefix + text)
    ensures r.None? <==> |prefix + text| > maxWidth && Split(text) == []
  {
    if |prefix + text| <= maxWidth then Some(prefix + text)
    else if Split(text) == [] then None
    else Some(Join(Rows(prefix, Wrap(Split(text), maxWidth - |prefix|)), "\n"))
  }

  /** Whichever way it is laid out, the output starts with the prefix and
      `split()` finds in it the prefix's words and then exactly the words of
      the text. */
  lemma FormatTextOutput(prefix: string, text: string, maxWidth: int)
    requires |prefix| > 0 && IsSpace(prefix[|prefix| - 1])
    requires FormatText(prefix, text, maxWidth).Some?
    ensures var out := FormatText(prefix, text, maxWidth).value;
      StartsWith(out, prefix) && Split(out) == Split(prefix) + Split(text)
  {
    var out := FormatText(prefix, text, maxWidth).value;
    if |prefix + text| <= maxWidth {
      assert out == prefix + text;
      ShortOutput(prefix, text);
    } else {
      var avail := maxWidth - |prefix|;
      WrappedOutput(prefix, text, avail);
    }
  }

  /** The output of `format_warning_text` for a record starts with the
      indent and the bracketed type, and holds the words of the record's
      shown text in order after them. */
  lemma FormatWarningOutput(w: Warning, maxWidth: int, indent: string, count: int)
    requires FormatText(Prefix(w, indent), Shown(w, count), maxWidth).Some?
    ensures var out := FormatText(Prefix(w, indent), Shown(w, count), maxWidth).value;
      StartsWith(out, Prefix(w, indent)) && Split(out) == Split(Prefix(w, indent)) + Split(Shown(w, count))
  {
    var prefix := Prefix(w, indent);
    assert IsSpace(prefix[|prefix| - 1]);
    FormatTextOutput(prefix, Shown(w, count), maxWidth);
  }

  /** `format_warning_text`, with its wrapping loop and its closing loop. */
  method FormatWarningText(w: Warning, maxWidth: int, indent: string, count: int) returns (r: Option<string>)
    ensures r == FormatText(Prefix(w, indent), Shown(w, count), maxWidth)
  {
    var prefix := indent + "[" + w.kind + "] ";
    var text := w.original;
    if count > 1 {
      text := text + " (x" + NatToString(count) + ")";
    }
    assert prefix == Prefix(w, indent) && text == Shown(w, count);
    if |prefix + text| <= maxWidth {
      return Some(prefix + text);
    }
    var avail := maxWidth - |prefix|;
    var lines := WrapWords(text, avail);
    if |lines| == 0 {
      assert FormatText(prefix, text, maxWidth).None? by {
        WrapEmpty(text, avail);
      }
      return None;
    }
    assert FormatText(prefix, text, maxWidth) == Some(Join(Rows(prefix, lines), "\n")) by {
      WrapEmpty(text, avail);
    }
    var result := Layout(prefix, lines);
    return Some(result);
  }

  /** The closing loop of `format_warning_text`: the first line behind the
      prefix, each later one on a new line behind as many spaces. */
  method Layout(prefix: string, lines: seq<string>) returns (result: string)
    requires |lines| > 0
    ensures result == Join(Rows(prefix, lines), "\n")
  {
    ghost var rows := Rows(prefix, lines);
    result := prefix + lines[0];
    assert rows[..1] == [result];
    var i := 1;
    while i < |lines|
      invariant 1 <= i <= |lines|
      invariant result == Join(rows[..i], "\n")
    {
      assert rows[..i + 1] == rows[..i] + [rows[i]];
      JoinSnoc(rows[..i], rows[i], "\n");
      result := result + "\n" + Spaces(|prefix|) + lines[i];
      i := i + 1;
    }
    assert rows[..i] == rows;
  }

  /** The documented example of `format_warning_text`: a short record on
      one line behind the default indent. */
  lemma FormatDocExample(w: Warning)
    requires w == Warning("short", "short", "Warning", "<test>", "", 0)
    ensures FormatText(Prefix(w, "  "), Shown(w, 1), 80) == Some("  [Warning] short")
  {
    assert Prefix(w, "  ") + Shown(w, 1) == "  [Warning] short";
  }

  /** Three words wrapped within seven columns: two fit on the first line. */
  lemma WrapExample()
    ensures Wrap(["aaa", "bbb", "ccc"], 7) == ["aaa bbb", "ccc"]
  {
    var words := ["aaa", "bbb", "ccc"];
    var one, two: seq<string> := ["aaa"], ["aaa", "bbb"];
    assert two[..1] == one && one[..0] == [];
    assert WrapState(one, 7) == ([], one);
    assert |Join(one, " ")| + 1 + |"bbb"| <= 7;
    assert one + ["bbb"] == two;
    assert WrapState(two, 7) == ([], two);
    assert Join(two, " ") == "aaa bbb";
    assert |Join(two, " ")| + 1 + |"ccc"| > 7;
    assert words[..|words| - 1] == two && words[|words| - 1] == "ccc";
    var empty: seq<seq<string>> := [];
    assert empty + [two] == [two];
    assert WrapState(words, 7) == ([two], ["ccc"]);
    assert WrapGroups(words, 7) == [["aaa", "bbb"], ["ccc"]];
  }
}

=== FILE: text.dfy ===
/**
  Text primitives with the semantics of the Python string operations the
  log analyzer relies on: whitespace per `str.isspace` (which is also what the
  regular-expression classes `\s` / `\S` use on text), `strip`, `lstrip`,
  `split()`, `lower()`, substring tests, decimal digits and the ordering that
  `sorted()` uses on strings.
*/
module Strings {

  /** Python's `str.isspace` for a single character, by code point. */
  predicate IsSpace(c: char) {
    var n := c as int;
    n == 32 || 9 <= n <= 13 || 28 <= n <= 31 || n == 0x85 || n == 0xA0 || n == 0x1680
    || 0x2000 <= n <= 0x200A || n == 0x2028 || n == 0x2029 || n == 0x202F
    || n == 0x205F || n == 0x3000
  }

  /** ASCII decimal digit (the `\d` class, restricted to ASCII). */
  predicate IsDigit(c: char) {
    '0' <= c <= '9'
  }

  /** ASCII letter (the `[A-Za-z]` class). */
  predicate IsLetter(c: char) {
    'A' <= c <= 'Z' || 'a' <= c <= 'z'
  }

  /** Every character is whitespace (so `s.strip()` is empty). */
  predicate AllSpace(s: string) {
    forall i :: 0 <= i < |s| ==> IsSpace(s[i])
  }

  /** No character is whitespace. */
  predicate NoSpace(s: string) {
    forall i :: 0 <= i < |s| ==> !IsSpace(s[i])
  }

  /** `s.lstrip()`: drops the leading whitespace. */
  function LStrip(s: string): (r: string)
    ensures |r| <= |s|
    decreases |s|
  {
    if |s| > 0 && IsSpace(s[0]) then LStrip(s[1..]) else s
  }

  /** `lstrip()` drops a whitespace prefix and keeps the rest: the result is
      a suffix of `s` that does not start with whitespace, empty exactly when
      `s` is all whitespace. */
  lemma {:induction false} LStripSpec(s: string)
    ensures var r := LStrip(s);
      r == s[|s| - |r|..] && AllSpace(s[..|s| - |r|])
      && (r != [] ==> !IsSpace(r[0])) && (r == [] <==> AllSpace(s))
    decreases |s|
  {
    if |s| > 0 && IsSpace(s[0]) {
      LStripSpec(s[1..]);
      var r := LStrip(s);
      assert s[|s| - |r|..] == s[1..][|s| - 1 - |r|..];
      assert forall i :: 1 <= i < |s| - |r| ==> s[i] == s[1..][i - 1];
      assert AllSpace(s[1..]) ==> AllSpace(s) by {
        assert forall i :: 1 <= i < |s| ==> s[i] == s[1..][i - 1];
      }
    }
  }

  /** `s.rstrip()`: drops the trailing whitespace. */
  function RStrip(s: string): (r: string)
    ensures |r| <= |s|
    decreases |s|
  {
    if |s| > 0 && IsSpace(s[|s| - 1]) then RStrip(s[..|s| - 1]) else s
  }

  /** `rstrip()` drops a whitespace suffix and keeps the rest: the result is
      a prefix of `s` that does not end with whitespace, empty exactly when
      `s` is all whitespace. */
  lemma {:induction false} RStripSpec(s: string)
    ensures var r := RStrip(s);
      r == s[..|r|] && AllSpace(s[|r|..])
      && (r != [] ==> !IsSpace(r[|r| - 1])) && (r == [] <==> AllSpace(s))
    decreases |s|
  {
    if |s| > 0 && IsSpace(s[|s| - 1]) {
      var t := s[..|s| - 1];
      RStripSpec(t);
      var r := RStrip(s);
      assert r == t[..|r|];
      assert forall i :: 0 <= i < |r| ==> r[i] == s[i];
      assert s[|r|..] == t[|r|..] + [s[|s| - 1]];
      assert AllSpace(t) ==> AllSpace(s) by {
        assert forall i :: 0 <= i < |t| ==> s[i] == t[i];
      }
    }
  }

  /** `s.strip()`. */
  function Strip(s: string): string {
    RStrip(LStrip(s))
  }

  /** A string that starts and ends with something other than whitespace
      is its own strip. */
  lemma StripKept(s: string)
    requires |s| > 0 && !IsSpace(s[0]) && !IsSpace(s[|s| - 1])
    ensures Strip(s) == s
  {
    assert LStrip(s) == s;
  }

  /** One space in front of a string that does not start with whitespace
      is stripped away. */
  lemma LStripOneSpace(s: string)
    requires s == [] || !IsSpace(s[0])
    ensures LStrip(" " + s) == s
  {
    assert (" " + s)[1..] == s;
  }

  /** `not s.strip()`: the test the parser uses to skip blank lines. */
  predicate IsBlank(s: string) {
    Strip(s) == []
  }

  /** Number of leading whitespace characters that `strip()` drops. */
  function LeadingSpaceCount(s: string): nat {
    |s| - |LStrip(s)|
  }

  /** The result of `strip()` is a slice of `s` that starts after the leading
      whitespace, and neither of its ends is whitespace. */
  lemma StripSpec(s: string)
    ensures var r, a := Strip(s), LeadingSpaceCount(s);
      a + |r| <= |s| && r == s[a..a + |r|]
      && (r != [] ==> !IsSpace(r[0]) && !IsSpace(r[|r| - 1]))
  {
    var l := LStrip(s);
    var r := RStrip(l);
    var a := |s| - |l|;
    LStripSpec(s);
    RStripSpec(l);
    assert r == s[a..a + |r|] by {
      assert forall i :: 0 <= i < |r| ==> r[i] == l[i] == s[a + i];
    }
  }

  /** A line is blank exactly when every character of it is whitespace. */
  lemma BlankIffAllSpace(s: string)
    ensures IsBlank(s) <==> AllSpace(s)
  {
    LStripSpec(s);
    RStripSpec(LStrip(s));
  }

  /** Python's `sub in s`. */
  predicate Contains(s: string, sub: string) {
    exists i :: 0 <= i <= |s| - |sub| && OccursAt(s, sub, i)
  }

  /** `sub` occurs in `s` starting at index `i`. */
  predicate OccursAt(s: string, sub: string, i: nat)
    requires i + |sub| <= |s|
  {
    s[i..i + |sub|] == sub
  }

  /** Python's `s.startswith(p)`. */
  predicate StartsWith(s: string, p: string) {
    |p| <= |s| && s[..|p|] == p
  }

  /** Python's `s.endswith(p)`. */
  predicate EndsWith(s: string, p: string) {
    |p| <= |s| && s[|s| - |p|..] == p
  }

  /** The index of the first `c` in `s` at or after `i`, or `|s|` when
      there is none: Python's `s.find(c, i)`, with `|s|` in place of -1. */
  function FindFrom(s: string, c: char, i: nat): (k: nat)
    requires i <= |s|
    ensures i <= k <= |s| && (k < |s| ==> s[k] == c)
    ensures forall j :: i <= j < k ==> s[j] != c
    decreases |s| - i
  {
    if i == |s| || s[i] == c then i else FindFrom(s, c, i + 1)
  }

  /** Length of the longest prefix of `s` that holds no whitespace. */
  function WordLength(s: string): (n: nat)
    ensures n <= |s| && NoSpace(s[..n]) && (n < |s| ==> IsSpace(s[n]))
  {
    if |s| == 0 || IsSpace(s[0]) then 0 else 1 + WordLength(s[1..])
  }

  /** `s.split()` with no argument: the maximal runs of non-whitespace. */
  function Split(s: string): (words: seq<string>)
    decreases |s|
  {
    var t := LStrip(s);
    if t == [] then [] else
    var n := WordLength(t);
    [t[..n]] + Split(t[n..])
  }

  /** The words `split()` returns are non-empty and hold no whitespace. */
  lemma {:induction false} SplitWords(s: string)
    ensures forall k :: 0 <= k < |Split(s)| ==> Split(s)[k] != [] && NoSpace(Split(s)[k])
    decreases |s|
  {
    var t := LStrip(s);
    LStripSpec(s);
    if t != [] {
      var n := WordLength(t);
      var rest := Split(t[n..]);
      SplitWords(t[n..]);
      assert Split(s) == [t[..n]] + rest;
      forall k | 0 <= k < |Split(s)| ensures Split(s)[k] != [] && NoSpace(Split(s)[k]) {
        if k > 0 {
          assert Split(s)[k] == rest[k - 1];
        }
      }
    }
  }

  /** `sep.join(words)`. */
  function Join(words: seq<string>, sep: string): string {
    if |words| == 0 then ""
    else if |words| == 1 then words[0]
    else words[0] + sep + Join(words[1..], sep)
  }

  /** Joining one more word appends the separator and the word. */
  lemma {:induction false} JoinSnoc(words: seq<string>, w: string, sep: string)
    requires |words| > 0
    ensures Join(words + [w], sep) == Join(words, sep) + sep + w
    decreases |words|
  {
    if |words| > 1 {
      assert (words + [w])[1..] == words[1..] + [w];
      JoinSnoc(words[1..], w, sep);
    }
  }

  /** Joining with single spaces is undone by `split()`, provided the words
      are non-empty and hold no whitespace. */
  lemma {:induction false} SplitJoin(words: seq<string>)
    requires forall k :: 0 <= k < |words| ==> words[k] != [] && NoSpace(words[k])
    ensures Split(Join(words, " ")) == words
  {
    if |words| == 0 {
      assert Join(words, " ") == "";
      assert Split("") == [];
    } else if |words| == 1 {
      assert Join(words, " ") == words[0];
      assert Split(words[0]) == [words[0]] by {
        assert words[0] + "" == words[0];
        SplitOneWord(words[0], "");
        assert Split("") == [];
      }
    } else if |words| > 1 {
      var rest := Join(words[1..], " ");
      assert Join(words, " ") == words[0] + (" " + rest);
      assert Split(words[0] + (" " + rest)) == [words[0]] + Split(" " + rest) by {
        SplitOneWord(words[0], " " + rest);
      }
      assert Split(" " + rest) == Split(rest) by {
        SplitLeadingSpace(rest);
      }
      SplitJoin(words[1..]);
      assert [words[0]] + words[1..] == words;
    }
  }

  /** `split()` does not see leading whitespace. */
  lemma SplitLeadingSpace(s: string)
    ensures Split(" " + s) == Split(s)
  {
    assert (" " + s)[1..] == s;
    LStripIdempotent(s);
  }

  /** `split()` finds no word in whitespace. */
  lemma SplitAllSpace(s: string)
    requires AllSpace(s)
    ensures Split(s) == []
  {
    LStripSpec(s);
  }

  /** `split()` skips a leading whitespace character. */
  lemma SplitDropSpace(s: string)
    requires |s| > 0 && IsSpace(s[0])
    ensures Split(s) == Split(s[1..])
  {
  }

  /** Text cut at whitespace splits into the words of its two pieces. */
  lemma {:induction false} SplitAppend(a: string, b: string)
    requires a == [] || b == [] || IsSpace(a[|a| - 1]) || IsSpace(b[0])
    ensures Split(a + b) == Split(a) + Split(b)
    decreases |a|, 1
  {
    if a == [] {
      assert a + b == b;
      assert Split(a) == [];
    } else if IsSpace(a[0]) {
      assert (a + b)[1..] == a[1..] + b;
      SplitDropSpace(a + b);
      SplitDropSpace(a);
      SplitAppend(a[1..], b);
    } else {
      SplitAppendWord(a, b);
    }
  }

  /** `SplitAppend` when `a` starts with a word. */
  lemma {:induction false} SplitAppendWord(a: string, b: string)
    requires a != [] && !IsSpace(a[0])
    requires b == [] || IsSpace(a[|a| - 1]) || IsSpace(b[0])
    ensures Split(a + b) == Split(a) + Split(b)
    decreases |a|, 0
  {
    var n := WordLength(a);
    if n < |a| {
      var w, rest := a[..n], a[n..];
      SplitAtWord(a, b);
      assert rest[|rest| - 1] == a[|a| - 1];
      SplitAppend(rest, b);
      assert [w] + (Split(rest) + Split(b)) == ([w] + Split(rest)) + Split(b);
    } else {
      SplitWholeWord(a, b);
    }
  }

  /** A text that starts with a word and goes on after it, with more text behind. */
  lemma SplitAtWord(a: string, b: string)
    requires a != [] && !IsSpace(a[0]) && WordLength(a) < |a|
    ensures Split(a) == [a[..WordLength(a)]] + Split(a[WordLength(a)..])
    ensures Split(a + b) == [a[..WordLength(a)]] + Split(a[WordLength(a)..] + b)
  {
    var n := WordLength(a);
    var w, rest := a[..n], a[n..];
    assert a == w + rest && a + b == w + (rest + b);
    assert Split(a) == [w] + Split(rest) by {
      SplitOneWord(w, rest);
    }
    assert Split(a + b) == [w] + Split(rest + b) by {
      SplitOneWord(w, rest + b);
    }
  }

  /** A text that is one word, with more text behind. */
  lemma SplitWholeWord(a: string, b: string)
    requires a != [] && WordLength(a) == |a|
    requires b == [] || IsSpace(a[|a| - 1]) || IsSpace(b[0])
    ensures Split(a + b) == Split(a) + Split(b)
  {
    assert a[..|a|] == a && NoSpace(a);
    assert Split(a + b) == [a] + Split(b) by {
      SplitOneWord(a, b);
    }
    assert Split(a) == [a] by {
      SplitOneWord(a, []);
      assert a + [] == a;
      assert Split([]) == [];
    }
  }

  /** `s.lstrip()` is a suffix of `s`. */
  lemma {:induction false} LStripSuffix(s: string)
    ensures LStrip(s) == s[|s| - |LStrip(s)|..]
    decreases |s|
  {
    if |s| > 0 && IsSpace(s[0]) {
      LStripSuffix(s[1..]);
    }
  }

  /** Leading whitespace before text that starts with none is stripped away. */
  lemma {:induction false} LStripSpaces(sp: string, rest: string)
    requires AllSpace(sp) && (rest == [] || !IsSpace(rest[0]))
    ensures LStrip(sp + rest) == rest
    decreases |sp|
  {
    if |sp| == 0 {
      assert sp + rest == rest;
    } else {
      assert (sp + rest)[1..] == sp[1..] + rest;
      LStripSpaces(sp[1..], rest);
    }
  }

  lemma LStripIdempotent(s: string)
    ensures LStrip(LStrip(s)) == LStrip(s)
  {
  }

  /** A word followed by text that is empty or starts with whitespace is the
      first word `split()` returns. */
  lemma SplitOneWord(w: string, tail: string)
    requires w != [] && NoSpace(w)
    requires tail == [] || IsSpace(tail[0])
    ensures Split(w + tail) == [w] + Split(tail)
  {
    var s := w + tail;
    assert LStrip(s) == s;
    WordLengthOf(w, tail);
    assert s[|w|..] == tail;
    assert s[..|w|] == w;
  }

  lemma {:induction false} WordLengthOf(w: string, tail: string)
    requires NoSpace(w)
    requires tail == [] || IsSpace(tail[0])
    ensures WordLength(w + tail) == |w|
  {
    if |w| > 0 {
      assert (w + tail)[1..] == w[1..] + tail;
      WordLengthOf(w[1..], tail);
    } else {
      assert w + tail == tail;
    }
  }

  /** End of the run of whitespace that starts at `i` (the regex `\s*`). */
  function SpacesEnd(s: string, i: nat): (j: nat)
    requires i <= |s|
    ensures i <= j <= |s|
    decreases |s| - i
  {
    if i < |s| && IsSpace(s[i]) then SpacesEnd(s, i + 1) else i
  }

  /** End of the run of non-whitespace that starts at `i` (the regex `\S*`). */
  function WordEnd(s: string, i: nat): (j: nat)
    requires i <= |s|
    ensures i <= j <= |s|
    decreases |s| - i
  {
    if i < |s| && !IsSpace(s[i]) then WordEnd(s, i + 1) else i
  }

  /** End of the run of ASCII digits that starts at `i` (the regex `\d*`). */
  function DigitsEnd(s: string, i: nat): (j: nat)
    requires i <= |s|
    ensures i <= j <= |s|
    decreases |s| - i
  {
    if i < |s| && IsDigit(s[i]) then DigitsEnd(s, i + 1) else i
  }

  /** The whitespace run from `i` ends at `j` exactly when `s[i..j]` is
      whitespace and `s[j]` is not (or `j` is the end). */
  lemma {:induction false} SpacesEndIs(s: string, i: nat, j: nat)
    requires i <= j <= |s|
    ensures SpacesEnd(s, i) == j <==> (forall k :: i <= k < j ==> IsSpace(s[k])) && (j < |s| ==> !IsSpace(s[j]))
    decreases |s| - i
  {
    if i < |s| && IsSpace(s[i]) {
      if i < j {
        SpacesEndIs(s, i + 1, j);
      } else {
        assert SpacesEnd(s, i) != j by {
          assert SpacesEnd(s, i) == SpacesEnd(s, i + 1);
        }
      }
    }
  }

  /** The word from `i` ends at `j` exactly when `s[i..j]` has no whitespace
      and `s[j]` is whitespace (or `j` is the end). */
  lemma {:induction false} WordEndIs(s: string, i: nat, j: nat)
    requires i <= j <= |s|
    ensures WordEnd(s, i) == j <==> (forall k :: i <= k < j ==> !IsSpace(s[k])) && (j < |s| ==> IsSpace(s[j]))
    decreases |s| - i
  {
    if i < |s| && !IsSpace(s[i]) {
      if i < j {
        WordEndIs(s, i + 1, j);
      } else {
        assert WordEnd(s, i) != j by {
          assert WordEnd(s, i) == WordEnd(s, i + 1);
        }
      }
    }
  }

  /** The digit run from `i` ends at `j` exactly when `s[i..j]` is digits
      and `s[j]` is not (or `j` is the end). */
  lemma {:induction false} DigitsEndIs(s: string, i: nat, j: nat)
    requires i <= j <= |s|
    ensures DigitsEnd(s, i) == j <==> (forall k :: i <= k < j ==> IsDigit(s[k])) && (j < |s| ==> !IsDigit(s[j]))
    decreases |s| - i
  {
    if i < |s| && IsDigit(s[i]) {
      if i < j {
        DigitsEndIs(s, i + 1, j);
      } else {
        assert DigitsEnd(s, i) != j by {
          assert DigitsEnd(s, i) == DigitsEnd(s, i + 1);
        }
      }
    }
  }

  /** Python's `str.lower()` on one character, for ASCII letters. */
  function LowerChar(c: char): char {
    if 'A' <= c <= 'Z' then (c as int + 32) as char else c
  }

  /** Python's `str.lower()`, for ASCII letters. */
  function Lower(s: string): (r: string)
    ensures |r| == |s|
    ensures forall i :: 0 <= i < |s| ==> r[i] == LowerChar(s[i])
  {
    seq(|s|, i requires 0 <= i < |s| => LowerChar(s[i]))
  }

  /** A lower-cased string is its own lower-case form. */
  lemma LowerIdempotent(s: string)
    ensures Lower(Lower(s)) == Lower(s)
  {
  }

  /** A visible ASCII character is not whitespace. */
  lemma VisibleNotSpace(c: char)
    requires '!' <= c <= '~'
    ensures !IsSpace(c)
  {
  }

  /** Lower-casing keeps letters letters and everything else as it is;
      a letter is not whitespace. */
  lemma LowerCharLetter(a: char)
    ensures IsLetter(LowerChar(a)) <==> IsLetter(a)
    ensures !IsLetter(a) ==> LowerChar(a) == a
    ensures IsLetter(a) ==> !IsSpace(a)
  {
  }

  /** `re.sub(r"\s+", " ", s)`: every maximal run of whitespace becomes one space. */
  function CollapseSpaces(s: string): (r: string)
    decreases |s|
  {
    if |s| == 0 then ""
    else if IsSpace(s[0]) then " " + CollapseSpaces(LStrip(s))
    else [s[0]] + CollapseSpaces(s[1..])
  }

  /** Spacing of a normalized key: no whitespace at either end, and every
      whitespace character is a single ' ' followed by a non-whitespace one. */
  predicate SingleSpaced(s: string) {
    (|s| > 0 ==> !IsSpace(s[0]) && !IsSpace(s[|s| - 1]))
    && forall i :: 0 <= i < |s| && IsSpace(s[i]) ==> s[i] == ' ' && i + 1 < |s| && !IsSpace(s[i + 1])
  }

  /** Inner spacing after collapsing: every whitespace character is a single
      ' ' and the next character, if any, is not whitespace. */
  ghost predicate Collapsed(s: string) {
    (forall i :: 0 <= i < |s| && IsSpace(s[i]) ==> s[i] == ' ')
    && forall i, j {:trigger s[i], s[j]} :: 0 <= i < |s| && j == i + 1 && j < |s| && IsSpace(s[i]) ==> !IsSpace(s[j])
  }

  lemma {:induction false} CollapseSpacesCollapsed(s: string)
    ensures Collapsed(CollapseSpaces(s))
    ensures CollapseSpaces(s) != [] && !IsSpace(CollapseSpaces(s)[0]) ==> s != [] && !IsSpace(s[0])
    ensures s != [] && !IsSpace(s[0]) ==> CollapseSpaces(s) != [] && !IsSpace(CollapseSpaces(s)[0])
    decreases |s|
  {
    if |s| > 0 {
      if IsSpace(s[0]) {
        var t := LStrip(s);
        LStripSpec(s);
        CollapseSpacesCollapsed(t);
        var r := " " + CollapseSpaces(t);
        forall i | 0 <= i < |r| && IsSpace(r[i])
          ensures r[i] == ' ' && (i + 1 < |r| ==> !IsSpace(r[i + 1]))
        {
          if i > 0 {
            assert r[i] == CollapseSpaces(t)[i - 1];
            if i + 1 < |r| {
              assert r[i + 1] == CollapseSpaces(t)[i];
            }
          } else if 1 < |r| {
            assert t != [] && !IsSpace(t[0]);
          }
        }
      } else {
        CollapseSpacesCollapsed(s[1..]);
        var r := [s[0]] + CollapseSpaces(s[1..]);
        forall i | 0 <= i < |r| && IsSpace(r[i])
          ensures r[i] == ' ' && (i + 1 < |r| ==> !IsSpace(r[i + 1]))
        {
          assert i > 0;
          assert r[i] == CollapseSpaces(s[1..])[i - 1];
          if i + 1 < |r| {
            assert r[i + 1] == CollapseSpaces(s[1..])[i];
          }
        }
      }
    }
  }

  /** Collapsing whitespace runs and then stripping gives single spacing. */
  lemma CollapseThenStrip(s: string)
    ensures SingleSpaced(Strip(CollapseSpaces(s)))
  {
    CollapseSpacesCollapsed(s);
    StripCollapsed(CollapseSpaces(s));
  }

  /** Stripping a collapsed string gives single spacing. */
  lemma StripCollapsed(c: string)
    requires Collapsed(c)
    ensures SingleSpaced(Strip(c))
  {
    StripSpec(c);
    StrippedSlice(c, LeadingSpaceCount(c), Strip(c));
  }

  /** A slice of a collapsed string whose ends are not whitespace is single-spaced. */
  lemma StrippedSlice(c: string, a: nat, r: string)
    requires Collapsed(c)
    requires a + |r| <= |c| && r == c[a..a + |r|]
    requires r != [] ==> !IsSpace(r[0]) && !IsSpace(r[|r| - 1])
    ensures SingleSpaced(r)
  {
    forall i | 0 <= i < |r| && IsSpace(r[i])
      ensures r[i] == ' ' && i + 1 < |r| && !IsSpace(r[i + 1])
    {
      assert r[i] == c[a + i];
      if i + 1 < |r| {
        assert r[i + 1] == c[a + i + 1];
        assert !IsSpace(c[a + i + 1]);
      }
    }
  }

  /** Collapsing leaves alone a string whose every whitespace character is
      a single ' ' followed by a non-whitespace one. */
  lemma {:induction false} CollapseKeepsSingleSpaces(s: string)
    requires forall i :: 0 <= i < |s| && IsSpace(s[i]) ==> s[i] == ' ' && i + 1 < |s| && !IsSpace(s[i + 1])
    ensures CollapseSpaces(s) == s
    decreases |s|
  {
    if |s| > 0 {
      assert forall i :: 0 <= i < |s| - 1 ==> s[1..][i] == s[i + 1];
      CollapseKeepsSingleSpaces(s[1..]);
      if IsSpace(s[0]) {
        assert LStrip(s) == LStrip(s[1..]) == s[1..];
      }
    }
  }

  /** Collapsing and stripping a single-spaced string gives it back: the
      last two steps of normalization are idempotent. */
  lemma SingleSpacedFixed(s: string)
    requires SingleSpaced(s)
    ensures Strip(CollapseSpaces(s)) == s
  {
    CollapseKeepsSingleSpaces(s);
  }

  /** Lower-casing keeps every character's whitespace status. */
  lemma LowerKeepsSpacing(s: string)
    requires SingleSpaced(s)
    ensures SingleSpaced(Lower(s))
  {
    var r := Lower(s);
    forall i | 0 <= i < |s| ensures IsSpace(r[i]) <==> IsSpace(s[i]) && (IsSpace(s[i]) ==> r[i] == s[i]) {
    }
  }

  /** Value of a string of decimal digits. */
  function DecimalValue(ds: string): nat
    requires forall i :: 0 <= i < |ds| ==> IsDigit(ds[i])
  {
    if |ds| == 0 then 0
    else
      var d := ds[|ds| - 1];
      assert IsDigit(d);
      10 * DecimalValue(ds[..|ds| - 1]) + (d as int - '0' as int)
  }

  /** `str(n)` for a natural number. */
  function NatToString(n: nat): (r: string)
    ensures |r| > 0 && forall i :: 0 <= i < |r| ==> IsDigit(r[i])
  {
    if n < 10 then [('0' as int + n) as char]
    else NatToString(n / 10) + [('0' as int + n % 10) as char]
  }

  /** `int(str(n)) == n`: the decimal text of a number reads back as that number. */
  lemma {:induction false} NatToStringValue(n: nat)
    ensures DecimalValue(NatToString(n)) == n
  {
    var r := NatToString(n);
    if n >= 10 {
      NatToStringValue(n / 10);
      assert r[..|r| - 1] == NatToString(n / 10);
    }
  }

  /** Python's `a < b` on strings: lexicographic by code point, a proper prefix
      being smaller. */
  predicate Less(a: string, b: string) {
    if |a| == 0 then |b| > 0
    else if |b| == 0 then false
    else a[0] < b[0] || (a[0] == b[0] && Less(a[1..], b[1..]))
  }

  lemma {:induction false} LessIrreflexive(a: string)
    ensures !Less(a, a)
  {
    if |a| > 0 {
      LessIrreflexive(a[1..]);
    }
  }

  lemma {:induction false} LessTransitive(a: string, b: string, c: string)
    requires Less(a, b) && Less(b, c)
    ensures Less(a, c)
  {
    if |a| > 0 && |b| > 0 && |c| > 0 && a[0] == b[0] && b[0] == c[0] {
      LessTransitive(a[1..], b[1..], c[1..]);
    }
  }

  lemma {:induction false} LessTotal(a: string, b: string)
    ensures a == b || Less(a, b) || Less(b, a)
  {
    if |a| > 0 && |b| > 0 && a[0] == b[0] {
      LessTotal(a[1..], b[1..]);
      if a[1..] == b[1..] {
        assert a == [a[0]] + a[1..] && b == [b[0]] + b[1..];
      }
    }
  }
}

=== FILE: wrappers.dfy ===
/** Optional values and results with an error, used for the source's `None`
    returns and raised exceptions. */
module Wrappers {

  datatype Option<T> = None | Some(value: T)

  datatype Result<T, E> = Success(value: T) | Failure(error: E)
}
